=== FILE: README.md ===
# Room compound DAO generator — a Dafny model

This project models the core of the `android-room-compound` annotation processor. A class annotated `@Compound` describes a tree of Room rows: one `@Embedded` anchor, plus `@Relation` children that are either leaf `@Entity` rows or nested compounds, possibly reached through collections. From that tree the processor generates a `@Dao` interface with three functions:

- `insertOrReplace(compound)` wraps its argument in `listOf(...)` and delegates.
- `insertOrReplace(compounds)` declares one `HashSet` accumulator per distinct leaf entity class. It then walks every compound in the list, adding each leaf value to its accumulator and guarding nullable access chains with `?.let`. Finally it calls the batch function.
- The abstract `insertOrReplaceEntities(...)` takes one `Collection<T>` parameter per distinct leaf entity class.

Modules, one per file:

- `wrappers.dfy`: `Option` and `Result`. A logged-and-thrown error becomes a `Failure`.
- `syntax.dfy`: the string constants of `KotlinSyntax.kt`, `RoomSyntax.kt` and `OutputSyntax.kt`. Constants the repository does not define in the shown revision (`IT_KEYWORD`, `COMPOUND_LIST_PARAMETER_NAME`, `COMPOUND_PARAMETER_NAME`, `PARAMETER_NAME_SEPARATOR`, `TYPE_CONCAT_INDICATOR`, `NO_WRAP_KEYWORD_SEPARATOR`) are declared without a value. No proof depends on what they hold.
- `text.dfy`: `titleToCamelCase`. Both copies are identical, so it is defined once.
- `data.dfy`: `TypeInfo`, `PropertyInfo`, `EntityJunction`, the `EntityData` tree and `CompoundData`, plus the depth-first leaf list.
- `code.dfy`: an abstract KotlinPoet code block (statements, `beginControlFlow`, `endControlFlow`), parameters and function specs, and scope balance.
- `poet.dfy`: the string builders of both `PoetUtils.kt` files.
- `discovery.dfy`: the dedup walk shared by the declaration, batch-argument and parameter passes, against a reference deduplication.
- `mapping.dfy`: the flatten/mapping block as a tree of `forEach` scopes and additions, rendered to statements.
- `generator.dfy`: the DAO name, the three passes, the single and list insert functions, and the assembled interface.
- `declarations.dfy`: an in-memory stand-in for the resolved class, property, type and annotation declarations the visitors read.
- `visitor.dfy`: the tree builder of `ksp/CompoundVisitor.kt`.
- `legacy.dfy`: the older validator of `ksp/CompoundProcessor.kt`, which has its own tree shape and a diagnostics log.
- `samples.dfy`: the sample compounds `SecondCompound` and `ForthCompound` as concrete trees and declarations.

Where the code behaves differently from what its names suggest, the model follows the code:

- **Dedup key.** Accumulators are deduplicated on the camel-cased simple class name (a `HashSet<String>`), not on type identity. Two classes with the same simple name in different packages share one accumulator.
- **Junction rows.** Junction metadata is read by the visitor, but the generator never consumes it. No junction rows, accumulators or parameters are generated.
- **Multiple embedded parents.** The visitor does not check for more than one `@Embedded` property. Each embedded property becomes a child like a relation does. The older validator logs "multiple embedded parents" and carries on, keeping the last one (`Samples.LegacyKeepsLastEmbeddedParent`).
- **DAO postfix.** `useDaoPostfix` is off unless its value is exactly `"true"`. The same holds for `useDaoPrefix` and `suspendDao`.
- **Outer loop.** The mapping block's outer `forEach` runs over the compound list parameter. Its `parents` argument is threaded through but never read, so it is not modelled.
- **Field names.** The generator reads `className`, `propertyName`, `isNullable` and `isCollection` directly on a node. In the data classes these fields sit on `typeInfo` and `propertyInfo`, and the model reads them there.
- **Two-argument forEach.** The two-argument `createForEachSyntax(collection, isNullable)` the generator calls is modelled as the collection, a `?` exactly when nullable, then `.forEach`.

## Model

| member | source | states |
|---|---|---|
| Text.TitleToCamelCase | processor/src/main/java/com/attafitamim/room/compound/processor/generator/utils/TextUtils.kt:3-9 | blank input is an error, and only blank input. Otherwise the result has the input's length, its first character is the lower-case form of the input's first, and every later character is unchanged |
| Text.TitleToCamelCaseIdempotent | processor/src/main/java/com/attafitamim/room/compound/processor/utils/TextUtils.kt:3-9 | applying the conversion to its own output gives the same output |
| Text.LowerInitialIsFixedPoint | processor/src/main/java/com/attafitamim/room/compound/processor/generator/utils/TextUtils.kt:6-8 | a string that does not start with an upper-case letter or whitespace is returned unchanged |
| Data.Leaves | processor/src/main/java/com/attafitamim/room/compound/processor/generator/CompoundGenerator.kt:112-122 | the depth-first walk over compounds yields only leaf entities, children in list order |
| Data.WellFormedHasLeaves | processor/src/main/java/com/attafitamim/room/compound/processor/ksp/CompoundVisitor.kt:78-82 | when every compound has a child, a non-empty forest reaches at least one leaf entity |
| Code.BalancedAppend | processor/src/main/java/com/attafitamim/room/compound/processor/generator/CompoundGenerator.kt:47-50 | appending balanced code blocks keeps the result balanced |
| Code.BalancedWrap | processor/src/main/java/com/attafitamim/room/compound/processor/generator/CompoundGenerator.kt:152-165 | one `beginControlFlow`/`endControlFlow` pair around a balanced body is balanced |
| Poet.AccessSegments | processor/src/main/java/com/attafitamim/room/compound/processor/generator/utils/PoetUtils.kt:131-136 | the loop over access parents appends, per parent, its name, a `?` once any parent so far (or the incoming flag) is nullable, and a `.`. The final flag is the incoming flag OR any parent nullable |
| Poet.CreatePropertyAccessSyntax | processor/src/main/java/com/attafitamim/room/compound/processor/generator/utils/PoetUtils.kt:122-142 | the access is `parent.`, then the segments, then the property name. The flag is set exactly when some parent is nullable; the property itself is not consulted |
| Poet.ExpectedPathEnds | processor/src/main/java/com/attafitamim/room/compound/processor/generator/utils/PoetUtils.kt:128-139 | every access path starts with `parent.` and ends with the property name |
| Poet.AdditionMethod | processor/src/main/java/com/attafitamim/room/compound/processor/generator/utils/PoetUtils.kt:81 | `addAll` exactly for collections, `add` otherwise |
| Poet.CreateListAdditionSyntax | processor/src/main/java/com/attafitamim/room/compound/processor/utils/PoetUtils.kt:8-41 | guarded: `access?.let(list::method)`; unguarded: `list.method(access)`, with `addAll` iff a collection |
| Poet.CreateMethodCallSyntax | processor/src/main/java/com/attafitamim/room/compound/processor/utils/PoetUtils.kt:81-88 | the result is the method name followed by exactly one pair of parentheses enclosing the parameters |
| Poet.CreateEntityParameterName | processor/src/main/java/com/attafitamim/room/compound/processor/generator/utils/PoetUtils.kt:111-120 | with no parents the name is the node's own property name; otherwise it starts with the first parent's name, and it always ends with the node's own name |
| Poet.EntityParameterNameSnoc | processor/src/main/java/com/attafitamim/room/compound/processor/generator/utils/PoetUtils.kt:115-119 | one more parent at the end of the chain inserts its name and the separator just before the node's name, so each parent contributes name + separator in order |
| Poet.EntityParameterNameClosedForm | processor/src/main/java/com/attafitamim/room/compound/processor/generator/utils/PoetUtils.kt:111-120 | the name is every parent's name followed by the separator, in chain order, then the node's own name |
| Poet.CreateForEachSyntax | processor/src/main/java/com/attafitamim/room/compound/processor/generator/utils/PoetUtils.kt:144-146 | the collection name followed by exactly `.forEach` |
| Poet.CreateGuardedForEachSyntax | processor/src/main/java/com/attafitamim/room/compound/processor/generator/CompoundGenerator.kt:131-134 | the generator's loop header is the plain header of the collection, or of the collection with `?` appended when nullable |
| Poet.CreateNullableForEachSyntax | processor/src/main/java/com/attafitamim/room/compound/processor/utils/PoetUtils.kt:43-60 | the collection name, `?` right after it iff nullable, then `.forEach` and a separator, then `{`, separator, element name, separator, `->` |
| Poet.NullableForEachIsGuardedName | processor/src/main/java/com/attafitamim/room/compound/processor/utils/PoetUtils.kt:47-49 | the nullable flag only inserts `?` after the collection name; nothing else depends on it |
| Poet.CreateAssignSyntax | processor/src/main/java/com/attafitamim/room/compound/processor/utils/PoetUtils.kt:62-68 | the variable name followed by ` = ` and the type placeholder |
| Poet.CreateInitializationSyntax | processor/src/main/java/com/attafitamim/room/compound/processor/generator/utils/PoetUtils.kt:156-165 | `val `, the variable name, ` = <type>()`; stripping that prefix and suffix gives back the variable name |
| Discovery.FirstIndexIsFirst | processor/src/main/java/com/attafitamim/room/compound/processor/generator/CompoundGenerator.kt:95-99 | no leaf before the first index of a name carries that name |
| Discovery.DedupNames | processor/src/main/java/com/attafitamim/room/compound/processor/generator/CompoundGenerator.kt:241-247 | the reference dedup keeps exactly the names not already seen |
| Discovery.DedupDistinct | processor/src/main/java/com/attafitamim/room/compound/processor/generator/CompoundGenerator.kt:211-214 | the reference dedup keeps no name twice and none already seen |
| Discovery.DedupInFirstOccurrenceOrder | processor/src/main/java/com/attafitamim/room/compound/processor/generator/CompoundGenerator.kt:95-99 | each kept leaf is the first leaf with its name, and kept leaves follow first-occurrence order |
| Discovery.Discover | processor/src/main/java/com/attafitamim/room/compound/processor/generator/CompoundGenerator.kt:256-266 | the recursive walk over compounds keeps exactly the reference dedup of the tree's leaves, and the seen set grows by exactly the tree's leaf names |
| Discovery.DistinctLeavesSpec | processor/src/main/java/com/attafitamim/room/compound/processor/generator/CompoundGenerator.kt:241-266 | one entry per distinct camel-cased leaf name, each at its first depth-first occurrence and in that order; compounds contribute nothing |
| Mapping.PropertyAccess | processor/src/main/java/com/attafitamim/room/compound/processor/generator/CompoundGenerator.kt:271-292 | the generator's access path; its flag is set iff some access parent or the property itself is nullable |
| Mapping.Render | processor/src/main/java/com/attafitamim/room/compound/processor/generator/CompoundGenerator.kt:131-165 | the rendered block is balanced. Its plain statements are the additions' `add`/`addAll` texts in depth-first order, and its scope headers are the loops' (null-guarded where flagged) `forEach` headers in the order the scopes open, one scope per `forEach` |
| Mapping.CreateListMappingBlock | processor/src/main/java/com/attafitamim/room/compound/processor/generator/CompoundGenerator.kt:126-197 | the block is balanced. It opens with the `forEach` over the compound list and ends with its close, and it opens one more scope per collection compound in the tree. It holds one statement per leaf position; the statements are the addition texts of the walk, and the headers are the outer loop's followed by the walk's loop headers |
| Mapping.AdditionsAgreeAll | processor/src/main/java/com/attafitamim/room/compound/processor/generator/CompoundGenerator.kt:175-190 | position by position, each addition's text is the list-addition syntax of its accumulator, access path and `add`/`addAll` choice, and its guard flag is its access path's |
| Mapping.MappingBlockAddsEachLeaf | processor/src/main/java/com/attafitamim/room/compound/processor/generator/CompoundGenerator.kt:126-197 | statement `k` of the mapping block adds the `k`-th leaf position, depth first, to the accumulator named after its class, with `addAll` iff the leaf is a collection, through an access path that is null-guarded iff the leaf or a compound on its chain is nullable |
| Mapping.ForEachCountMatches | processor/src/main/java/com/attafitamim/room/compound/processor/generator/CompoundGenerator.kt:144-172 | the walk opens exactly one `forEach` per compound reached through a collection |
| Mapping.EveryLeafAddedOnce | processor/src/main/java/com/attafitamim/room/compound/processor/generator/CompoundGenerator.kt:175-190 | every leaf position, duplicates included, yields exactly one addition in depth-first order, to the accumulator named after its class, using `addAll` iff the leaf is a collection |
| Mapping.MapEntities | processor/src/main/java/com/attafitamim/room/compound/processor/generator/CompoundGenerator.kt:138-193 | once a nullable property is on the access chain, every addition and nested loop header at that level is guarded |
| Mapping.GuardedIffNullableChain | processor/src/main/java/com/attafitamim/room/compound/processor/generator/CompoundGenerator.kt:144-190 | the `k`-th addition, depth first, is guarded iff the `k`-th leaf or a compound between it and the nearest enclosing collection compound (or the root) is nullable |
| Mapping.NonNullableTreeIsUnguarded | processor/src/main/java/com/attafitamim/room/compound/processor/generator/CompoundGenerator.kt:276-291 | with no nullable property on the chain or anywhere in the tree, no guard appears at any depth |
| Mapping.CollectionCompoundResetsChain | processor/src/main/java/com/attafitamim/room/compound/processor/generator/CompoundGenerator.kt:145-165 | a collection compound becomes one `forEach` over its access path, guarded iff the chain or the compound is nullable. Its body is the same whatever chain led to it |
| Generator.DaoName | processor/src/main/java/com/attafitamim/room/compound/processor/generator/CompoundGenerator.kt:17-31 | the name is `I` iff `useDaoPrefix` is exactly `"true"`, then the class name, then `Dao` iff `useDaoPostfix` is exactly `"true"`; the class name reads back from the middle |
| Generator.CreateListInitializationBlock | processor/src/main/java/com/attafitamim/room/compound/processor/generator/CompoundGenerator.kt:238-269 | one plain statement per distinct leaf, in order: statement `i` is typed `HashSet` of the `i`-th distinct leaf's class (package and simple name) |
| Generator.CreateListInsertBlock | processor/src/main/java/com/attafitamim/room/compound/processor/generator/CompoundGenerator.kt:199-236 | `insertOrReplaceEntities(`, one statement per distinct leaf, `)` |
| Generator.CreateEntityInsertFunction | processor/src/main/java/com/attafitamim/room/compound/processor/generator/CompoundGenerator.kt:85-124 | the abstract batch function, suspend iff configured, with no body and one parameter per distinct leaf: parameter `i` is named after the `i`-th distinct leaf and typed `Collection` of that leaf's class |
| Generator.CreateSingleInsertFunction | processor/src/main/java/com/attafitamim/room/compound/processor/generator/CompoundGenerator.kt:294-316 | takes the compound and makes one call to `insertOrReplace` whose argument, between its `(` and `)`, is `listOf(<compound parameter>)`, suspend iff configured |
| Generator.SingleOverloadDelegates | processor/src/main/java/com/attafitamim/room/compound/processor/generator/CompoundGenerator.kt:37-58 | the single overload shares the list overload's name and suspend flag; its one parameter is the list parameter's element class, and its one statement calls the list overload on `listOf` of that parameter |
| Generator.CreateListInsertFunction | processor/src/main/java/com/attafitamim/room/compound/processor/generator/CompoundGenerator.kt:37-52 | the list overload takes `Collection` of the compound class, is suspend iff configured, and its body is the declaration block, then the mapping block, then the batch call; that body is balanced |
| Generator.StatementsOnlyBalanced | processor/src/main/java/com/attafitamim/room/compound/processor/generator/CompoundGenerator.kt:253 | a block of plain statements is balanced |
| Generator.GenerateDao | processor/src/main/java/com/attafitamim/room/compound/processor/generator/CompoundGenerator.kt:26-70 | the interface is named by the DAO-name rule, annotated `androidx.room.Dao`, and holds exactly the single overload, the list overload and the batch function, in that order, all built with the `suspendDao` flag |
| Generator.PassesAlign | processor/src/main/java/com/attafitamim/room/compound/processor/generator/CompoundGenerator.kt:95-122 | the declared accumulators, the batch-call arguments and the batch-function parameters are the same name sequence. Position by position, the accumulator is `HashSet<T>` and the parameter `Collection<T>` of the same class |
| Generator.DeclaredOncePerName | processor/src/main/java/com/attafitamim/room/compound/processor/generator/CompoundGenerator.kt:244-254 | every leaf name is declared, exactly once, and nothing else is declared |
| Generator.AdditionsTargetDeclaredAccumulators | processor/src/main/java/com/attafitamim/room/compound/processor/generator/CompoundGenerator.kt:176-190 | every addition in the mapping block names an accumulator the declaration block introduced |
| Generator.AcceptedCompoundHasParameters | processor/src/main/java/com/attafitamim/room/compound/processor/ksp/CompoundVisitor.kt:44-48 | a compound the visitor accepts yields a batch function with at least one parameter |
| Declarations.FirstAnnotation | processor/src/main/java/com/attafitamim/room/compound/processor/ksp/CompoundVisitor.kt:203-206 | the first annotation with the short name, absent exactly when none has it |
| Declarations.ArgumentNamed | processor/src/main/java/com/attafitamim/room/compound/processor/ksp/CompoundVisitor.kt:208-213 | the last argument with the name, as `associateBy` keeps it; absent exactly when none has the name |
| Visitor.RequiredText | processor/src/main/java/com/attafitamim/room/compound/processor/ksp/CompoundVisitor.kt:233-236 | a missing argument is an error, and only a missing one; otherwise its text |
| Visitor.JunctionFrom | processor/src/main/java/com/attafitamim/room/compound/processor/ksp/CompoundVisitor.kt:226-237 | the junction carries the junction class's package and name and the four column texts; it fails, with a missing-argument error, exactly when one of the four arguments is absent |
| Visitor.GetEntityJunction | processor/src/main/java/com/attafitamim/room/compound/processor/ksp/CompoundVisitor.kt:202-238 | no junction without a relation, an `associateBy` annotation and a `value` class, or when that class is `Object`. Otherwise it fails exactly when one of the four column arguments is missing, with a missing-argument error, and else is `Some` junction with the class's package and name and the four column texts |
| Visitor.JunctionIffColumnsPresent | processor/src/main/java/com/attafitamim/room/compound/processor/ksp/CompoundVisitor.kt:219-237 | for a junction class other than `Object`, the lookup succeeds iff all four column arguments are present, and then yields a junction of that class |
| Visitor.GetEntity | processor/src/main/java/com/attafitamim/room/compound/processor/ksp/CompoundVisitor.kt:104-128 | a leaf carrying the class's package and name, the given collection flag, and the property's name and nullability |
| Visitor.GetCompound | processor/src/main/java/com/attafitamim/room/compound/processor/ksp/CompoundVisitor.kt:60-102 | a non-class, a class without properties and a class without child properties are rejected, each with its error, and a failing child fails it with that child's error. It succeeds iff the class is a class with a child property whose children all build; the node then holds exactly those children, at least one |
| Visitor.ToChildEntity | processor/src/main/java/com/attafitamim/room/compound/processor/ksp/CompoundVisitor.kt:132-197 | nothing for a property with neither annotation, otherwise exactly one node describing the property. It is a collection iff the type is or directly extends `Collection`, it describes the first type argument then, and it is an `Entity` iff that class is `@Entity`. The junction is read only for collection relations |
| Visitor.ToChildEntityOutcome | processor/src/main/java/com/attafitamim/room/compound/processor/ksp/CompoundVisitor.kt:154-193 | an annotated property fails with the junction error, with a missing element type, or with the nested compound's error. It succeeds iff its described class is an entity or is accepted as a nested compound, and a nested compound then holds what that class's properties build |
| Visitor.BuildsLeaf | processor/src/main/java/com/attafitamim/room/compound/processor/ksp/CompoundVisitor.kt:176-191 | a property describing an `@Entity` class becomes the leaf `getEntity` builds for it |
| Visitor.BuildsNestedCompound | processor/src/main/java/com/attafitamim/room/compound/processor/ksp/CompoundVisitor.kt:170-190 | a property describing any other class becomes the compound `getCompound` builds for it, or fails with its error |
| Visitor.ToChildEntities | processor/src/main/java/com/attafitamim/room/compound/processor/ksp/CompoundVisitor.kt:130-200 | succeeds iff every property does; on success, one node per child property in declaration order; a failure is the first failing property's |
| Visitor.ChildNodesBuiltOneByOne | processor/src/main/java/com/attafitamim/room/compound/processor/ksp/CompoundVisitor.kt:130-200 | node `k` of the list is the node the `k`-th annotated property builds on its own |
| Visitor.NestedCompoundsBuiltFromTheirClass | processor/src/main/java/com/attafitamim/room/compound/processor/ksp/CompoundVisitor.kt:78-100 | every nested compound among the children holds exactly what the properties of its own class build |
| Visitor.NoChildPropertiesAllSkipped | processor/src/main/java/com/attafitamim/room/compound/processor/ksp/CompoundVisitor.kt:145-147 | without child properties every property is skipped |
| Visitor.GetCompoundData | processor/src/main/java/com/attafitamim/room/compound/processor/ksp/CompoundVisitor.kt:32-58 | the root is rejected as nested compounds are, child errors included, and accepted iff it is a class with a child property whose children all build; then it carries the class's package and name and one node per child property, at least one |
| Visitor.RootBuiltLikeNestedCompound | processor/src/main/java/com/attafitamim/room/compound/processor/ksp/CompoundVisitor.kt:32-82 | the root is accepted iff the same class would be accepted as a nested compound, with the same children, and otherwise fails with the same error |
| Legacy.GetEntityData | processor/src/main/java/com/attafitamim/room/compound/processor/ksp/CompoundProcessor.kt:149-161 | a leaf named after the property's declared type, with the property's name and nullability |
| Legacy.Build | processor/src/main/java/com/attafitamim/room/compound/processor/ksp/CompoundProcessor.kt:93-98 | an `@Entity` type gives a leaf, anything else the nested validation of that type |
| Legacy.ScanProperties | processor/src/main/java/com/attafitamim/room/compound/processor/ksp/CompoundProcessor.kt:78-121 | the property loop only appends to the log |
| Legacy.ScanAbortsOnFailedBuild | processor/src/main/java/com/attafitamim/room/compound/processor/ksp/CompoundProcessor.kt:97-116 | the loop stops exactly when some annotated property fails to build; a second embedded parent never stops it |
| Legacy.ScanKeepsLastParent | processor/src/main/java/com/attafitamim/room/compound/processor/ksp/CompoundProcessor.kt:85-101 | after the loop the parent is the node of the last `@Embedded` property |
| Legacy.ScanWarnsRepeatedParents | processor/src/main/java/com/attafitamim/room/compound/processor/ksp/CompoundProcessor.kt:85-91 | a completed loop logs "multiple embedded parents" for every `@Embedded` property that replaces an earlier parent |
| Legacy.RepeatedEmbeddedParentsReported | processor/src/main/java/com/attafitamim/room/compound/processor/ksp/CompoundProcessor.kt:78-101 | when no annotated property fails to build, every `@Embedded` property after the first is reported in the validator's log |
| Legacy.ScanCollectsRelations | processor/src/main/java/com/attafitamim/room/compound/processor/ksp/CompoundProcessor.kt:104-120 | after the loop the children are the nodes of the `@Relation` properties that are not `@Embedded`, in order |
| Legacy.GetCompoundData | processor/src/main/java/com/attafitamim/room/compound/processor/ksp/CompoundProcessor.kt:50-73 | a non-class or a class without properties yields no tree and exactly its one diagnostic |
| Legacy.GetCompoundDataAccepts | processor/src/main/java/com/attafitamim/room/compound/processor/ksp/CompoundProcessor.kt:50-147 | a tree comes back iff the class has properties, no annotated property fails to build, and there is an embedded parent and a relation child |
| Legacy.GetCompoundDataShape | processor/src/main/java/com/attafitamim/room/compound/processor/ksp/CompoundProcessor.kt:85-146 | an accepted tree carries the class's package and name, the node of the last embedded property as parent, and the relation properties' nodes in order as children |
| Legacy.NonClassChildTypeRejected | processor/src/main/java/com/attafitamim/room/compound/processor/ksp/CompoundProcessor.kt:113-116 | a child whose declared type is neither `@Entity` nor a class (a `List`, say) makes the whole compound fail |
| Samples.SecondCompoundDistinctLeaves | sample/src/main/java/com/attafitamim/room/compound/sample/room/entities/SecondCompound.kt:8-46 | the nine leaf positions of `SecondCompound` give the accumulators `secondEntity`, `thirdEntity`, `forthEntity`, in that order |
| Samples.SecondCompoundAccumulatorNames | processor/src/main/java/com/attafitamim/room/compound/processor/generator/CompoundGenerator.kt:244-254 | for `SecondCompound` the declared accumulators are named `secondEntity`, `thirdEntity` and `forthEntity`: each class name with its initial lowered |
| Samples.SecondCompoundMappingShape | sample/src/main/java/com/attafitamim/room/compound/sample/room/entities/SecondCompound.kt:13-22 | the mapping block for `SecondCompound` opens two scopes: the compound list and `thirdCompounds` |
| Samples.ForthCompoundAcceptedByVisitor | sample/src/main/java/com/attafitamim/room/compound/sample/room/entities/ForthCompound.kt:7-14 | the visitor accepts two `@Embedded` entities and no relation as two children |
| Samples.ForthCompoundRejectedByLegacy | sample/src/main/java/com/attafitamim/room/compound/sample/room/entities/ForthCompound.kt:7-14 | the older validator reports the second embedded parent, then rejects the class for lacking a relation child |
| Samples.LegacyKeepsLastEmbeddedParent | processor/src/main/java/com/attafitamim/room/compound/processor/ksp/CompoundProcessor.kt:85-101 | with a relation added, the older validator accepts the class, reports the second parent and keeps it as the parent |

## Left out

- Symbol-processing and KotlinPoet plumbing are not modelled: `CompoundProcessor.process`, `CompoundProcessorProvider.kt`, `visitClassDeclaration`, file creation and `writeToFile`. They are I/O. Function specs and code blocks are abstract statement sequences.
- `createInsertAnnotationSpec` (both copies) is not modelled. It builds an annotation of class `androidx.room.Upsert` (`INSERT_ANNOTATION` is `"Upsert"` in RoomSyntax.kt:13) with one `onConflict`-style member naming a conflict-strategy constant. `CONFLICT_STRATEGY`, `CONFLICT_STRATEGY_REPLACE` and `ON_CONFLICT_PARAMETER` are not defined in this revision, so the member's text is unknown. The batch function's annotation is therefore not part of `Generator.CreateEntityInsertFunction`.
- `KSPUtils.kt` (both copies) is logger plumbing. A logged-and-thrown error is a `Failure`, and the older validator's log is a list of diagnostics.
- The javax `processor/CompoundProcessor.kt` is not modelled. It is incomplete and duplicates the KSP validators.
- Type resolution and annotation reflection are replaced by `Declarations`. A property's type always resolves to a class declaration, so the `as KSClassDeclaration` casts cannot fail. A cyclic class graph cannot be expressed; the source would recurse without end on one.
- Declarations.StringValue: `toString()` of a nested annotation or class literal is an unspecified fixed text. Only literal arguments have their text modelled.
- Text.ToLower: lower-cases ASCII letters only. Kotlin's `toLowerCase` maps all of Unicode.
- Text.IsBlank: whitespace is the ASCII subset of Kotlin's `isWhitespace`.
- Generator.CreateSingleInsertFunction: the list-insert function is passed to `addStatement` as a format argument. The format has no placeholder for it, so it is not modelled.
- Mapping.MapEntities: the `parents` argument of the mapping walk is built but never read, so it is not modelled.
- Generator.CreateListInitializationBlock, Generator.CreateListInsertBlock, Generator.CreateEntityInsertFunction, Generator.CreateListInsertFunction, Generator.GenerateDao, Mapping.MapEntities, Mapping.CreateListMappingBlock: each requires every leaf class name to be non-blank (`WellNamed`). `titleToCamelCase` throws on a blank name (TextUtils.kt:4), but a Kotlin class name is never blank, so that failure is not modelled.
- Junction-row synthesis: the generator collects no junction rows, so none are modelled.

=== FILE: code.dfy ===
/**
  The slice of KotlinPoet the generator drives, as plain values: class and type
  names, a code block as a flat list of statements with control-flow brackets,
  parameters and function specifications.
 */
module Code {

  datatype ClassName = ClassName(packageName: string, simpleName: string)

  /** A type reference: a class, or a class applied to one type argument. */
  datatype TypeName = Plain(className: ClassName) | Parameterized(raw: ClassName, argument: ClassName)

  const CollectionClass := ClassName("kotlin.collections", "Collection")
  const HashSetClass := ClassName("java.util", "HashSet")

  /** One emitted line of a `CodeBlock`: `addStatement(format, args)`,
      `beginControlFlow(header)` or `endControlFlow()`. */
  datatype Stmt =
    | Statement(format: string, args: seq<TypeName>)
    | BeginControlFlow(header: string)
    | EndControlFlow

  datatype Modifier = Suspend | Abstract

  datatype ParameterSpec = ParameterSpec(name: string, typeName: TypeName)

  datatype FunSpec = FunSpec(
    name: string,
    modifiers: seq<Modifier>,
    parameters: seq<ParameterSpec>,
    body: seq<Stmt>)

  /** Open scopes minus closed scopes. */
  function Net(s: seq<Stmt>): int {
    if |s| == 0 then 0
    else
      (match s[0]
        case BeginControlFlow(_) => 1
        case EndControlFlow => -1
        case Statement(_, _) => 0)
      + Net(s[1..])
  }

  /** Every `endControlFlow` closes an earlier `beginControlFlow`, and every scope is closed. */
  predicate Balanced(s: seq<Stmt>) {
    Net(s) == 0 && forall k :: 0 <= k <= |s| ==> Net(s[..k]) >= 0
  }

  lemma {:induction false} NetAppend(a: seq<Stmt>, b: seq<Stmt>)
    ensures Net(a + b) == Net(a) + Net(b)
  {
    if |a| == 0 {
      assert a + b == b;
    } else {
      assert (a + b)[0] == a[0];
      assert (a + b)[1..] == a[1..] + b;
      NetAppend(a[1..], b);
    }
  }

  /** Putting two balanced blocks one after the other keeps the result balanced. */
  lemma BalancedAppend(a: seq<Stmt>, b: seq<Stmt>)
    requires Balanced(a) && Balanced(b)
    ensures Balanced(a + b)
  {
    NetAppend(a, b);
    forall k | 0 <= k <= |a + b|
      ensures Net((a + b)[..k]) >= 0
    {
      if k <= |a| {
        assert (a + b)[..k] == a[..k];
      } else {
        assert (a + b)[..k] == a + b[..k - |a|];
        NetAppend(a, b[..k - |a|]);
      }
    }
  }

  /** Wrapping a balanced block in one scope keeps it balanced. */
  lemma BalancedWrap(header: string, body: seq<Stmt>)
    requires Balanced(body)
    ensures Balanced([BeginControlFlow(header)] + body + [EndControlFlow])
  {
    var s := [BeginControlFlow(header)] + body + [EndControlFlow];
    NetAppend([BeginControlFlow(header)], body);
    NetAppend([BeginControlFlow(header)] + body, [EndControlFlow]);
    forall k | 0 <= k <= |s|
      ensures Net(s[..k]) >= 0
    {
      if k == 0 {
      } else if k <= |body| + 1 {
        assert s[..k] == [BeginControlFlow(header)] + body[..k - 1];
        NetAppend([BeginControlFlow(header)], body[..k - 1]);
      } else {
        assert s[..k] == s;
      }
    }
  }

  /** The number of scopes opened. */
  function Begins(s: seq<Stmt>): nat {
    if |s| == 0 then 0 else (if s[0].BeginControlFlow? then 1 else 0) + Begins(s[1..])
  }

  /** The number of plain statements. */
  function Statements(s: seq<Stmt>): nat {
    if |s| == 0 then 0 else (if s[0].Statement? then 1 else 0) + Statements(s[1..])
  }

  lemma {:induction false} CountsAppend(a: seq<Stmt>, b: seq<Stmt>)
    ensures Begins(a + b) == Begins(a) + Begins(b)
    ensures Statements(a + b) == Statements(a) + Statements(b)
  {
    if |a| == 0 {
      assert a + b == b;
    } else {
      assert (a + b)[0] == a[0];
      assert (a + b)[1..] == a[1..] + b;
      CountsAppend(a[1..], b);
    }
  }

  /** The format of every plain statement, in order. */
  function PlainTexts(s: seq<Stmt>): (r: seq<string>)
    ensures |r| == Statements(s)
  {
    if |s| == 0 then []
    else (if s[0].Statement? then [s[0].format] else []) + PlainTexts(s[1..])
  }

  /** The header of every scope opened, in order. */
  function Headers(s: seq<Stmt>): (r: seq<string>)
    ensures |r| == Begins(s)
  {
    if |s| == 0 then []
    else (if s[0].BeginControlFlow? then [s[0].header] else []) + Headers(s[1..])
  }

  lemma TextsAppend(a: seq<Stmt>, b: seq<Stmt>)
    ensures PlainTexts(a + b) == PlainTexts(a) + PlainTexts(b)
    ensures Headers(a + b) == Headers(a) + Headers(b)
  {
    PlainTextsAppend(a, b);
    HeadersAppend(a, b);
  }

  lemma {:induction false} PlainTextsAppend(a: seq<Stmt>, b: seq<Stmt>)
    ensures PlainTexts(a + b) == PlainTexts(a) + PlainTexts(b)
  {
    if |a| == 0 {
      assert a + b == b;
    } else {
      var h := if a[0].Statement? then [a[0].format] else [];
      assert (a + b)[0] == a[0];
      assert (a + b)[1..] == a[1..] + b;
      PlainTextsAppend(a[1..], b);
      calc {
        PlainTexts(a + b);
        h + PlainTexts(a[1..] + b);
        h + (PlainTexts(a[1..]) + PlainTexts(b));
        (h + PlainTexts(a[1..])) + PlainTexts(b);
      }
    }
  }

  lemma {:induction false} HeadersAppend(a: seq<Stmt>, b: seq<Stmt>)
    ensures Headers(a + b) == Headers(a) + Headers(b)
  {
    if |a| == 0 {
      assert a + b == b;
    } else {
      var h := if a[0].BeginControlFlow? then [a[0].header] else [];
      assert (a + b)[0] == a[0];
      assert (a + b)[1..] == a[1..] + b;
      HeadersAppend(a[1..], b);
      calc {
        Headers(a + b);
        h + Headers(a[1..] + b);
        h + (Headers(a[1..]) + Headers(b));
        (h + Headers(a[1..])) + Headers(b);
      }
    }
  }
}

=== FILE: data.dfy ===
/**
  The normalized compound tree the visitor builds and the generator walks
  (data/EntityData.kt, data/EntityJunction.kt, data/CompoundData.kt, and the
  `TypeInfo`/`PropertyInfo` records the visitor constructs).
 */
module Data {
  import opened Wrappers
  import Text

  /** The class occupying a tree position; `isCollection` is set when the
      parent reaches it through a collection. */
  datatype TypeInfo = TypeInfo(packageName: string, className: string, isCollection: bool)

  /** How the parent reaches the node: the property name and whether it is nullable. */
  datatype PropertyInfo = PropertyInfo(name: string, isNullable: bool)

  /** Association-table metadata read from `@Relation(associateBy = Junction(...))`. */
  datatype EntityJunction = EntityJunction(
    packageName: string,
    className: string,
    parentColumn: string,
    entityColumn: string,
    junctionParentColumn: string,
    junctionEntityColumn: string
  )

  /** A child of a compound: a nested compound with children of its own, or a leaf entity. */
  datatype EntityData =
    | Compound(
        typeInfo: TypeInfo,
        propertyInfo: PropertyInfo,
        isEmbedded: bool,
        junction: Option<EntityJunction>,
        entities: seq<EntityData>)
    | Entity(
        typeInfo: TypeInfo,
        propertyInfo: PropertyInfo,
        isEmbedded: bool,
        junction: Option<EntityJunction>)

  /** The root: the annotated class and its children. */
  datatype CompoundData = CompoundData(packageName: string, className: string, entities: seq<EntityData>)

  /** Every leaf entity position of a forest, depth first, children in list order. */
  function Leaves(es: seq<EntityData>): (r: seq<EntityData>)
    ensures forall i :: 0 <= i < |r| ==> r[i].Entity?
  {
    if |es| == 0 then []
    else
      var head := match es[0]
        case Compound(_, _, _, _, children) => Leaves(children)
        case Entity(_, _, _, _) => [es[0]];
      head + Leaves(es[1..])
  }

  /** One step of the walk: the first tree's leaves, then the rest's. */
  lemma LeavesUnfold(es: seq<EntityData>)
    requires |es| > 0
    ensures es[0].Compound? ==> Leaves(es) == Leaves(es[0].entities) + Leaves(es[1..])
    ensures es[0].Entity? ==> Leaves(es) == [es[0]] + Leaves(es[1..])
  { }

  /** Every leaf carries a non-blank class name, which `titleToCamelCase` requires. */
  predicate WellNamed(es: seq<EntityData>) {
    forall i :: 0 <= i < |Leaves(es)| ==> !Text.IsBlank(Leaves(es)[i].typeInfo.className)
  }

  /** The number of compounds reached through a collection, at any depth. */
  function CollectionCompounds(es: seq<EntityData>): nat {
    if |es| == 0 then 0
    else
      var head := match es[0]
        case Compound(t, _, _, _, children) => (if t.isCollection then 1 else 0) + CollectionCompounds(children)
        case Entity(_, _, _, _) => 0;
      head + CollectionCompounds(es[1..])
  }

  lemma LeavesAppend(a: seq<EntityData>, b: seq<EntityData>)
    ensures Leaves(a + b) == Leaves(a) + Leaves(b)
  {
    if |a| > 0 {
      assert (a + b)[0] == a[0];
      assert (a + b)[1..] == a[1..] + b;
      LeavesAppend(a[1..], b);
    } else {
      assert a + b == b;
    }
  }

  /** Every compound, at any depth, has at least one child. */
  predicate WellFormed(es: seq<EntityData>) {
    forall i :: 0 <= i < |es| ==> (es[i].Compound? ==> |es[i].entities| > 0 && WellFormed(es[i].entities))
  }

  lemma WellFormedAppend(a: seq<EntityData>, b: seq<EntityData>)
    requires WellFormed(a) && WellFormed(b)
    ensures WellFormed(a + b)
  {
    forall i | 0 <= i < |a + b| && (a + b)[i].Compound?
      ensures |(a + b)[i].entities| > 0 && WellFormed((a + b)[i].entities)
    {
      if i < |a| { assert (a + b)[i] == a[i]; } else { assert (a + b)[i] == b[i - |a|]; }
    }
  }

  /** A non-empty well-formed forest reaches at least one leaf entity. */
  lemma {:induction false} WellFormedHasLeaves(es: seq<EntityData>)
    requires WellFormed(es) && |es| > 0
    ensures |Leaves(es)| > 0
  {
    match es[0]
    case Compound(_, _, _, _, children) =>
      WellFormedHasLeaves(children);
    case Entity(_, _, _, _) =>
  }
}

=== FILE: declarations.dfy ===
/**
  An in-memory stand-in for the symbol-processing declarations the visitors
  read: classes with their kind, annotations, direct supertypes and
  properties; properties with annotations and a resolved type; annotation
  arguments as named values. Resolution is already done: every type refers
  to the class declaration it resolves to.
 */
module Declarations {
  import opened Wrappers
  import opened Syntax

  datatype ClassDecl = ClassDecl(
    packageName: string,
    simpleName: string,
    /** `classKind == CLASS`; interfaces, objects and enums are not classes. */
    isClass: bool,
    annotations: seq<Annotation>,
    /** Simple names of the direct supertypes only. */
    superTypeNames: seq<string>,
    /** All properties, inherited ones included, in declaration order. */
    properties: seq<PropertyDecl>)

  datatype PropertyDecl = PropertyDecl(name: string, annotations: seq<Annotation>, propertyType: TypeRef)

  /** A resolved type: its declaration, its `?` marker and its type arguments. */
  datatype TypeRef = TypeRef(declaration: ClassDecl, isMarkedNullable: bool, arguments: seq<TypeArgument>)

  /** A type argument; a star projection has no type. */
  datatype TypeArgument = Star | Projected(argumentType: TypeRef)

  datatype Annotation = Annotation(shortName: string, arguments: seq<ValueArgument>)

  datatype ValueArgument = ValueArgument(name: Option<string>, value: ArgumentValue)

  /** The argument values the visitors distinguish: a nested annotation, a
      class literal, and anything else by its text. */
  datatype ArgumentValue =
    | AnnotationValue(annotation: Annotation)
    | TypeValue(typeValue: TypeRef)
    | Literal(text: string)

  /** Text that `toString()` gives for a nested annotation or a class literal;
      the model does not fix it. */
  const RenderedAnnotation: string
  const RenderedType: string

  /** `KSValueArgument.stringValue`, i.e. `value.toString()`. */
  function StringValue(v: ArgumentValue): string {
    match v
    case Literal(t) => t
    case AnnotationValue(_) => RenderedAnnotation
    case TypeValue(_) => RenderedType
  }

  predicate HasAnnotation(annotations: seq<Annotation>, shortName: string) {
    exists i :: 0 <= i < |annotations| && annotations[i].shortName == shortName
  }

  /** `firstOrNull { it.shortName == name }`. */
  function FirstAnnotation(annotations: seq<Annotation>, shortName: string): (r: Option<Annotation>)
    ensures r.None? <==> !HasAnnotation(annotations, shortName)
    ensures r.Some? ==> r.value.shortName == shortName
    ensures r.Some? ==> exists i :: (0 <= i < |annotations| && annotations[i] == r.value
                                     && forall j :: 0 <= j < i ==> annotations[j].shortName != shortName)
  {
    if |annotations| == 0 then None
    else if annotations[0].shortName == shortName then Some(annotations[0])
    else
      var r := FirstAnnotation(annotations[1..], shortName);
      assert forall i :: 0 <= i < |annotations| - 1 ==> annotations[1..][i] == annotations[i + 1];
      r
  }

  /** A name lookup in `arguments.associateBy { it.name }`: when a name
      repeats, the later argument replaced the earlier one in the map. */
  function ArgumentNamed(arguments: seq<ValueArgument>, name: string): (r: Option<ArgumentValue>)
    ensures r.None? <==> forall i :: 0 <= i < |arguments| ==> arguments[i].name != Some(name)
    ensures r.Some? ==> exists i :: (0 <= i < |arguments| && arguments[i] == ValueArgument(Some(name), r.value)
                                     && forall j :: i < j < |arguments| ==> arguments[j].name != Some(name))
  {
    if |arguments| == 0 then None
    else
      var last := arguments[|arguments| - 1];
      if last.name == Some(name) then Some(last.value)
      else ArgumentNamed(arguments[..|arguments| - 1], name)
  }
}

=== FILE: discovery.dfy ===
/**
  The walk shared by the accumulator declarations, the batch-call arguments and
  the abstract-function parameters of CompoundGenerator.kt: depth first over
  the children, children in list order, compounds contributing nothing but
  their children, and every leaf entity kept only the first time its
  camel-cased class name is met.
 */
module Discovery {
  import opened Data
  import opened Text

  /** Every element is a leaf entity with a non-blank class name. */
  predicate NamedLeaves(ls: seq<EntityData>) {
    forall i :: 0 <= i < |ls| ==> ls[i].Entity? && !IsBlank(ls[i].typeInfo.className)
  }

  /** The accumulator / parameter name of a leaf: its camel-cased simple class
      name. The package plays no part. */
  function LeafName(e: EntityData): string
    requires !IsBlank(e.typeInfo.className)
  {
    CamelName(e.typeInfo.className)
  }

  function NameSet(ls: seq<EntityData>): set<string>
    requires NamedLeaves(ls)
  {
    set i | 0 <= i < |ls| :: LeafName(ls[i])
  }

  function Names(ls: seq<EntityData>): (r: seq<string>)
    requires NamedLeaves(ls)
    ensures |r| == |ls|
  {
    seq(|ls|, i requires 0 <= i < |ls| => LeafName(ls[i]))
  }

  /** No two elements share a name. */
  predicate DistinctNames(ls: seq<EntityData>)
    requires NamedLeaves(ls)
  {
    forall i, j :: 0 <= i < j < |ls| ==> LeafName(ls[i]) != LeafName(ls[j])
  }

  /** The position of the first element named `n`. */
  function FirstIndex(ls: seq<EntityData>, n: string): (j: nat)
    requires NamedLeaves(ls) && n in NameSet(ls)
    ensures j < |ls| && LeafName(ls[j]) == n
  {
    if LeafName(ls[0]) == n then 0
    else
      assert n in NameSet(ls[1..]) by {
        var i :| 0 <= i < |ls| && LeafName(ls[i]) == n;
        assert ls[1..][i - 1] == ls[i];
      }
      1 + FirstIndex(ls[1..], n)
  }

  /** No element before the first index carries the name. */
  lemma {:induction false} FirstIndexIsFirst(ls: seq<EntityData>, n: string, k: nat)
    requires NamedLeaves(ls) && n in NameSet(ls) && k < FirstIndex(ls, n)
    ensures LeafName(ls[k]) != n
  {
    if k > 0 {
      var t := ls[1..];
      assert n in NameSet(t) && FirstIndex(ls, n) == 1 + FirstIndex(t, n);
      FirstIndexIsFirst(t, n, k - 1);
      assert t[k - 1] == ls[k];
    }
  }

  /** Reference definition: the leaves whose names are not in `seen`, each
      name kept at its first occurrence only. */
  function Dedup(ls: seq<EntityData>, seen: set<string>): (r: seq<EntityData>)
    requires NamedLeaves(ls)
    ensures NamedLeaves(r)
  {
    if |ls| == 0 then []
    else
      var n := LeafName(ls[0]);
      if n in seen then Dedup(ls[1..], seen)
      else [ls[0]] + Dedup(ls[1..], seen + {n})
  }

  lemma NameSetCons(ls: seq<EntityData>)
    requires NamedLeaves(ls) && |ls| > 0
    ensures NameSet(ls) == {LeafName(ls[0])} + NameSet(ls[1..])
  {
    forall n | n in NameSet(ls) ensures n in {LeafName(ls[0])} + NameSet(ls[1..]) {
      var i :| 0 <= i < |ls| && LeafName(ls[i]) == n;
      if i > 0 { assert ls[1..][i - 1] == ls[i]; }
    }
    forall n | n in NameSet(ls[1..]) ensures n in NameSet(ls) {
      var i :| 0 <= i < |ls| - 1 && LeafName(ls[1..][i]) == n;
      assert ls[i + 1] == ls[1..][i];
    }
  }

  lemma NameSetAppend(a: seq<EntityData>, b: seq<EntityData>)
    requires NamedLeaves(a) && NamedLeaves(b)
    ensures NamedLeaves(a + b)
    ensures NameSet(a + b) == NameSet(a) + NameSet(b)
  {
    assert NamedLeaves(a + b) by {
      forall i | 0 <= i < |a + b| ensures (a + b)[i].Entity? && !IsBlank((a + b)[i].typeInfo.className) {
        if i < |a| { assert (a + b)[i] == a[i]; } else { assert (a + b)[i] == b[i - |a|]; }
      }
    }
    forall n | n in NameSet(a + b) ensures n in NameSet(a) + NameSet(b) {
      var i :| 0 <= i < |a + b| && LeafName((a + b)[i]) == n;
      if i < |a| { assert (a + b)[i] == a[i]; } else { assert (a + b)[i] == b[i - |a|]; }
    }
    forall n | n in NameSet(a) ensures n in NameSet(a + b) {
      var i :| 0 <= i < |a| && LeafName(a[i]) == n;
      assert (a + b)[i] == a[i];
    }
    forall n | n in NameSet(b) ensures n in NameSet(a + b) {
      var i :| 0 <= i < |b| && LeafName(b[i]) == n;
      assert (a + b)[i + |a|] == b[i];
    }
  }

  lemma NamedLeavesAppend(a: seq<EntityData>, b: seq<EntityData>)
    requires NamedLeaves(a) && NamedLeaves(b)
    ensures NamedLeaves(a + b)
  {
    forall i | 0 <= i < |a + b| ensures (a + b)[i].Entity? && !IsBlank((a + b)[i].typeInfo.className) {
      if i < |a| { assert (a + b)[i] == a[i]; } else { assert (a + b)[i] == b[i - |a|]; }
    }
  }

  /** Deduplicating a concatenation: the second part starts from every name
      the first part has seen. */
  lemma {:induction false} DedupAppend(a: seq<EntityData>, b: seq<EntityData>, seen: set<string>)
    requires NamedLeaves(a) && NamedLeaves(b)
    ensures NamedLeaves(a + b)
    ensures Dedup(a + b, seen) == Dedup(a, seen) + Dedup(b, seen + NameSet(a))
  {
    NamedLeavesAppend(a, b);
    if |a| == 0 {
      assert a + b == b;
      assert NameSet(a) == {};
      assert seen + NameSet(a) == seen;
    } else {
      var n := LeafName(a[0]);
      assert (a + b)[0] == a[0];
      assert (a + b)[1..] == a[1..] + b;
      NameSetCons(a);
      if n in seen {
        DedupAppend(a[1..], b, seen);
        assert seen + NameSet(a[1..]) == seen + NameSet(a);
      } else {
        DedupAppend(a[1..], b, seen + {n});
        assert seen + {n} + NameSet(a[1..]) == seen + NameSet(a);
      }
    }
  }

  /** Outside the first element, positions shift by one. */
  lemma FirstIndexShift(ls: seq<EntityData>, n: string)
    requires NamedLeaves(ls) && |ls| > 0 && n in NameSet(ls[1..]) && n != LeafName(ls[0])
    ensures n in NameSet(ls) && FirstIndex(ls, n) == 1 + FirstIndex(ls[1..], n)
  {
    NameSetCons(ls);
  }

  /** Deduplication keeps the names met and not already seen, and nothing else. */
  lemma {:induction false} DedupNames(ls: seq<EntityData>, seen: set<string>)
    requires NamedLeaves(ls)
    ensures NameSet(Dedup(ls, seen)) == NameSet(ls) - seen
  {
    var d := Dedup(ls, seen);
    if |ls| == 0 {
      assert NameSet(d) == {};
    } else {
      var n := LeafName(ls[0]);
      NameSetCons(ls);
      if n in seen {
        DedupNames(ls[1..], seen);
      } else {
        DedupNames(ls[1..], seen + {n});
        NameSetCons(d);
        assert d[1..] == Dedup(ls[1..], seen + {n});
      }
    }
  }

  /** No name is kept twice. */
  lemma {:induction false} DedupDistinct(ls: seq<EntityData>, seen: set<string>)
    requires NamedLeaves(ls)
    ensures DistinctNames(Dedup(ls, seen))
    ensures forall i :: 0 <= i < |Dedup(ls, seen)| ==> LeafName(Dedup(ls, seen)[i]) !in seen
  {
    var d := Dedup(ls, seen);
    if |ls| > 0 {
      var n := LeafName(ls[0]);
      if n in seen {
        DedupDistinct(ls[1..], seen);
      } else {
        var rest := Dedup(ls[1..], seen + {n});
        DedupDistinct(ls[1..], seen + {n});
        assert d == [ls[0]] + rest;
        ConsDistinct(ls[0], rest, seen);
      }
    }
  }

  /** A new name in front of distinct names that avoid it and `seen`. */
  lemma ConsDistinct(x: EntityData, rest: seq<EntityData>, seen: set<string>)
    requires NamedLeaves([x] + rest) && NamedLeaves(rest) && DistinctNames(rest)
    requires LeafName(([x] + rest)[0]) !in seen
    requires forall i :: 0 <= i < |rest| ==> LeafName(rest[i]) !in seen + {LeafName(([x] + rest)[0])}
    ensures DistinctNames([x] + rest)
    ensures forall i :: 0 <= i < |[x] + rest| ==> LeafName(([x] + rest)[i]) !in seen
  {
    var d := [x] + rest;
    forall i | 0 <= i < |d| ensures LeafName(d[i]) !in seen {
      if i > 0 { assert d[i] == rest[i - 1]; }
    }
    forall i, j | 0 <= i < j < |d| ensures LeafName(d[i]) != LeafName(d[j]) {
      if i > 0 { assert d[i] == rest[i - 1]; }
      assert d[j] == rest[j - 1];
    }
  }

  /** Every element of `d` is the first element of `ls` carrying its name. */
  predicate AtFirstOccurrences(ls: seq<EntityData>, d: seq<EntityData>)
    requires NamedLeaves(ls) && NamedLeaves(d)
  {
    forall i :: 0 <= i < |d| ==> LeafName(d[i]) in NameSet(ls) && d[i] == ls[FirstIndex(ls, LeafName(d[i]))]
  }

  /** The elements of `d` come in the order of their first occurrences in `ls`. */
  predicate InFirstOccurrenceOrder(ls: seq<EntityData>, d: seq<EntityData>)
    requires NamedLeaves(ls) && NamedLeaves(d) && AtFirstOccurrences(ls, d)
  {
    forall i, j :: 0 <= i < j < |d| ==> FirstIndex(ls, LeafName(d[i])) < FirstIndex(ls, LeafName(d[j]))
  }

  /** First occurrences in the tail that avoid the head's name are first
      occurrences in the whole sequence, one position later. */
  lemma ShiftFirstOccurrences(ls: seq<EntityData>, rest: seq<EntityData>)
    requires NamedLeaves(ls) && |ls| > 0 && NamedLeaves(rest)
    requires AtFirstOccurrences(ls[1..], rest)
    requires forall i :: 0 <= i < |rest| ==> LeafName(rest[i]) != LeafName(ls[0])
    ensures AtFirstOccurrences(ls, rest)
  {
    forall i | 0 <= i < |rest|
      ensures LeafName(rest[i]) in NameSet(ls) && rest[i] == ls[FirstIndex(ls, LeafName(rest[i]))]
    {
      ShiftOccurrence(ls, rest[i]);
    }
  }

  /** One first occurrence in the tail, seen from the whole sequence. */
  lemma ShiftOccurrence(ls: seq<EntityData>, x: EntityData)
    requires NamedLeaves(ls) && |ls| > 0 && !IsBlank(x.typeInfo.className)
    requires LeafName(x) in NameSet(ls[1..]) && x == ls[1..][FirstIndex(ls[1..], LeafName(x))]
    requires LeafName(x) != LeafName(ls[0])
    ensures LeafName(x) in NameSet(ls) && FirstIndex(ls, LeafName(x)) == 1 + FirstIndex(ls[1..], LeafName(x))
    ensures x == ls[FirstIndex(ls, LeafName(x))]
  {
    FirstIndexShift(ls, LeafName(x));
  }

  lemma ShiftOrder(ls: seq<EntityData>, rest: seq<EntityData>)
    requires NamedLeaves(ls) && |ls| > 0 && NamedLeaves(rest)
    requires AtFirstOccurrences(ls[1..], rest) && InFirstOccurrenceOrder(ls[1..], rest)
    requires forall i :: 0 <= i < |rest| ==> LeafName(rest[i]) != LeafName(ls[0])
    ensures AtFirstOccurrences(ls, rest)
    ensures InFirstOccurrenceOrder(ls, rest)
  {
    ShiftFirstOccurrences(ls, rest);
    RestStaysOrdered(ls, rest);
  }

  lemma ConsNamed(x: EntityData, rest: seq<EntityData>)
    requires NamedLeaves([x]) && NamedLeaves(rest)
    ensures NamedLeaves([x] + rest)
  {
    var d := [x] + rest;
    forall i | 0 <= i < |d| ensures d[i].Entity? && !Text.IsBlank(d[i].typeInfo.className) {
      if i > 0 { assert d[i] == rest[i - 1]; }
    }
  }

  /** Putting the head in front of first occurrences taken from the tail
      keeps the first-occurrence property. */
  lemma ConsAtFirstOccurrences(ls: seq<EntityData>, rest: seq<EntityData>)
    requires NamedLeaves(ls) && |ls| > 0 && NamedLeaves(rest) && NamedLeaves([ls[0]] + rest)
    requires AtFirstOccurrences(ls[1..], rest)
    requires forall i :: 0 <= i < |rest| ==> LeafName(rest[i]) != LeafName(ls[0])
    ensures AtFirstOccurrences(ls, [ls[0]] + rest)
  {
    var d := [ls[0]] + rest;
    ShiftFirstOccurrences(ls, rest);
    NameSetCons(ls);
    assert FirstIndex(ls, LeafName(ls[0])) == 0;
    forall i | 0 <= i < |d|
      ensures LeafName(d[i]) in NameSet(ls) && d[i] == ls[FirstIndex(ls, LeafName(d[i]))]
    {
      if i > 0 { assert d[i] == rest[i - 1]; }
    }
  }

  /** ... and the order property. */
  lemma ConsInFirstOccurrenceOrder(ls: seq<EntityData>, rest: seq<EntityData>)
    requires NamedLeaves(ls) && |ls| > 0 && NamedLeaves(rest) && NamedLeaves([ls[0]] + rest)
    requires AtFirstOccurrences(ls[1..], rest) && InFirstOccurrenceOrder(ls[1..], rest)
    requires AtFirstOccurrences(ls, [ls[0]] + rest)
    requires forall i :: 0 <= i < |rest| ==> LeafName(rest[i]) != LeafName(ls[0])
    ensures InFirstOccurrenceOrder(ls, [ls[0]] + rest)
  {
    HeadBeforeRest(ls, rest);
    RestStaysOrdered(ls, rest);
    ConsShiftPairs(ls, ls[0], rest);
  }

  /** Pairs behind a new head keep the order they had in `rest`. */
  lemma ConsShiftPairs(ls: seq<EntityData>, x: EntityData, rest: seq<EntityData>)
    requires NamedLeaves(ls) && NamedLeaves(rest) && NamedLeaves([x] + rest)
    requires forall i :: 0 <= i < |rest| ==> LeafName(rest[i]) in NameSet(ls)
    requires forall i, j :: 0 <= i < j < |rest| ==>
      FirstIndex(ls, LeafName(rest[i])) < FirstIndex(ls, LeafName(rest[j]))
    ensures forall i :: 0 < i < |[x] + rest| ==> LeafName(([x] + rest)[i]) in NameSet(ls)
    ensures forall i, j :: 0 < i < j < |[x] + rest| ==>
      FirstIndex(ls, LeafName(([x] + rest)[i])) < FirstIndex(ls, LeafName(([x] + rest)[j]))
  {
    var d := [x] + rest;
    assert forall i :: 0 < i < |d| ==> d[i] == rest[i - 1];
  }

  lemma HeadBeforeRest(ls: seq<EntityData>, rest: seq<EntityData>)
    requires NamedLeaves(ls) && |ls| > 0 && NamedLeaves(rest) && NamedLeaves([ls[0]] + rest)
    requires AtFirstOccurrences(ls[1..], rest)
    requires AtFirstOccurrences(ls, [ls[0]] + rest)
    requires forall i :: 0 <= i < |rest| ==> LeafName(rest[i]) != LeafName(ls[0])
    ensures forall j :: 0 < j < |[ls[0]] + rest| ==>
      FirstIndex(ls, LeafName(([ls[0]] + rest)[0])) < FirstIndex(ls, LeafName(([ls[0]] + rest)[j]))
  {
    var d := [ls[0]] + rest;
    assert FirstIndex(ls, LeafName(d[0])) == 0;
    forall j | 0 < j < |d|
      ensures FirstIndex(ls, LeafName(d[0])) < FirstIndex(ls, LeafName(d[j]))
    {
      assert d[j] == rest[j - 1];
      ShiftedIndex(ls, rest, j - 1);
    }
  }

  lemma RestStaysOrdered(ls: seq<EntityData>, rest: seq<EntityData>)
    requires NamedLeaves(ls) && |ls| > 0 && NamedLeaves(rest)
    requires AtFirstOccurrences(ls[1..], rest) && InFirstOccurrenceOrder(ls[1..], rest)
    requires forall i :: 0 <= i < |rest| ==> LeafName(rest[i]) != LeafName(ls[0])
    ensures forall i :: 0 <= i < |rest| ==> LeafName(rest[i]) in NameSet(ls)
    ensures forall i, j :: 0 <= i < j < |rest| ==>
      FirstIndex(ls, LeafName(rest[i])) < FirstIndex(ls, LeafName(rest[j]))
  {
    forall i | 0 <= i < |rest| ensures LeafName(rest[i]) in NameSet(ls) {
      ShiftedIndex(ls, rest, i);
    }
    forall i, j | 0 <= i < j < |rest|
      ensures FirstIndex(ls, LeafName(rest[i])) < FirstIndex(ls, LeafName(rest[j]))
    {
      ShiftedIndex(ls, rest, i);
      ShiftedIndex(ls, rest, j);
    }
  }

  /** One element of `rest`: its first index in `ls` is one past its first index in the tail. */
  lemma ShiftedIndex(ls: seq<EntityData>, rest: seq<EntityData>, j: nat)
    requires NamedLeaves(ls) && |ls| > 0 && NamedLeaves(rest) && j < |rest|
    requires AtFirstOccurrences(ls[1..], rest)
    requires LeafName(rest[j]) != LeafName(ls[0])
    ensures LeafName(rest[j]) in NameSet(ls) && FirstIndex(ls, LeafName(rest[j])) == 1 + FirstIndex(ls[1..], LeafName(rest[j]))
  {
    FirstIndexShift(ls, LeafName(rest[j]));
  }

  /** Kept leaves appear in the order of their first occurrences. */
  lemma {:induction false} DedupInFirstOccurrenceOrder(ls: seq<EntityData>, seen: set<string>)
    requires NamedLeaves(ls)
    ensures AtFirstOccurrences(ls, Dedup(ls, seen))
    ensures InFirstOccurrenceOrder(ls, Dedup(ls, seen))
  {
    if |ls| == 0 {
      assert Dedup(ls, seen) == [];
    } else {
      var n := LeafName(ls[0]);
      var s' := if n in seen then seen else seen + {n};
      var rest := Dedup(ls[1..], s');
      DedupInFirstOccurrenceOrder(ls[1..], s');
      DedupDistinct(ls[1..], s');
      if n in seen {
        assert Dedup(ls, seen) == rest;
        ShiftOrder(ls, rest);
      } else {
        assert Dedup(ls, seen) == [ls[0]] + rest;
        ShiftOrder(ls, rest);
        ConsNamed(ls[0], rest);
        ConsAtFirstOccurrences(ls, rest);
        ConsInFirstOccurrenceOrder(ls, rest);
      }
    }
  }

  lemma WellNamedLeaves(es: seq<EntityData>)
    requires WellNamed(es)
    ensures NamedLeaves(Leaves(es))
  {
  }

  lemma WellNamedParts(es: seq<EntityData>)
    requires WellNamed(es) && |es| > 0
    ensures es[0].Compound? ==> WellNamed(es[0].entities)
    ensures WellNamed(es[1..])
  {
    var head := if es[0].Compound? then Leaves(es[0].entities) else [es[0]];
    assert Leaves(es) == head + Leaves(es[1..]);
    forall i | 0 <= i < |head| ensures !IsBlank(head[i].typeInfo.className) {
      assert Leaves(es)[i] == head[i];
    }
    forall i | 0 <= i < |Leaves(es[1..])| ensures !IsBlank(Leaves(es[1..])[i].typeInfo.className) {
      assert Leaves(es)[|head| + i] == Leaves(es[1..])[i];
    }
  }

  /** The walk of `createListInitializationBlock`, `createListInsertBlock` and
      `createEntityInsertFunction`, carrying the set of names already present.
      It keeps exactly the reference deduplication of the tree's leaves and
      extends the set with exactly the names it kept. */
  function Discover(es: seq<EntityData>, seen: set<string>): (r: (seq<EntityData>, set<string>))
    requires WellNamed(es)
    ensures NamedLeaves(Leaves(es)) && NamedLeaves(r.0)
    ensures r.0 == Dedup(Leaves(es), seen)
    ensures r.1 == seen + NameSet(Leaves(es))
  {
    if |es| == 0 then ([], seen)
    else
      WellNamedParts(es);
      HeadLeaves(es);
      var head :=
        match es[0]
        case Compound(_, _, _, _, children) => Discover(children, seen)
        case Entity(t, _, _, _) =>
          var name := CamelName(t.className);
          if name in seen then ([], seen) else ([es[0]], seen + {name});
      var tail := Discover(es[1..], head.1);
      var headLeaves := HeadLeavesOf(es[0]);
      assert head.0 == Dedup(headLeaves, seen) && head.1 == seen + NameSet(headLeaves) by {
        if es[0].Entity? {
          SingleLeafDedup(es[0], seen);
        }
      }
      DiscoverCombine(es, seen, head, tail);
      (head.0 + tail.0, tail.1)
  }

  /** The first tree's result followed by the rest's, started from the names
      the first tree leaves behind, is the result for the whole forest. */
  lemma DiscoverCombine(es: seq<EntityData>, seen: set<string>, head: (seq<EntityData>, set<string>), tail: (seq<EntityData>, set<string>))
    requires |es| > 0 && NamedLeaves(HeadLeavesOf(es[0])) && NamedLeaves(Leaves(es[1..]))
    requires Leaves(es) == HeadLeavesOf(es[0]) + Leaves(es[1..])
    requires head.0 == Dedup(HeadLeavesOf(es[0]), seen) && head.1 == seen + NameSet(HeadLeavesOf(es[0]))
    requires tail.0 == Dedup(Leaves(es[1..]), head.1) && tail.1 == head.1 + NameSet(Leaves(es[1..]))
    ensures NamedLeaves(Leaves(es)) && NamedLeaves(head.0 + tail.0)
    ensures head.0 + tail.0 == Dedup(Leaves(es), seen)
    ensures tail.1 == seen + NameSet(Leaves(es))
  {
    DedupAppend(HeadLeavesOf(es[0]), Leaves(es[1..]), seen);
    NameSetAppend(HeadLeavesOf(es[0]), Leaves(es[1..]));
  }

  /** The leaves contributed by one element of a forest. */
  function HeadLeavesOf(e: EntityData): seq<EntityData> {
    if e.Compound? then Leaves(e.entities) else [e]
  }

  /** The leaves of a forest are those of its first element, then the rest's. */
  lemma HeadLeaves(es: seq<EntityData>)
    requires WellNamed(es) && |es| > 0
    ensures Leaves(es) == HeadLeavesOf(es[0]) + Leaves(es[1..])
    ensures NamedLeaves(HeadLeavesOf(es[0]))
    ensures es[0].Entity? ==> !IsBlank(es[0].typeInfo.className)
  {
    WellNamedParts(es);
    if es[0].Compound? {
      WellNamedLeaves(es[0].entities);
    } else {
      assert Leaves(es)[0] == es[0];
    }
  }

  /** One named leaf is kept unless its name was already seen. */
  lemma SingleLeafDedup(e: EntityData, seen: set<string>)
    requires e.Entity? && !IsBlank(e.typeInfo.className)
    ensures NamedLeaves([e])
    ensures NameSet([e]) == {LeafName(e)}
    ensures Dedup([e], seen) == if LeafName(e) in seen then [] else [e]
  {
    assert [e][1..] == [];
    assert [e][0] == e;
  }

  /** The leaves the three passes emit for a root, in order. */
  function DistinctLeaves(es: seq<EntityData>): (r: seq<EntityData>)
    requires WellNamed(es)
    ensures NamedLeaves(r)
  {
    Discover(es, {}).0
  }

  /** One entry per distinct camel-cased leaf name, at the first depth-first
      occurrence, in depth-first order; compounds contribute nothing. */
  lemma DistinctLeavesSpec(es: seq<EntityData>)
    requires WellNamed(es)
    ensures NamedLeaves(Leaves(es))
    ensures DistinctNames(DistinctLeaves(es))
    ensures NameSet(DistinctLeaves(es)) == NameSet(Leaves(es))
    ensures AtFirstOccurrences(Leaves(es), DistinctLeaves(es))
    ensures InFirstOccurrenceOrder(Leaves(es), DistinctLeaves(es))
  {
    DedupNames(Leaves(es), {});
    DedupDistinct(Leaves(es), {});
    DedupInFirstOccurrenceOrder(Leaves(es), {});
    assert NameSet(Leaves(es)) - {} == NameSet(Leaves(es));
  }

  /** The names of the distinct leaves: no repeats, and exactly the names met
      anywhere in the tree. */
  lemma DistinctLeavesNames(es: seq<EntityData>)
    requires WellNamed(es)
    ensures NamedLeaves(Leaves(es))
    ensures forall i, j :: 0 <= i < j < |DistinctLeaves(es)| ==> Names(DistinctLeaves(es))[i] != Names(DistinctLeaves(es))[j]
    ensures forall n :: n in NameSet(Leaves(es)) <==> n in Names(DistinctLeaves(es))
  {
    DistinctLeavesSpec(es);
    NameSetIsNames(DistinctLeaves(es));
  }

  lemma NameSetIsNames(ls: seq<EntityData>)
    requires NamedLeaves(ls)
    ensures forall n :: n in NameSet(ls) <==> n in Names(ls)
  {
    var names := Names(ls);
    forall n | n in NameSet(ls) ensures n in names {
      var i :| 0 <= i < |ls| && LeafName(ls[i]) == n;
      assert names[i] == n;
    }
  }
}

=== FILE: generator.dfy ===
/**
  CompoundGenerator.kt: the DAO interface generated for one compound. The
  three passes that need one entry per distinct leaf (accumulator
  declarations, batch-call arguments, abstract-function parameters) all read
  the walk of module Discovery; the mapping block comes from module Mapping.
 */
module Generator {
  import opened Syntax
  import opened Data
  import opened Text
  import opened Code
  import opened Poet
  import opened Discovery
  import opened Mapping
  import Declarations
  import Visitor

  /** The processor options, as passed to the symbol processor. */
  type Options = map<string, string>

  /** An option is on only when its value is exactly `"true"`; a missing key
      or any other value leaves it off. */
  predicate Enabled(options: Options, key: string) {
    key in options && options[key] == OptionEnabled
  }

  function PrefixOf(options: Options): string {
    if Enabled(options, UseDaoPrefixOption) then DaoPrefix else ""
  }

  function PostfixOf(options: Options): string {
    if Enabled(options, UseDaoPostfixOption) then DaoPostfix else ""
  }

  /** The interface and file name: `I` when `useDaoPrefix` is on, the class
      name, `Dao` when `useDaoPostfix` is on. The class name can always be
      read back from between the two. */
  function DaoName(options: Options, className: string): (r: string)
    ensures var pre := PrefixOf(options); var post := PostfixOf(options);
      && |r| == |pre| + |className| + |post|
      && r[..|pre|] == pre
      && r[|pre|..|r| - |post|] == className
      && r[|r| - |post|..] == post
    ensures |r| == |className| <==> !Enabled(options, UseDaoPrefixOption) && !Enabled(options, UseDaoPostfixOption)
  {
    var pre := PrefixOf(options);
    var post := PostfixOf(options);
    var r := pre + className + post;
    assert r[..|pre|] == pre;
    assert r[|pre|..|r| - |post|] == className;
    r
  }

  /** The class a leaf stands for: its type's package and simple name. */
  function EntityClassName(e: EntityData): ClassName {
    ClassName(e.typeInfo.packageName, e.typeInfo.className)
  }

  /** `createListInitializationBlock`: one `val <name> = HashSet<T>()` per
      distinct leaf. */
  function CreateListInitializationBlock(cd: CompoundData): (r: seq<Stmt>)
    requires WellNamed(cd.entities)
    ensures |r| == |DistinctLeaves(cd.entities)|
    ensures forall i :: 0 <= i < |r| ==> r[i].Statement?
    ensures forall i :: 0 <= i < |r| ==>
      r[i].args == [Parameterized(HashSetClass, EntityClassName(DistinctLeaves(cd.entities)[i]))]
  {
    var d := DistinctLeaves(cd.entities);
    seq(|d|, i requires 0 <= i < |d| =>
      Statement(CreateInitializationSyntax(LeafName(d[i])), [Parameterized(HashSetClass, EntityClassName(d[i]))]))
  }

  /** `createListInsertBlock`: the batch call opened, one `<name>, ` per
      distinct leaf, the call closed. */
  function CreateListInsertBlock(cd: CompoundData): (r: seq<Stmt>)
    requires WellNamed(cd.entities)
    ensures |r| == |DistinctLeaves(cd.entities)| + 2
    ensures r[0] == Statement(InsertEntitiesMethodName + ParameterOpenParenthesis, [])
    ensures r[|r| - 1] == Statement(ParameterCloseParenthesis, [])
    ensures forall i :: 0 <= i < |r| ==> r[i].Statement?
  {
    [Statement(InsertEntitiesMethodName + ParameterOpenParenthesis, [])]
    + ArgumentStatements(DistinctLeaves(cd.entities))
    + [Statement(ParameterCloseParenthesis, [])]
  }

  /** One `<name>, ` argument per leaf. */
  function ArgumentStatements(d: seq<EntityData>): (r: seq<Stmt>)
    requires NamedLeaves(d)
    ensures |r| == |d|
    ensures forall i :: 0 <= i < |r| ==> r[i].Statement?
    ensures forall i :: 0 <= i < |r| ==> r[i].format == LeafName(d[i]) + ParameterSeparator
  {
    seq(|d|, i requires 0 <= i < |d| => Statement(LeafName(d[i]) + ParameterSeparator, []))
  }

  function SuspendModifiers(isSuspend: bool): seq<Modifier> {
    if isSuspend then [Suspend] else []
  }

  /** `createEntityInsertFunction`: the abstract batch function, one
      `Collection<T>` parameter per distinct leaf. */
  function CreateEntityInsertFunction(cd: CompoundData, isSuspend: bool): (r: FunSpec)
    requires WellNamed(cd.entities)
    ensures r.name == InsertEntitiesMethodName && r.body == []
    ensures Abstract in r.modifiers && (Suspend in r.modifiers <==> isSuspend)
    ensures |r.parameters| == |DistinctLeaves(cd.entities)|
    ensures forall i :: 0 <= i < |r.parameters| ==>
      && r.parameters[i].name == LeafName(DistinctLeaves(cd.entities)[i])
      && r.parameters[i].typeName == Parameterized(CollectionClass, EntityClassName(DistinctLeaves(cd.entities)[i]))
  {
    var d := DistinctLeaves(cd.entities);
    FunSpec(
      InsertEntitiesMethodName,
      [Abstract] + SuspendModifiers(isSuspend),
      seq(|d|, i requires 0 <= i < |d| =>
        ParameterSpec(LeafName(d[i]), Parameterized(CollectionClass, EntityClassName(d[i])))),
      [])
  }

  /** `createSingleInsertFunction`: takes one compound, wraps it with
      `listOf(...)` and hands it to the list overload. */
  function CreateSingleInsertFunction(compoundClassName: ClassName, isSuspend: bool): (r: FunSpec)
    ensures r.name == InsertMethodName
    ensures r.parameters == [ParameterSpec(CompoundParameterName, Plain(compoundClassName))]
    ensures Suspend in r.modifiers <==> isSuspend
    ensures |r.body| == 1 && r.body[0].Statement?
    ensures var call := r.body[0].format; var m := InsertMethodName;
      |call| == |m| + 2 + |ListOfMethod| + 2 + |CompoundParameterName|
      && call[..|m|] == m
      && call[|m|] == '(' && call[|call| - 1] == ')'
      && call[|m| + 1..|call| - 1] == CreateMethodCallSyntax(ListOfMethod, CompoundParameterName)
  {
    var listCreationMethodCall := CreateMethodCallSyntax(ListOfMethod, CompoundParameterName);
    var insertMethodCall := CreateMethodCallSyntax(InsertMethodName, listCreationMethodCall);
    FunSpec(
      InsertMethodName,
      SuspendModifiers(isSuspend),
      [ParameterSpec(CompoundParameterName, Plain(compoundClassName))],
      [Statement(insertMethodCall, [])])
  }

  /** The list overload: the compound list parameter, and a body made of the
      declarations, the mapping block and the batch call, in that order. */
  function CreateListInsertFunction(cd: CompoundData, isSuspend: bool): (r: FunSpec)
    requires WellNamed(cd.entities)
    ensures r.name == InsertMethodName
    ensures r.parameters == [ParameterSpec(CompoundListParameterName, Parameterized(CollectionClass, ClassName(cd.packageName, cd.className)))]
    ensures Suspend in r.modifiers <==> isSuspend
    ensures r.body == CreateListInitializationBlock(cd) + CreateListMappingBlock(cd) + CreateListInsertBlock(cd)
    ensures Balanced(r.body)
  {
    var compoundClassName := ClassName(cd.packageName, cd.className);
    var initialization := CreateListInitializationBlock(cd);
    var mapping := CreateListMappingBlock(cd);
    var insert := CreateListInsertBlock(cd);
    StatementsOnlyBalanced(initialization);
    StatementsOnlyBalanced(insert);
    BalancedAppend(initialization, mapping);
    BalancedAppend(initialization + mapping, insert);
    FunSpec(
      InsertMethodName,
      SuspendModifiers(isSuspend),
      [ParameterSpec(CompoundListParameterName, Parameterized(CollectionClass, compoundClassName))],
      initialization + mapping + insert)
  }

  /** The single overload delegates to the list overload: same name and
      suspend flag, its parameter is the element type of the list
      parameter, and its one statement calls the list overload's name on
      `listOf(<its parameter>)`. */
  lemma SingleOverloadDelegates(cd: CompoundData, isSuspend: bool)
    requires WellNamed(cd.entities)
    ensures var single := CreateSingleInsertFunction(ClassName(cd.packageName, cd.className), isSuspend);
      var list := CreateListInsertFunction(cd, isSuspend);
      && single.name == list.name
      && (Suspend in single.modifiers <==> Suspend in list.modifiers)
      && |single.parameters| == |list.parameters| == 1
      && single.parameters[0].typeName.Plain?
      && list.parameters[0].typeName == Parameterized(CollectionClass, single.parameters[0].typeName.className)
      && single.body == [Statement(CreateMethodCallSyntax(list.name, CreateMethodCallSyntax(ListOfMethod, single.parameters[0].name)), [])]
  {
  }

  /** A block without control flow is trivially balanced. */
  lemma {:induction false} StatementsOnlyBalanced(s: seq<Stmt>)
    requires forall i :: 0 <= i < |s| ==> s[i].Statement?
    ensures Balanced(s)
  {
    if |s| > 0 {
      StatementsOnlyBalanced(s[1..]);
      forall k | 0 <= k <= |s| ensures Net(s[..k]) >= 0 {
        if k > 0 {
          assert s[..k][1..] == s[1..][..k - 1];
        }
      }
    }
  }

  /** The generated `@Dao` interface. */
  datatype Dao = Dao(packageName: string, name: string, annotation: ClassName, functions: seq<FunSpec>)

  /** `generateDao` without the file writing: the interface holds the single
      overload, the list overload and the abstract batch function. */
  function GenerateDao(options: Options, cd: CompoundData): (r: Dao)
    requires WellNamed(cd.entities)
    ensures r.packageName == cd.packageName && r.name == DaoName(options, cd.className)
    ensures r.annotation == ClassName(RoomPackage, DaoAnnotation)
    ensures |r.functions| == 3
    ensures r.functions[0].name == InsertMethodName && r.functions[1].name == InsertMethodName
    ensures r.functions[2].name == InsertEntitiesMethodName
    ensures Balanced(r.functions[1].body)
    ensures Suspend in r.functions[0].modifiers <==> Enabled(options, SuspendDaoOption)
    ensures Suspend in r.functions[1].modifiers <==> Enabled(options, SuspendDaoOption)
    ensures Suspend in r.functions[2].modifiers <==> Enabled(options, SuspendDaoOption)
    ensures var isSuspend := Enabled(options, SuspendDaoOption);
      r.functions == [
        CreateSingleInsertFunction(ClassName(cd.packageName, cd.className), isSuspend),
        CreateListInsertFunction(cd, isSuspend),
        CreateEntityInsertFunction(cd, isSuspend)]
  {
    var isSuspend := Enabled(options, SuspendDaoOption);
    var single := CreateSingleInsertFunction(ClassName(cd.packageName, cd.className), isSuspend);
    var list := CreateListInsertFunction(cd, isSuspend);
    var entities := CreateEntityInsertFunction(cd, isSuspend);
    Dao(cd.packageName, DaoName(options, cd.className), ClassName(RoomPackage, DaoAnnotation), [single, list, entities])
  }

  /** The accumulators the declaration block introduces, read back from the
      rendered statements. */
  function DeclaredNames(block: seq<Stmt>): seq<string>
    requires forall i :: 0 <= i < |block| ==>
      block[i].Statement? && |block[i].format| >= |DeclarationPrefix| + |DeclarationSuffix|
  {
    seq(|block|, i requires 0 <= i < |block| => DeclaredVariable(block[i].format))
  }

  /** The arguments of the batch call, read back from the rendered statements
      by dropping the trailing separator. */
  function ArgumentNames(block: seq<Stmt>): seq<string>
    requires |block| >= 2
    requires forall i :: 1 <= i < |block| - 1 ==>
      block[i].Statement? && |block[i].format| >= |ParameterSeparator|
  {
    seq(|block| - 2, i requires 0 <= i < |block| - 2 =>
      block[i + 1].format[..|block[i + 1].format| - |ParameterSeparator|])
  }

  function ParameterNames(f: FunSpec): seq<string> {
    seq(|f.parameters|, i requires 0 <= i < |f.parameters| => f.parameters[i].name)
  }

  /** Position by position, the declared set is `HashSet` of the class the
      batch parameter is a `Collection` of. */
  predicate SameClasses(init: seq<Stmt>, fun: FunSpec) {
    && |fun.parameters| == |init|
    && forall i :: 0 <= i < |init| ==>
      && fun.parameters[i].typeName.Parameterized?
      && fun.parameters[i].typeName.raw == CollectionClass
      && init[i].Statement?
      && init[i].args == [Parameterized(HashSetClass, fun.parameters[i].typeName.argument)]
  }

  /** Declarations, batch-call arguments and batch-function parameters line
      up one to one: the same names, in the same order and number, and each
      position's declared set and parameter collection hold the same class.
      In the source these are three textually identical walks, each with a
      `HashSet` of its own (CompoundGenerator.kt:95-122, 202-233 and
      241-266); the model runs the one shared walk `DistinctLeaves`, and
      this lemma is what the source gets from the three walks agreeing. */
  lemma PassesAlign(cd: CompoundData, isSuspend: bool)
    requires WellNamed(cd.entities)
    ensures var init := CreateListInitializationBlock(cd);
      var insert := CreateListInsertBlock(cd);
      var fun := CreateEntityInsertFunction(cd, isSuspend);
      && (forall i :: 0 <= i < |init| ==> |init[i].format| >= |DeclarationPrefix| + |DeclarationSuffix|)
      && (forall i :: 1 <= i < |insert| - 1 ==> |insert[i].format| >= |ParameterSeparator|)
      && DeclaredNames(init) == ArgumentNames(insert)
      && ArgumentNames(insert) == ParameterNames(fun)
      && ParameterNames(fun) == Names(DistinctLeaves(cd.entities))
      && SameClasses(init, fun)
  {
    InitializationReadsBack(cd);
    InsertReadsBack(cd);
  }

  /** Every declaration reads back as the name of its distinct leaf. */
  lemma InitializationReadsBack(cd: CompoundData)
    requires WellNamed(cd.entities)
    ensures var init := CreateListInitializationBlock(cd); var d := DistinctLeaves(cd.entities);
      forall i :: 0 <= i < |init| ==>
        |init[i].format| >= |DeclarationPrefix| + |DeclarationSuffix|
        && DeclaredVariable(init[i].format) == LeafName(d[i])
  {
    var d := DistinctLeaves(cd.entities);
    var init := CreateListInitializationBlock(cd);
    forall i | 0 <= i < |init|
      ensures |init[i].format| >= |DeclarationPrefix| + |DeclarationSuffix|
      ensures DeclaredVariable(init[i].format) == LeafName(d[i])
    {
    }
  }

  /** Every batch-call argument, without its separator, is the name of its
      distinct leaf. */
  lemma InsertReadsBack(cd: CompoundData)
    requires WellNamed(cd.entities)
    ensures var insert := CreateListInsertBlock(cd); var d := DistinctLeaves(cd.entities);
      forall i :: 1 <= i < |insert| - 1 ==>
        |insert[i].format| >= |ParameterSeparator|
        && insert[i].format[..|insert[i].format| - |ParameterSeparator|] == LeafName(d[i - 1])
  {
    var d := DistinctLeaves(cd.entities);
    var insert := CreateListInsertBlock(cd);
    forall i | 1 <= i < |insert| - 1
      ensures |insert[i].format| >= |ParameterSeparator|
      ensures insert[i].format[..|insert[i].format| - |ParameterSeparator|] == LeafName(d[i - 1])
    {
      assert insert[i].format == LeafName(d[i - 1]) + ParameterSeparator;
    }
  }

  /** The declaration block reads back as the names of the distinct leaves. */
  lemma DeclaresDistinctNames(cd: CompoundData)
    requires WellNamed(cd.entities)
    ensures var init := CreateListInitializationBlock(cd);
      && (forall i :: 0 <= i < |init| ==> |init[i].format| >= |DeclarationPrefix| + |DeclarationSuffix|)
      && DeclaredNames(init) == Names(DistinctLeaves(cd.entities))
  {
    PassesAlign(cd, false);
  }

  /** Each distinct camel-cased leaf name is declared exactly once, whatever
      the number of positions referencing it. */
  lemma DeclaredOncePerName(cd: CompoundData)
    requires WellNamed(cd.entities)
    ensures var init := CreateListInitializationBlock(cd);
      && NamedLeaves(Leaves(cd.entities))
      && (forall i :: 0 <= i < |init| ==> |init[i].format| >= |DeclarationPrefix| + |DeclarationSuffix|)
      && (forall i, j :: 0 <= i < j < |init| ==> DeclaredNames(init)[i] != DeclaredNames(init)[j])
      && (forall n :: n in NameSet(Leaves(cd.entities)) <==> n in DeclaredNames(init))
  {
    DeclaresDistinctNames(cd);
    DistinctLeavesNames(cd.entities);
  }

  /** Every addition in the mapping block targets an accumulator that the
      declaration block introduced. */
  lemma AdditionsTargetDeclaredAccumulators(cd: CompoundData)
    requires WellNamed(cd.entities)
    ensures var init := CreateListInitializationBlock(cd);
      var keys := AddKeys(MapEntities(cd.entities, []));
      && (forall i :: 0 <= i < |init| ==> |init[i].format| >= |DeclarationPrefix| + |DeclarationSuffix|)
      && (forall k :: 0 <= k < |keys| ==> keys[k].0 in DeclaredNames(init))
  {
    DeclaredOncePerName(cd);
    EveryLeafAddedOnce(cd.entities, []);
    var ls := Leaves(cd.entities);
    var keys := AddKeys(MapEntities(cd.entities, []));
    forall k | 0 <= k < |keys| ensures keys[k].0 in NameSet(ls) {
      assert keys[k] == LeafKeys(ls)[k];
    }
  }

  /** A compound the visitor accepts yields a batch function with at least
      one parameter: every nested compound has a child, so some leaf exists. */
  lemma AcceptedCompoundHasParameters(c: Declarations.ClassDecl, isSuspend: bool)
    requires Visitor.GetCompoundData(c).Success?
    requires WellNamed(Visitor.GetCompoundData(c).value.entities)
    ensures |CreateEntityInsertFunction(Visitor.GetCompoundData(c).value, isSuspend).parameters| > 0
  {
    var cd := Visitor.GetCompoundData(c).value;
    WellFormedHasLeaves(cd.entities);
    DistinctLeavesSpec(cd.entities);
    var ls := Leaves(cd.entities);
    assert LeafName(ls[0]) in NameSet(ls);
  }
}

=== FILE: legacy.dfy ===
/**
  The older validator in ksp/CompoundProcessor.kt. It builds an earlier tree
  shape (a compound has one embedded parent and a list of relation children)
  and reports problems as diagnostics, returning no tree on the fatal ones.
  Nested compounds are validated by the same function.
 */
module Legacy {
  import opened Wrappers
  import opened Declarations
  import opened Visitor

  /** The tree shape this validator produces. */
  datatype LegacyEntity =
    | LegacyCompound(packageName: string, className: string, parent: LegacyEntity, children: seq<LegacyEntity>)
    | LegacyLeaf(packageName: string, className: string, propertyName: string, isNullable: bool)

  /** The messages logged against a declaration. Only
      `MultipleEmbeddedParents` lets processing continue. */
  datatype Diagnostic =
    | OnlyClasses(className: string)
    | NoPropertiesFound(className: string)
    | MultipleEmbeddedParents(propertyName: string)
    | NoEmbeddedParent(className: string)
    | NoRelationChild(className: string)

  /** A validation outcome: the tree, or none, and everything logged on the way. */
  datatype Outcome = Outcome(tree: Option<LegacyEntity>, log: seq<Diagnostic>)

  /** The state of the property scan: stopped by a failed nested build, or
      finished with the parent and children collected so far. */
  datatype Scan =
    | Aborted(log: seq<Diagnostic>)
    | Scanned(parent: Option<LegacyEntity>, children: seq<LegacyEntity>, log: seq<Diagnostic>)

  /** Properties taken as the embedded parent; an `@Embedded` property is
      never also a relation child. */
  function EmbeddedProperties(ps: seq<PropertyDecl>): (r: seq<PropertyDecl>)
    ensures forall k :: 0 <= k < |r| ==> IsEmbedded(r[k])
  {
    if |ps| == 0 then []
    else (if IsEmbedded(ps[0]) then [ps[0]] else []) + EmbeddedProperties(ps[1..])
  }

  /** Properties taken as relation children: `@Relation` without `@Embedded`. */
  function RelationProperties(ps: seq<PropertyDecl>): (r: seq<PropertyDecl>)
    ensures forall k :: 0 <= k < |r| ==> IsRelation(r[k]) && !IsEmbedded(r[k])
  {
    if |ps| == 0 then []
    else (if IsRelation(ps[0]) && !IsEmbedded(ps[0]) then [ps[0]] else []) + RelationProperties(ps[1..])
  }

  /** Both filters keep only properties of the list they filter. */
  lemma {:induction false} FiltersKeepMembers(ps: seq<PropertyDecl>)
    ensures forall k :: 0 <= k < |EmbeddedProperties(ps)| ==> EmbeddedProperties(ps)[k] in ps
    ensures forall k :: 0 <= k < |RelationProperties(ps)| ==> RelationProperties(ps)[k] in ps
  {
    if |ps| > 0 {
      FiltersKeepMembers(ps[1..]);
      var es := EmbeddedProperties(ps);
      var rs := RelationProperties(ps);
      var esHead := if IsEmbedded(ps[0]) then [ps[0]] else [];
      var rsHead := if IsRelation(ps[0]) && !IsEmbedded(ps[0]) then [ps[0]] else [];
      assert es == esHead + EmbeddedProperties(ps[1..]);
      assert rs == rsHead + RelationProperties(ps[1..]);
      forall k | 0 <= k < |es| ensures es[k] in ps {
        if k >= |esHead| { assert es[k] == EmbeddedProperties(ps[1..])[k - |esHead|]; }
      }
      forall k | 0 <= k < |rs| ensures rs[k] in ps {
        if k >= |rsHead| { assert rs[k] == RelationProperties(ps[1..])[k - |rsHead|]; }
      }
    }
  }

  /** `getEntityData`: a leaf named after the property's resolved type. */
  function GetEntityData(p: PropertyDecl): (r: LegacyEntity)
    ensures r.LegacyLeaf?
    ensures r.packageName == p.propertyType.declaration.packageName && r.className == p.propertyType.declaration.simpleName
    ensures r.propertyName == p.name && r.isNullable == p.propertyType.isMarkedNullable
  {
    var t := p.propertyType.declaration;
    LegacyLeaf(t.packageName, t.simpleName, p.name, p.propertyType.isMarkedNullable)
  }

  /** The node for one annotated property: a leaf when the property's type is
      an `@Entity`, otherwise the nested validation of that type. */
  function Build(p: PropertyDecl): (r: Outcome)
    decreases p, 0
    ensures IsEntityClass(p.propertyType.declaration) ==> r == Outcome(Some(GetEntityData(p)), [])
    ensures !IsEntityClass(p.propertyType.declaration) ==> r == GetCompoundData(p.propertyType.declaration)
  {
    var t := p.propertyType.declaration;
    if !IsEntityClass(t) then GetCompoundData(t)
    else Outcome(Some(GetEntityData(p)), [])
  }

  predicate BuildFails(p: PropertyDecl)
    decreases p, 1
  {
    IsChildProperty(p) && Build(p).tree.None?
  }

  /** The property loop of `getCompoundData`, from a given state. */
  function ScanProperties(ps: seq<PropertyDecl>, parent: Option<LegacyEntity>, children: seq<LegacyEntity>, log: seq<Diagnostic>): (r: Scan)
    decreases ps
    ensures |r.log| >= |log| && r.log[..|log|] == log
  {
    if |ps| == 0 then Scanned(parent, children, log)
    else
      var p := ps[0];
      if IsEmbedded(p) then
        var warned := log + (if parent.Some? then [MultipleEmbeddedParents(p.name)] else []);
        var built := Build(p);
        if built.tree.None? then Aborted(warned + built.log)
        else
          var r := ScanProperties(ps[1..], built.tree, children, warned + built.log);
          assert (warned + built.log)[..|log|] == log;
          r
      else if IsRelation(p) then
        var built := Build(p);
        if built.tree.None? then Aborted(log + built.log)
        else
          var r := ScanProperties(ps[1..], parent, children + [built.tree.value], log + built.log);
          assert (log + built.log)[..|log|] == log;
          r
      else ScanProperties(ps[1..], parent, children, log)
  }

  /** One step of the scan: the state after the first property. */
  function Step(p: PropertyDecl, parent: Option<LegacyEntity>, children: seq<LegacyEntity>, log: seq<Diagnostic>): (Option<LegacyEntity>, seq<LegacyEntity>, seq<Diagnostic>)
  {
    if IsEmbedded(p) then
      (Build(p).tree, children, log + (if parent.Some? then [MultipleEmbeddedParents(p.name)] else []) + Build(p).log)
    else if IsRelation(p) && Build(p).tree.Some? then
      (parent, children + [Build(p).tree.value], log + Build(p).log)
    else (parent, children, log)
  }

  lemma ScanUnfold(ps: seq<PropertyDecl>, parent: Option<LegacyEntity>, children: seq<LegacyEntity>, log: seq<Diagnostic>)
    requires |ps| > 0 && !BuildFails(ps[0])
    ensures var s := Step(ps[0], parent, children, log);
      ScanProperties(ps, parent, children, log) == ScanProperties(ps[1..], s.0, s.1, s.2)
  {
  }

  /** The scan stops exactly when some annotated property fails to build; a
      repeated embedded parent never stops it. */
  lemma {:induction false} ScanAbortsOnFailedBuild(ps: seq<PropertyDecl>, parent: Option<LegacyEntity>, children: seq<LegacyEntity>, log: seq<Diagnostic>)
    ensures ScanProperties(ps, parent, children, log).Aborted? <==> exists i :: 0 <= i < |ps| && BuildFails(ps[i])
  {
    if |ps| > 0 {
      var p := ps[0];
      assert forall i :: 1 <= i < |ps| ==> ps[i] == ps[1..][i - 1];
      if IsEmbedded(p) {
        var warned := log + (if parent.Some? then [MultipleEmbeddedParents(p.name)] else []);
        ScanAbortsOnFailedBuild(ps[1..], Build(p).tree, children, warned + Build(p).log);
      } else if IsRelation(p) {
        if Build(p).tree.Some? {
          ScanAbortsOnFailedBuild(ps[1..], parent, children + [Build(p).tree.value], log + Build(p).log);
        }
      } else {
        ScanAbortsOnFailedBuild(ps[1..], parent, children, log);
      }
    }
  }

  /** After a complete scan the parent is the last embedded property's node. */
  lemma {:induction false} ScanKeepsLastParent(ps: seq<PropertyDecl>, parent: Option<LegacyEntity>, children: seq<LegacyEntity>, log: seq<Diagnostic>)
    ensures var r := ScanProperties(ps, parent, children, log); var es := EmbeddedProperties(ps);
      r.Scanned? ==> r.parent == (if |es| == 0 then parent else Build(es[|es| - 1]).tree)
  {
    if |ps| > 0 {
      if BuildFails(ps[0]) {
        ScanAbortsOnFailedBuild(ps, parent, children, log);
      } else {
        var p := ps[0];
        var s := Step(p, parent, children, log);
        ScanUnfold(ps, parent, children, log);
        ScanKeepsLastParent(ps[1..], s.0, s.1, s.2);
        LastEmbeddedCons(ps);
      }
    }
  }

  /** The last embedded property from the first property on: the last one
      from the second property on, if any, else the first property if it is
      embedded. */
  lemma LastEmbeddedCons(ps: seq<PropertyDecl>)
    requires |ps| > 0
    ensures var es := EmbeddedProperties(ps); var rest := EmbeddedProperties(ps[1..]);
      && (|rest| > 0 ==> |es| > 0 && es[|es| - 1] == rest[|rest| - 1])
      && (|rest| == 0 ==> (|es| > 0 <==> IsEmbedded(ps[0])) && (|es| > 0 ==> es[|es| - 1] == ps[0]))
  {
    var head := if IsEmbedded(ps[0]) then [ps[0]] else [];
    var rest := EmbeddedProperties(ps[1..]);
    assert EmbeddedProperties(ps) == head + rest;
    assert |head + rest| == |head| + |rest|;
    LastOfConcat(head, rest);
  }

  /** The last element of a concatenation with an at most one-element head. */
  lemma LastOfConcat<T>(head: seq<T>, rest: seq<T>)
    requires |head| <= 1
    ensures |rest| > 0 ==> (head + rest)[|head + rest| - 1] == rest[|rest| - 1]
    ensures |rest| == 0 && |head| == 1 ==> (head + rest)[|head + rest| - 1] == head[0]
  { }

  /** `result` is `children` followed by the nodes of `rs`, in order. */
  predicate CollectsFrom(result: seq<LegacyEntity>, children: seq<LegacyEntity>, rs: seq<PropertyDecl>) {
    && |result| == |children| + |rs|
    && result[..|children|] == children
    && forall k :: 0 <= k < |rs| ==> Build(rs[k]).tree == Some(result[|children| + k])
  }

  lemma CollectsCons(result: seq<LegacyEntity>, children: seq<LegacyEntity>, p: PropertyDecl, rest: seq<PropertyDecl>)
    requires Build(p).tree.Some?
    requires CollectsFrom(result, children + [Build(p).tree.value], rest)
    ensures CollectsFrom(result, children, [p] + rest)
  {
    var grown := children + [Build(p).tree.value];
    assert result[..|children|] == result[..|grown|][..|children|];
    assert result[|children|] == result[..|grown|][|children|];
    forall k | 1 <= k < |rest| + 1 ensures Build(([p] + rest)[k]).tree == Some(result[|children| + k]) {
      assert ([p] + rest)[k] == rest[k - 1];
    }
  }

  /** After a complete scan the children are the relation properties' nodes,
      in declaration order, after those collected before. */
  lemma {:induction false} ScanCollectsRelations(ps: seq<PropertyDecl>, parent: Option<LegacyEntity>, children: seq<LegacyEntity>, log: seq<Diagnostic>)
    ensures var r := ScanProperties(ps, parent, children, log);
      r.Scanned? ==> CollectsFrom(r.children, children, RelationProperties(ps))
  {
    if |ps| == 0 {
      assert children[..|children|] == children;
    } else if BuildFails(ps[0]) {
      ScanAbortsOnFailedBuild(ps, parent, children, log);
    } else {
      var p := ps[0];
      var s := Step(p, parent, children, log);
      ScanUnfold(ps, parent, children, log);
      ScanCollectsRelations(ps[1..], s.0, s.1, s.2);
      var r := ScanProperties(ps, parent, children, log);
      var rest := RelationProperties(ps[1..]);
      if r.Scanned? {
        if IsRelation(p) && !IsEmbedded(p) {
          assert RelationProperties(ps) == [p] + rest;
          CollectsCons(r.children, children, p, rest);
        } else {
          assert RelationProperties(ps) == rest;
        }
      }
    }
  }

  /** Every property of `es` from index `from` on is reported in `log` as a
      second embedded parent. */
  predicate ReportedFrom(es: seq<PropertyDecl>, from: nat, log: seq<Diagnostic>) {
    forall k :: from <= k < |es| ==> MultipleEmbeddedParents(es[k].name) in log
  }

  /** A complete scan reports every embedded property that replaces an
      earlier parent: all of them when a parent was already set, all but the
      first otherwise. */
  lemma {:induction false} ScanWarnsRepeatedParents(ps: seq<PropertyDecl>, parent: Option<LegacyEntity>, children: seq<LegacyEntity>, log: seq<Diagnostic>)
    ensures var r := ScanProperties(ps, parent, children, log);
      r.Scanned? ==> ReportedFrom(EmbeddedProperties(ps), if parent.Some? then 0 else 1, r.log)
  {
    if |ps| > 0 {
      if BuildFails(ps[0]) {
        ScanAbortsOnFailedBuild(ps, parent, children, log);
      } else {
        var p := ps[0];
        var s := Step(p, parent, children, log);
        ScanUnfold(ps, parent, children, log);
        ScanWarnsRepeatedParents(ps[1..], s.0, s.1, s.2);
        var r := ScanProperties(ps, parent, children, log);
        var es := EmbeddedProperties(ps);
        var rest := EmbeddedProperties(ps[1..]);
        if r.Scanned? {
          if IsEmbedded(p) {
            assert es == [p] + rest;
            assert s.0.Some?;
            assert ReportedFrom(rest, 0, r.log);
            if parent.Some? {
              assert MultipleEmbeddedParents(p.name) in s.2;
              assert r.log[..|s.2|] == s.2;
              assert MultipleEmbeddedParents(p.name) in r.log[..|s.2|];
            }
            forall k | (if parent.Some? then 0 else 1) <= k < |es|
              ensures MultipleEmbeddedParents(es[k].name) in r.log
            {
              if k > 0 { assert es[k] == rest[k - 1]; }
            }
          } else {
            assert es == rest;
            assert s.0 == parent;
          }
        }
      }
    }
  }

  /** When no annotated property fails to build, every `@Embedded` property
      after the first is reported as a second embedded parent, whether or
      not the class is then accepted. */
  lemma RepeatedEmbeddedParentsReported(c: ClassDecl)
    requires c.isClass && |c.properties| > 0
    requires forall i :: 0 <= i < |c.properties| ==> !BuildFails(c.properties[i])
    ensures ReportedFrom(EmbeddedProperties(c.properties), 1, GetCompoundData(c).log)
  {
    ScanAbortsOnFailedBuild(c.properties, None, [], []);
    ScanWarnsRepeatedParents(c.properties, None, [], []);
  }

  /** `getCompoundData`: no tree for a non-class or a class without
      properties, each with its one diagnostic. */
  function GetCompoundData(c: ClassDecl): (r: Outcome)
    decreases c
    ensures !c.isClass ==> r == Outcome(None, [OnlyClasses(c.simpleName)])
    ensures c.isClass && |c.properties| == 0 ==> r == Outcome(None, [NoPropertiesFound(c.simpleName)])
    ensures r.tree.Some? ==> r.tree.value.LegacyCompound? && |r.tree.value.children| > 0
  {
    if !c.isClass then Outcome(None, [OnlyClasses(c.simpleName)])
    else if |c.properties| == 0 then Outcome(None, [NoPropertiesFound(c.simpleName)])
    else
      match ScanProperties(c.properties, None, [], [])
      case Aborted(log) => Outcome(None, log)
      case Scanned(parent, children, log) =>
        if parent.None? then Outcome(None, log + [NoEmbeddedParent(c.simpleName)])
        else if |children| == 0 then Outcome(None, log + [NoRelationChild(c.simpleName)])
        else Outcome(Some(LegacyCompound(c.packageName, c.simpleName, parent.value, children)), log)
  }

  /** A tree comes back exactly when the class has properties, none of its
      annotated properties fails to build, and it has an embedded parent and
      a relation child. */
  lemma GetCompoundDataAccepts(c: ClassDecl)
    ensures GetCompoundData(c).tree.Some? <==>
      && c.isClass && |c.properties| > 0
      && (forall i :: 0 <= i < |c.properties| ==> !BuildFails(c.properties[i]))
      && |EmbeddedProperties(c.properties)| > 0
      && |RelationProperties(c.properties)| > 0
  {
    if c.isClass && |c.properties| > 0 {
      var ps := c.properties;
      ScanAbortsOnFailedBuild(ps, None, [], []);
      ScanKeepsLastParent(ps, None, [], []);
      ScanCollectsRelations(ps, None, [], []);
      var es := EmbeddedProperties(ps);
      FiltersKeepMembers(ps);
      if |es| > 0 && forall i :: 0 <= i < |ps| ==> !BuildFails(ps[i]) {
        assert !BuildFails(es[|es| - 1]);
      }
    }
  }

  /** An accepted compound holds the last embedded property's node as its
      parent and the relation properties' nodes, in order, as its children. */
  lemma GetCompoundDataShape(c: ClassDecl)
    requires GetCompoundData(c).tree.Some?
    ensures var t := GetCompoundData(c).tree.value;
      var es := EmbeddedProperties(c.properties);
      var rs := RelationProperties(c.properties);
      && t.packageName == c.packageName && t.className == c.simpleName
      && |es| > 0
      && Build(es[|es| - 1]).tree == Some(t.parent)
      && |t.children| == |rs|
      && forall k :: 0 <= k < |rs| ==> Build(rs[k]).tree == Some(t.children[k])
  {
    var ps := c.properties;
    ScanKeepsLastParent(ps, None, [], []);
    ScanCollectsRelations(ps, None, [], []);
  }

  /** A child property whose type is neither an `@Entity` nor a class (a
      `List<...>` relation, say) fails its nested build, so the whole
      compound is rejected: this validator has no notion of collections. */
  lemma NonClassChildTypeRejected(c: ClassDecl, i: nat)
    requires c.isClass && i < |c.properties|
    requires IsChildProperty(c.properties[i])
    requires !IsEntityClass(c.properties[i].propertyType.declaration) && !c.properties[i].propertyType.declaration.isClass
    ensures GetCompoundData(c).tree.None?
  {
    assert BuildFails(c.properties[i]);
    GetCompoundDataAccepts(c);
  }
}

=== FILE: mapping.dfy ===
/**
  The flatten/mapping block of CompoundGenerator.kt (`createListMappingBlock`
  with its `handleEntity` walk and the generator's own
  `createPropertyAccessSyntax`). The walk first yields a tree of operations --
  a `forEach` scope with the operations inside it, or one addition to an
  accumulator -- which `Render` writes out as the flat
  begin/statement/end sequence the code block receives.
 */
module Mapping {
  import opened Syntax
  import opened Data
  import opened Text
  import opened Code
  import opened Poet
  import opened Discovery

  datatype MappingOp =
    | ForEach(collection: string, isNullable: bool, body: seq<MappingOp>)
    | Add(listName: string, accessSyntax: PropertyAccessSyntax, isCollection: bool)

  /** `createPropertyAccessSyntax` of CompoundGenerator.kt: the path through the
      access parents to the property; the flag also covers the property itself. */
  function PropertyAccess(parent: string, parents: seq<PropertyInfo>, property: PropertyInfo): (r: PropertyAccessSyntax)
    ensures r.access == ExpectedPath(parent, parents, property.name)
    ensures r.handleNullability <==> AnyNullable(parents) || property.isNullable
  {
    var segments := AccessSegments(parents, false);
    PropertyAccessSyntax(parent + InstanceAccessKey + segments.0 + property.name, segments.1 || property.isNullable)
  }

  /** `handleEntity` of the mapping block, applied to each child in turn with
      the same access parents. A compound reached through a collection opens a
      `forEach` over its access path and walks its children from an empty
      chain; any other compound joins the chain; an entity is added to the
      accumulator named after its class. */
  function MapEntities(es: seq<EntityData>, accessParents: seq<PropertyInfo>): (r: seq<MappingOp>)
    requires WellNamed(es)
    ensures AnyNullable(accessParents) ==> forall i :: 0 <= i < |r| ==> Guarded(r[i])
  {
    if |es| == 0 then []
    else
      WellNamedParts(es);
      AnyNullableSnoc(accessParents, es[0].propertyInfo);
      assert es[0].Entity? ==> Leaves(es)[0] == es[0];
      var head :=
        match es[0]
        case Compound(t, p, _, _, children) =>
          if t.isCollection then
            var accessSyntax := PropertyAccess(ItKeyword, accessParents, p);
            [ForEach(accessSyntax.access, accessSyntax.handleNullability, MapEntities(children, []))]
          else
            MapEntities(children, accessParents + [p])
        case Entity(t, p, _, _) =>
          [Add(CamelName(t.className), PropertyAccess(ItKeyword, accessParents, p), t.isCollection)];
      head + MapEntities(es[1..], accessParents)
  }

  /** The whole block: one `forEach` over the compound list parameter around
      the walk of the root's children. */
  function MappingOps(cd: CompoundData): seq<MappingOp>
    requires WellNamed(cd.entities)
  {
    [ForEach(CompoundListParameterName, false, MapEntities(cd.entities, []))]
  }

  /** Every `forEach` in a list of operations, at any depth. */
  function ForEachCount(ops: seq<MappingOp>): nat {
    if |ops| == 0 then 0
    else
      (match ops[0]
        case ForEach(_, _, body) => 1 + ForEachCount(body)
        case Add(_, _, _) => 0)
      + ForEachCount(ops[1..])
  }

  /** The accumulator and the `add`/`addAll` choice of every addition, depth first. */
  function AddKeys(ops: seq<MappingOp>): seq<(string, bool)> {
    if |ops| == 0 then []
    else
      (match ops[0]
        case ForEach(_, _, body) => AddKeys(body)
        case Add(listName, _, isCollection) => [(listName, isCollection)])
      + AddKeys(ops[1..])
  }

  /** The access path of every addition, depth first. */
  function AddAccesses(ops: seq<MappingOp>): seq<PropertyAccessSyntax> {
    if |ops| == 0 then []
    else
      (match ops[0]
        case ForEach(_, _, body) => AddAccesses(body)
        case Add(_, accessSyntax, _) => [accessSyntax])
      + AddAccesses(ops[1..])
  }

  /** The statement text of every addition, depth first. */
  function AddTexts(ops: seq<MappingOp>): seq<string>
    decreases ops, 1
  {
    if |ops| == 0 then [] else HeadTexts(ops[0]) + AddTexts(ops[1..])
  }

  /** The addition texts of one operation. */
  function HeadTexts(op: MappingOp): seq<string>
    decreases op, 0
  {
    match op
    case ForEach(_, _, body) => AddTexts(body)
    case Add(listName, accessSyntax, isCollection) => [CreateListAdditionSyntax(listName, accessSyntax, isCollection)]
  }

  /** The loop header of every `forEach`, in the order the scopes open. */
  function ForEachHeaders(ops: seq<MappingOp>): seq<string> {
    if |ops| == 0 then []
    else
      (match ops[0]
        case ForEach(collection, isNullable, body) => [CreateGuardedForEachSyntax(collection, isNullable)] + ForEachHeaders(body)
        case Add(_, _, _) => [])
      + ForEachHeaders(ops[1..])
  }

  /** Writes the operations out as KotlinPoet would receive them: every
      scope is a `beginControlFlow`, its body, and an `endControlFlow`. The
      plain statements are the additions' texts and the scope headers the
      loops' headers, both in depth-first order. */
  function Render(ops: seq<MappingOp>): (r: seq<Stmt>)
    ensures Balanced(r)
    ensures Begins(r) == ForEachCount(ops)
    ensures Statements(r) == |AddKeys(ops)|
    ensures PlainTexts(r) == AddTexts(ops)
    ensures Headers(r) == ForEachHeaders(ops)
  {
    if |ops| == 0 then []
    else
      var head :=
        match ops[0]
        case ForEach(collection, isNullable, body) =>
          RenderScope(CreateGuardedForEachSyntax(collection, isNullable), Render(body))
        case Add(listName, accessSyntax, isCollection) =>
          [Statement(CreateListAdditionSyntax(listName, accessSyntax, isCollection), [])];
      var tail := Render(ops[1..]);
      BalancedAppend(head, tail);
      CountsAppend(head, tail);
      TextsAppend(head, tail);
      head + tail
  }

  /** One scope around an already rendered body. */
  function RenderScope(header: string, inner: seq<Stmt>): (r: seq<Stmt>)
    requires Balanced(inner)
    ensures Balanced(r)
    ensures Begins(r) == 1 + Begins(inner) && Statements(r) == Statements(inner)
    ensures PlainTexts(r) == PlainTexts(inner) && Headers(r) == [header] + Headers(inner)
    ensures |r| == |inner| + 2 && r[0] == BeginControlFlow(header) && r[|r| - 1] == EndControlFlow
  {
    BalancedWrap(header, inner);
    CountsAppend([BeginControlFlow(header)], inner);
    CountsAppend([BeginControlFlow(header)] + inner, [EndControlFlow]);
    TextsAppend([BeginControlFlow(header)], inner);
    TextsAppend([BeginControlFlow(header)] + inner, [EndControlFlow]);
    [BeginControlFlow(header)] + inner + [EndControlFlow]
  }

  /** `createListMappingBlock`. */
  function CreateListMappingBlock(cd: CompoundData): (r: seq<Stmt>)
    requires WellNamed(cd.entities)
    ensures Balanced(r)
    ensures Begins(r) == 1 + CollectionCompounds(cd.entities)
    ensures |r| >= 2 && r[0] == BeginControlFlow(CreateForEachSyntax(CompoundListParameterName)) && r[|r| - 1] == EndControlFlow
    ensures Statements(r) == |Leaves(cd.entities)|
    ensures PlainTexts(r) == AddTexts(MapEntities(cd.entities, []))
    ensures Headers(r) == [CreateForEachSyntax(CompoundListParameterName)] + ForEachHeaders(MapEntities(cd.entities, []))
  {
    var body := MapEntities(cd.entities, []);
    ForEachCountMatches(cd.entities, []);
    EveryLeafAddedOnce(cd.entities, []);
    SingleLoopFolds(CompoundListParameterName, false, body);
    var ops := MappingOps(cd);
    var scope := RenderScope(CreateGuardedForEachSyntax(CompoundListParameterName, false), Render(body));
    assert ops[1..] == [];
    assert Render(ops) == scope + [];
    Render(ops)
  }

  /** The folds of a single loop are those of its body, plus the loop's own
      scope and header. */
  lemma SingleLoopFolds(collection: string, isNullable: bool, body: seq<MappingOp>)
    ensures var ops := [ForEach(collection, isNullable, body)];
      && ForEachCount(ops) == 1 + ForEachCount(body)
      && |AddKeys(ops)| == |AddKeys(body)|
      && AddTexts(ops) == AddTexts(body)
      && ForEachHeaders(ops) == [CreateGuardedForEachSyntax(collection, isNullable)] + ForEachHeaders(body)
  {
    var ops := [ForEach(collection, isNullable, body)];
    assert ops[0] == ForEach(collection, isNullable, body) && ops[1..] == [];
    calc {
      AddTexts(ops);
      HeadTexts(ops[0]) + AddTexts(ops[1..]);
      AddTexts(body) + [];
    }
    assert AddKeys(ops) == AddKeys(body) + [];
    assert ForEachHeaders(ops) == [CreateGuardedForEachSyntax(collection, isNullable)] + ForEachHeaders(body) + [];
  }

  /** Statement `k` of the mapping block adds the `k`-th leaf position of
      the tree, depth first, to the accumulator named after the leaf's
      class, with `addAll` exactly for a leaf reached through a collection,
      and its access is null-guarded exactly when the leaf or a compound on
      its chain is nullable. */
  lemma MappingBlockAddsEachLeaf(cd: CompoundData)
    requires WellNamed(cd.entities)
    ensures NamedLeaves(Leaves(cd.entities))
    ensures
      var texts := PlainTexts(CreateListMappingBlock(cd));
      var accesses := AddAccesses(MapEntities(cd.entities, []));
      var ls := Leaves(cd.entities);
      && |texts| == |ls| && |accesses| == |ls|
      && forall k :: 0 <= k < |ls| ==>
        && texts[k] == CreateListAdditionSyntax(LeafName(ls[k]), accesses[k], ls[k].typeInfo.isCollection)
        && (accesses[k].handleNullability <==> LeafGuards(cd.entities, false)[k])
  {
    var ops := MapEntities(cd.entities, []);
    var ls := Leaves(cd.entities);
    EveryLeafAddedOnce(cd.entities, []);
    GuardedIffNullableChain(cd.entities, []);
    assert !AnyNullable([]);
    AdditionsAgreeAll(ops);
    var texts := PlainTexts(CreateListMappingBlock(cd));
    assert texts == AddTexts(ops);
    forall k | 0 <= k < |ls|
      ensures texts[k] == CreateListAdditionSyntax(LeafName(ls[k]), AddAccesses(ops)[k], ls[k].typeInfo.isCollection)
      ensures AddAccesses(ops)[k].handleNullability <==> LeafGuards(cd.entities, false)[k]
    {
      assert AgreesAt(AddTexts(ops)[k], AddKeys(ops)[k], AddAccesses(ops)[k], AddGuards(ops)[k]);
      assert AddKeys(ops)[k] == (LeafName(ls[k]), ls[k].typeInfo.isCollection);
    }
  }

  /** One addition's text is the list-addition syntax of its accumulator,
      access path and collection flag, and its guard is the path's flag. */
  predicate AgreesAt(text: string, key: (string, bool), access: PropertyAccessSyntax, guard: bool) {
    && text == CreateListAdditionSyntax(key.0, access, key.1)
    && (guard <==> access.handleNullability)
  }

  /** Position by position, the four folds describe the same additions. */
  predicate AdditionsAgree(texts: seq<string>, keys: seq<(string, bool)>, accesses: seq<PropertyAccessSyntax>, guards: seq<bool>) {
    && |texts| == |keys| == |accesses| == |guards|
    && forall k :: 0 <= k < |texts| ==> AgreesAt(texts[k], keys[k], accesses[k], guards[k])
  }

  lemma AdditionsAgreeAppend(
    t1: seq<string>, k1: seq<(string, bool)>, a1: seq<PropertyAccessSyntax>, g1: seq<bool>,
    t2: seq<string>, k2: seq<(string, bool)>, a2: seq<PropertyAccessSyntax>, g2: seq<bool>)
    requires AdditionsAgree(t1, k1, a1, g1) && AdditionsAgree(t2, k2, a2, g2)
    ensures AdditionsAgree(t1 + t2, k1 + k2, a1 + a2, g1 + g2)
  {
    forall k | 0 <= k < |t1 + t2|
      ensures AgreesAt((t1 + t2)[k], (k1 + k2)[k], (a1 + a2)[k], (g1 + g2)[k])
    {
      if k < |t1| {
        assert (t1 + t2)[k] == t1[k] && (k1 + k2)[k] == k1[k];
        assert (a1 + a2)[k] == a1[k] && (g1 + g2)[k] == g1[k];
        assert AgreesAt(t1[k], k1[k], a1[k], g1[k]);
      } else {
        var j := k - |t1|;
        assert (t1 + t2)[k] == t2[j] && (k1 + k2)[k] == k2[j];
        assert (a1 + a2)[k] == a2[j] && (g1 + g2)[k] == g2[j];
        assert AgreesAt(t2[j], k2[j], a2[j], g2[j]);
      }
    }
  }

  /** The four depth-first folds of `ops` describe the same additions. */
  predicate FoldsAgree(ops: seq<MappingOp>) {
    AdditionsAgree(AddTexts(ops), AddKeys(ops), AddAccesses(ops), AddGuards(ops))
  }

  /** The four depth-first folds over the additions line up. */
  lemma {:induction false} AdditionsAgreeAll(ops: seq<MappingOp>)
    ensures FoldsAgree(ops)
  {
    if |ops| > 0 {
      AdditionsAgreeAll(ops[1..]);
      if ops[0].ForEach? {
        AdditionsAgreeAll(ops[0].body);
        AgreeStepForEach(ops);
      } else {
        AgreeStepAdd(ops);
      }
    }
  }

  /** A loop first: its body's additions, then the rest's. */
  lemma AgreeStepForEach(ops: seq<MappingOp>)
    requires |ops| > 0 && ops[0].ForEach?
    requires FoldsAgree(ops[0].body) && FoldsAgree(ops[1..])
    ensures FoldsAgree(ops)
  {
    var body := ops[0].body;
    var rest := ops[1..];
    assert AddTexts(ops) == AddTexts(body) + AddTexts(rest);
    assert AddKeys(ops) == AddKeys(body) + AddKeys(rest);
    assert AddAccesses(ops) == AddAccesses(body) + AddAccesses(rest);
    assert AddGuards(ops) == AddGuards(body) + AddGuards(rest);
    AdditionsAgreeAppend(
      AddTexts(body), AddKeys(body), AddAccesses(body), AddGuards(body),
      AddTexts(rest), AddKeys(rest), AddAccesses(rest), AddGuards(rest));
  }

  /** An addition first: its own text, key, path and guard, then the rest's. */
  lemma AgreeStepAdd(ops: seq<MappingOp>)
    requires |ops| > 0 && ops[0].Add?
    requires FoldsAgree(ops[1..])
    ensures FoldsAgree(ops)
  {
    var op := ops[0];
    var rest := ops[1..];
    var text := CreateListAdditionSyntax(op.listName, op.accessSyntax, op.isCollection);
    assert AddTexts(ops) == [text] + AddTexts(rest);
    assert AddKeys(ops) == [(op.listName, op.isCollection)] + AddKeys(rest);
    assert AddAccesses(ops) == [op.accessSyntax] + AddAccesses(rest);
    assert AddGuards(ops) == [op.accessSyntax.handleNullability] + AddGuards(rest);
    assert AgreesAt(text, (op.listName, op.isCollection), op.accessSyntax, op.accessSyntax.handleNullability);
    AdditionsAgreeAppend(
      [text], [(op.listName, op.isCollection)], [op.accessSyntax], [op.accessSyntax.handleNullability],
      AddTexts(rest), AddKeys(rest), AddAccesses(rest), AddGuards(rest));
  }

  /** Whether each addition is null-guarded, depth first. */
  function AddGuards(ops: seq<MappingOp>): seq<bool> {
    if |ops| == 0 then []
    else
      (match ops[0]
        case ForEach(_, _, body) => AddGuards(body)
        case Add(_, accessSyntax, _) => [accessSyntax.handleNullability])
      + AddGuards(ops[1..])
  }

  /** For every leaf position, depth first: whether the leaf itself or some
      compound on its chain -- the compounds between it and the nearest
      enclosing collection compound, or the root -- is nullable.
      `chainNullable` says this of the compounds above `es`. */
  function LeafGuards(es: seq<EntityData>, chainNullable: bool): (r: seq<bool>)
    ensures |r| == |Leaves(es)|
  {
    if |es| == 0 then []
    else
      LeavesUnfold(es);
      (match es[0]
        case Compound(t, p, _, _, children) =>
          if t.isCollection then LeafGuards(children, false)
          else LeafGuards(children, chainNullable || p.isNullable)
        case Entity(_, p, _, _) => [chainNullable || p.isNullable])
      + LeafGuards(es[1..], chainNullable)
  }

  lemma {:induction false} ForEachCountAppend(a: seq<MappingOp>, b: seq<MappingOp>)
    ensures ForEachCount(a + b) == ForEachCount(a) + ForEachCount(b)
    ensures AddKeys(a + b) == AddKeys(a) + AddKeys(b)
    ensures AddGuards(a + b) == AddGuards(a) + AddGuards(b)
  {
    if |a| == 0 {
      assert a + b == b;
    } else {
      assert (a + b)[0] == a[0];
      assert (a + b)[1..] == a[1..] + b;
      ForEachCountAppend(a[1..], b);
      ForEachCountStep(a, b);
      AddKeysStep(a, b);
      AddGuardsStep(a, b);
    }
  }

  /** The `ForEachCount` third of one unfolding step of `ForEachCountAppend`. */
  lemma ForEachCountStep(a: seq<MappingOp>, b: seq<MappingOp>)
    requires |a| > 0
    requires ForEachCount(a[1..] + b) == ForEachCount(a[1..]) + ForEachCount(b)
    ensures ForEachCount(a + b) == ForEachCount(a) + ForEachCount(b)
  {
    assert (a + b)[0] == a[0];
    assert (a + b)[1..] == a[1..] + b;
  }

  /** The `AddKeys` third of one unfolding step of `ForEachCountAppend`. */
  lemma AddKeysStep(a: seq<MappingOp>, b: seq<MappingOp>)
    requires |a| > 0
    requires AddKeys(a[1..] + b) == AddKeys(a[1..]) + AddKeys(b)
    ensures AddKeys(a + b) == AddKeys(a) + AddKeys(b)
  {
    assert (a + b)[0] == a[0];
    assert (a + b)[1..] == a[1..] + b;
  }

  /** The `AddGuards` third of one unfolding step of `ForEachCountAppend`. */
  lemma AddGuardsStep(a: seq<MappingOp>, b: seq<MappingOp>)
    requires |a| > 0
    requires AddGuards(a[1..] + b) == AddGuards(a[1..]) + AddGuards(b)
    ensures AddGuards(a + b) == AddGuards(a) + AddGuards(b)
  {
    assert (a + b)[0] == a[0];
    assert (a + b)[1..] == a[1..] + b;
  }

  /** Each compound reached through a collection opens exactly one `forEach`. */
  lemma {:induction false} ForEachCountMatches(es: seq<EntityData>, accessParents: seq<PropertyInfo>)
    requires WellNamed(es)
    ensures ForEachCount(MapEntities(es, accessParents)) == CollectionCompounds(es)
  {
    if |es| > 0 {
      WellNamedParts(es);
      var ops := MapEntities(es, accessParents);
      var tail := MapEntities(es[1..], accessParents);
      ForEachCountMatches(es[1..], accessParents);
      match es[0]
      case Compound(t, p, _, _, children) =>
        if t.isCollection {
          ForEachCountMatches(children, []);
          var accessSyntax := PropertyAccess(ItKeyword, accessParents, p);
          var head := [ForEach(accessSyntax.access, accessSyntax.handleNullability, MapEntities(children, []))];
          assert ops == head + tail;
          ForEachCountAppend(head, tail);
          assert ForEachCount(head) == 1 + ForEachCount(MapEntities(children, []));
        } else {
          ForEachCountMatches(children, accessParents + [p]);
          ForEachCountAppend(MapEntities(children, accessParents + [p]), tail);
        }
      case Entity(t, p, _, _) =>
        assert Leaves(es)[0] == es[0];
        var head := [Add(CamelName(t.className), PropertyAccess(ItKeyword, accessParents, p), t.isCollection)];
        assert ops == head + tail;
        ForEachCountAppend(head, tail);
    }
  }

  /** The accumulator name and the collection flag of every leaf, in order. */
  function LeafKeys(ls: seq<EntityData>): (r: seq<(string, bool)>)
    requires NamedLeaves(ls)
    ensures |r| == |ls|
  {
    seq(|ls|, i requires 0 <= i < |ls| => (LeafName(ls[i]), ls[i].typeInfo.isCollection))
  }

  lemma LeafKeysAppend(a: seq<EntityData>, b: seq<EntityData>)
    requires NamedLeaves(a) && NamedLeaves(b)
    ensures NamedLeaves(a + b)
    ensures LeafKeys(a + b) == LeafKeys(a) + LeafKeys(b)
  {
    NameSetAppend(a, b);
    assert forall i :: 0 <= i < |a| ==> (a + b)[i] == a[i];
    assert forall i :: |a| <= i < |a + b| ==> (a + b)[i] == b[i - |a|];
  }

  lemma LeafKeysCons(x: EntityData, rest: seq<EntityData>)
    requires NamedLeaves([x] + rest) && NamedLeaves(rest)
    ensures LeafKeys([x] + rest) == [(LeafName(([x] + rest)[0]), x.typeInfo.isCollection)] + LeafKeys(rest)
  {
    var d := [x] + rest;
    assert forall i :: 0 < i < |d| ==> d[i] == rest[i - 1];
  }

  /** Every leaf position of the tree, duplicates included, gets exactly one
      addition, in depth-first order, to the accumulator named after its
      class, using `addAll` exactly when the leaf is reached through a
      collection. */
  lemma {:induction false} EveryLeafAddedOnce(es: seq<EntityData>, accessParents: seq<PropertyInfo>)
    requires WellNamed(es)
    ensures NamedLeaves(Leaves(es))
    ensures AddKeys(MapEntities(es, accessParents)) == LeafKeys(Leaves(es))
  {
    if |es| == 0 {
      assert LeafKeys(Leaves(es)) == [];
    } else {
      if es[0].Compound? { CompoundLeafKeys(es); } else { EntityLeafKeys(es); }
      EveryLeafAddedOnce(es[1..], accessParents);
      match es[0]
      case Compound(t, p, _, _, children) =>
        if t.isCollection {
          EveryLeafAddedOnce(children, []);
          CollectionHeadKeys(es, accessParents);
        } else {
          EveryLeafAddedOnce(children, accessParents + [p]);
          ChainHeadKeys(es, accessParents);
        }
      case Entity(t, p, _, _) =>
        EntityHeadKeys(es, accessParents);
    }
  }

  /** The leaf keys of a forest whose first tree is a compound: those of the
      compound's children, then those of the rest. */
  lemma CompoundLeafKeys(es: seq<EntityData>)
    requires WellNamed(es) && |es| > 0 && es[0].Compound?
    ensures WellNamed(es[0].entities) && WellNamed(es[1..])
    ensures NamedLeaves(Leaves(es)) && NamedLeaves(Leaves(es[0].entities)) && NamedLeaves(Leaves(es[1..]))
    ensures LeafKeys(Leaves(es)) == LeafKeys(Leaves(es[0].entities)) + LeafKeys(Leaves(es[1..]))
  {
    LeavesUnfold(es);
    WellNamedParts(es);
    WellNamedLeaves(es);
    WellNamedLeaves(es[0].entities);
    WellNamedLeaves(es[1..]);
    LeafKeysAppend(Leaves(es[0].entities), Leaves(es[1..]));
  }

  /** ... whose first tree is an entity: its own key, then those of the rest. */
  lemma EntityLeafKeys(es: seq<EntityData>)
    requires WellNamed(es) && |es| > 0 && es[0].Entity?
    ensures WellNamed(es[1..]) && !IsBlank(es[0].typeInfo.className)
    ensures NamedLeaves(Leaves(es)) && NamedLeaves(Leaves(es[1..]))
    ensures LeafKeys(Leaves(es)) == [(LeafName(es[0]), es[0].typeInfo.isCollection)] + LeafKeys(Leaves(es[1..]))
  {
    LeavesUnfold(es);
    WellNamedParts(es);
    WellNamedLeaves(es);
    WellNamedLeaves(es[1..]);
    assert Leaves(es)[0] == es[0];
    LeafKeysCons(es[0], Leaves(es[1..]));
  }

  /** The additions of a walk whose first child is a collection compound:
      those of its own walk, then those of the rest. */
  lemma CollectionHeadKeys(es: seq<EntityData>, accessParents: seq<PropertyInfo>)
    requires WellNamed(es) && |es| > 0 && es[0].Compound? && es[0].typeInfo.isCollection
    ensures WellNamed(es[0].entities) && WellNamed(es[1..])
    ensures AddKeys(MapEntities(es, accessParents)) == AddKeys(MapEntities(es[0].entities, [])) + AddKeys(MapEntities(es[1..], accessParents))
    ensures AddGuards(MapEntities(es, accessParents)) == AddGuards(MapEntities(es[0].entities, [])) + AddGuards(MapEntities(es[1..], accessParents))
  {
    WellNamedParts(es);
    var accessSyntax := PropertyAccess(ItKeyword, accessParents, es[0].propertyInfo);
    var head := [ForEach(accessSyntax.access, accessSyntax.handleNullability, MapEntities(es[0].entities, []))];
    ForEachCountAppend(head, MapEntities(es[1..], accessParents));
    assert AddKeys(head) == AddKeys(MapEntities(es[0].entities, [])) + AddKeys([]);
    assert AddGuards(head) == AddGuards(MapEntities(es[0].entities, [])) + AddGuards([]);
  }

  /** ... a compound joining the chain: its walk with the longer chain, then the rest. */
  lemma ChainHeadKeys(es: seq<EntityData>, accessParents: seq<PropertyInfo>)
    requires WellNamed(es) && |es| > 0 && es[0].Compound? && !es[0].typeInfo.isCollection
    ensures WellNamed(es[0].entities) && WellNamed(es[1..])
    ensures AddKeys(MapEntities(es, accessParents))
      == AddKeys(MapEntities(es[0].entities, accessParents + [es[0].propertyInfo])) + AddKeys(MapEntities(es[1..], accessParents))
    ensures AddGuards(MapEntities(es, accessParents))
      == AddGuards(MapEntities(es[0].entities, accessParents + [es[0].propertyInfo])) + AddGuards(MapEntities(es[1..], accessParents))
  {
    WellNamedParts(es);
    ForEachCountAppend(MapEntities(es[0].entities, accessParents + [es[0].propertyInfo]), MapEntities(es[1..], accessParents));
  }

  /** ... an entity: one addition to the accumulator named after it, then the rest. */
  lemma EntityHeadKeys(es: seq<EntityData>, accessParents: seq<PropertyInfo>)
    requires WellNamed(es) && |es| > 0 && es[0].Entity?
    ensures !IsBlank(es[0].typeInfo.className) && WellNamed(es[1..])
    ensures AddKeys(MapEntities(es, accessParents))
      == [(LeafName(es[0]), es[0].typeInfo.isCollection)] + AddKeys(MapEntities(es[1..], accessParents))
    ensures AddGuards(MapEntities(es, accessParents))
      == [AnyNullable(accessParents) || es[0].propertyInfo.isNullable] + AddGuards(MapEntities(es[1..], accessParents))
  {
    WellNamedParts(es);
    assert Leaves(es)[0] == es[0];
    var head := [Add(LeafName(es[0]), PropertyAccess(ItKeyword, accessParents, es[0].propertyInfo), es[0].typeInfo.isCollection)];
    ForEachCountAppend(head, MapEntities(es[1..], accessParents));
  }

  /** A nullable property joins the chain exactly when it is nullable. */
  lemma AnyNullableSnoc(ps: seq<PropertyInfo>, p: PropertyInfo)
    ensures AnyNullable(ps + [p]) <==> AnyNullable(ps) || p.isNullable
  {
    if AnyNullable(ps) {
      var j :| 0 <= j < |ps| && ps[j].isNullable;
      assert (ps + [p])[j] == ps[j];
    }
    if p.isNullable {
      assert (ps + [p])[|ps|] == p;
    }
    if AnyNullable(ps + [p]) && !p.isNullable {
      var j :| 0 <= j < |ps + [p]| && (ps + [p])[j].isNullable;
      assert j < |ps| && (ps + [p])[j] == ps[j];
    }
  }

  /** The `k`-th addition of the walk, depth first, is null-guarded exactly
      when the `k`-th leaf or a compound on its chain is nullable: a nullable
      ancestor guards everything below it up to the next collection, where
      the loop variable starts a fresh chain. */
  lemma {:induction false} GuardedIffNullableChain(es: seq<EntityData>, accessParents: seq<PropertyInfo>)
    requires WellNamed(es)
    ensures AddGuards(MapEntities(es, accessParents)) == LeafGuards(es, AnyNullable(accessParents))
  {
    if |es| > 0 {
      WellNamedParts(es);
      GuardedIffNullableChain(es[1..], accessParents);
      match es[0]
      case Compound(t, p, _, _, children) =>
        if t.isCollection {
          GuardedIffNullableChain(children, []);
          assert !AnyNullable([]);
          CollectionHeadKeys(es, accessParents);
        } else {
          GuardedIffNullableChain(children, accessParents + [p]);
          AnyNullableSnoc(accessParents, p);
          ChainHeadKeys(es, accessParents);
        }
      case Entity(t, p, _, _) =>
        EntityHeadKeys(es, accessParents);
    }
  }

  /** An operation that guards its access against null. */
  predicate Guarded(op: MappingOp) {
    match op
    case ForEach(_, isNullable, _) => isNullable
    case Add(_, accessSyntax, _) => accessSyntax.handleNullability
  }

  /** No property anywhere in the tree is nullable. */
  predicate NothingNullable(es: seq<EntityData>) {
    forall i :: 0 <= i < |es| ==>
      !es[i].propertyInfo.isNullable && (es[i].Compound? ==> NothingNullable(es[i].entities))
  }

  /** No operation at any depth is guarded. */
  predicate NoGuards(ops: seq<MappingOp>) {
    forall i :: 0 <= i < |ops| ==> !Guarded(ops[i]) && (ops[i].ForEach? ==> NoGuards(ops[i].body))
  }

  /** Without a nullable property on the chain or in the tree, nothing is
      guarded: a guard appears only because of some nullable ancestor or leaf. */
  lemma {:induction false} NonNullableTreeIsUnguarded(es: seq<EntityData>, accessParents: seq<PropertyInfo>)
    requires WellNamed(es) && NothingNullable(es) && !AnyNullable(accessParents)
    ensures NoGuards(MapEntities(es, accessParents))
  {
    if |es| > 0 {
      WellNamedParts(es);
      var ops := MapEntities(es, accessParents);
      var tail := MapEntities(es[1..], accessParents);
      assert NothingNullable(es[1..]) by {
        forall i | 0 <= i < |es[1..]| ensures es[1..][i] == es[i + 1] { }
      }
      NonNullableTreeIsUnguarded(es[1..], accessParents);
      var head: seq<MappingOp>;
      match es[0]
      case Compound(t, p, _, _, children) =>
        NonNullableTreeIsUnguarded(children, []);
        assert !AnyNullable([]);
        if t.isCollection {
          var accessSyntax := PropertyAccess(ItKeyword, accessParents, p);
          head := [ForEach(accessSyntax.access, accessSyntax.handleNullability, MapEntities(children, []))];
        } else {
          assert !AnyNullable(accessParents + [p]) by {
            forall j | 0 <= j < |accessParents + [p]| ensures !(accessParents + [p])[j].isNullable {
              if j < |accessParents| { assert (accessParents + [p])[j] == accessParents[j]; }
            }
          }
          NonNullableTreeIsUnguarded(children, accessParents + [p]);
          head := MapEntities(children, accessParents + [p]);
        }
      case Entity(t, p, _, _) =>
        assert Leaves(es)[0] == es[0];
        head := [Add(CamelName(t.className), PropertyAccess(ItKeyword, accessParents, p), t.isCollection)];
      assert ops == head + tail;
      NoGuardsAppend(head, tail);
    }
  }

  lemma NoGuardsAppend(a: seq<MappingOp>, b: seq<MappingOp>)
    requires NoGuards(a) && NoGuards(b)
    ensures NoGuards(a + b)
  {
    forall i | 0 <= i < |a + b| ensures !Guarded((a + b)[i]) && ((a + b)[i].ForEach? ==> NoGuards((a + b)[i].body)) {
      if i < |a| { assert (a + b)[i] == a[i]; } else { assert (a + b)[i] == b[i - |a|]; }
    }
  }

  /** A compound reached through a collection becomes exactly one `forEach`
      whose header is its (guarded) access path, and whose body does not
      depend on the chain that led to it: the chain restarts at the loop. */
  lemma CollectionCompoundResetsChain(c: EntityData, before1: seq<PropertyInfo>, before2: seq<PropertyInfo>)
    requires c.Compound? && c.typeInfo.isCollection && WellNamed([c])
    ensures var ops1 := MapEntities([c], before1); var ops2 := MapEntities([c], before2);
      |ops1| == 1 && |ops2| == 1 && ops1[0].ForEach? && ops2[0].ForEach?
      && ops1[0].body == ops2[0].body
      && ops1[0].collection == ExpectedPath(ItKeyword, before1, c.propertyInfo.name)
      && (ops1[0].isNullable <==> AnyNullable(before1) || c.propertyInfo.isNullable)
  {
    WellNamedParts([c]);
    assert [c][1..] == [];
  }
}

=== FILE: poet.dfy ===
/**
  The string builders of generator/utils/PoetUtils.kt and utils/PoetUtils.kt.
  Where the two files hold the same builder it is defined once here; the two
  `createForEachSyntax` variants and the generator's two-argument call are
  kept apart.
 */
module Poet {
  import opened Syntax
  import opened Data

  /** An access expression and whether it has to be guarded against null
      (`properAccess`/`chain` and `handleNullability` in the source). */
  datatype PropertyAccessSyntax = PropertyAccessSyntax(access: string, handleNullability: bool)

  /** Concatenation of a list of strings. */
  function Concat(ss: seq<string>): string {
    if |ss| == 0 then "" else ss[0] + Concat(ss[1..])
  }

  /** Some property among the first `n` is nullable. */
  predicate AnyNullable(ps: seq<PropertyInfo>) {
    exists j :: 0 <= j < |ps| && ps[j].isNullable
  }

  /** Segment `i` of an access path: the parent's name, a `?` once the start
      flag or any parent up to and including this one is nullable, then `.`. */
  function Segment(ps: seq<PropertyInfo>, i: nat, nullableBefore: bool): string
    requires i < |ps|
  {
    ps[i].name + (if nullableBefore || AnyNullable(ps[..i + 1]) then NullableSign else "") + InstanceAccessKey
  }

  /** The access path of a property below `parents`, segment by segment. */
  function ExpectedPath(parent: string, ps: seq<PropertyInfo>, propertyName: string): string {
    parent + InstanceAccessKey
    + Concat(seq(|ps|, i requires 0 <= i < |ps| => Segment(ps, i, false)))
    + propertyName
  }

  lemma AnyNullableShift(ps: seq<PropertyInfo>, i: nat)
    requires 0 < |ps| && i + 1 < |ps|
    ensures AnyNullable(ps[..i + 2]) <==> ps[0].isNullable || AnyNullable(ps[1..][..i + 1])
  {
    if AnyNullable(ps[..i + 2]) && !ps[0].isNullable {
      var j :| 0 <= j < i + 2 && ps[..i + 2][j].isNullable;
      assert ps[1..][..i + 1][j - 1] == ps[j];
    }
    if AnyNullable(ps[1..][..i + 1]) {
      var j :| 0 <= j < i + 1 && ps[1..][..i + 1][j].isNullable;
      assert ps[..i + 2][j + 1] == ps[j + 1];
    }
    if ps[0].isNullable {
      assert ps[..i + 2][0] == ps[0];
    }
  }

  /** The loop over the access parents: appends every segment, carrying the
      nullable flag from one parent to the next. Returns the appended text and
      the final flag. */
  function AccessSegments(ps: seq<PropertyInfo>, nullableBefore: bool): (r: (string, bool))
    ensures r.1 == (nullableBefore || AnyNullable(ps))
    ensures r.0 == Concat(seq(|ps|, i requires 0 <= i < |ps| => Segment(ps, i, nullableBefore)))
  {
    if |ps| == 0 then ("", nullableBefore)
    else
      var flag := nullableBefore || ps[0].isNullable;
      var segment := ps[0].name + (if flag then NullableSign else "") + InstanceAccessKey;
      var rest := AccessSegments(ps[1..], flag);
      var all := seq(|ps|, i requires 0 <= i < |ps| => Segment(ps, i, nullableBefore));
      var tail := seq(|ps| - 1, i requires 0 <= i < |ps| - 1 => Segment(ps[1..], i, flag));
      assert all[0] == segment by {
        assert ps[..1][0] == ps[0];
        assert AnyNullable(ps[..1]) <==> ps[0].isNullable;
      }
      assert all[1..] == tail by {
        forall i | 0 <= i < |ps| - 1
          ensures all[1..][i] == tail[i]
        {
          AnyNullableShift(ps, i);
        }
      }
      assert rest.1 == (nullableBefore || AnyNullable(ps)) by {
        if AnyNullable(ps[1..]) {
          var j :| 0 <= j < |ps| - 1 && ps[1..][j].isNullable;
          assert ps[j + 1].isNullable;
        }
        if AnyNullable(ps) && !ps[0].isNullable {
          var j :| 0 <= j < |ps| && ps[j].isNullable;
          assert ps[1..][j - 1].isNullable;
        }
      }
      (segment + rest.0, rest.1)
  }

  /** `createPropertyAccessSyntax` of generator/utils/PoetUtils.kt: the flag
      covers the parents only, not the final property. */
  function CreatePropertyAccessSyntax(parent: string, ps: seq<PropertyInfo>, propertyName: string): (r: PropertyAccessSyntax)
    ensures r.access == ExpectedPath(parent, ps, propertyName)
    ensures r.handleNullability <==> AnyNullable(ps)
  {
    var segments := AccessSegments(ps, false);
    PropertyAccessSyntax(parent + InstanceAccessKey + segments.0 + propertyName, segments.1)
  }

  /** The access path starts with `parent.` and ends with the property name. */
  lemma ExpectedPathEnds(parent: string, ps: seq<PropertyInfo>, propertyName: string)
    ensures var p := ExpectedPath(parent, ps, propertyName);
      |p| >= |parent| + 1 + |propertyName|
      && p[..|parent| + 1] == parent + InstanceAccessKey
      && p[|p| - |propertyName|..] == propertyName
  {
    var middle := Concat(seq(|ps|, i requires 0 <= i < |ps| => Segment(ps, i, false)));
    var p := ExpectedPath(parent, ps, propertyName);
    assert p == (parent + InstanceAccessKey) + middle + propertyName;
  }

  /** `add` for a single value, `addAll` for a collection. */
  function AdditionMethod(isCollection: bool): (r: string)
    ensures r == ListMultiAddMethod <==> isCollection
  {
    if isCollection then ListMultiAddMethod else ListSingleAddMethod
  }

  /** `createMethodCallSyntax`: the method name, then the parameters in one
      pair of parentheses. */
  function CreateMethodCallSyntax(methodName: string, parameters: string): (r: string)
    ensures |r| == |methodName| + |parameters| + 2
    ensures r[..|methodName|] == methodName
    ensures r[|methodName|] == '(' && r[|r| - 1] == ')'
    ensures r[|methodName| + 1..|r| - 1] == parameters
  {
    methodName + ParameterOpenParenthesis + parameters + ParameterCloseParenthesis
  }

  /** `createListAdditionSyntax` (both copies). A guarded addition hands the
      value to `let` with a method reference; an unguarded one calls the list
      method directly. */
  function CreateListAdditionSyntax(listName: string, accessSyntax: PropertyAccessSyntax, isCollection: bool): (r: string)
    ensures var m := AdditionMethod(isCollection);
      accessSyntax.handleNullability ==>
        r == accessSyntax.access + NullableSign + InstanceAccessKey + LetMethod + "(" + listName + ClassAccessKey + m + ")"
    ensures var m := AdditionMethod(isCollection);
      !accessSyntax.handleNullability ==>
        r == listName + InstanceAccessKey + m + "(" + accessSyntax.access + ")"
  {
    var additionMethod := AdditionMethod(isCollection);
    if accessSyntax.handleNullability then
      var letMethodParameter := listName + ClassAccessKey + additionMethod;
      accessSyntax.access + NullableSign + InstanceAccessKey + CreateMethodCallSyntax(LetMethod, letMethodParameter)
    else
      listName + InstanceAccessKey + CreateMethodCallSyntax(additionMethod, accessSyntax.access)
  }

  /** `createEntityParameterName`: every parent's property name followed by
      the separator, then the node's own property name. */
  function CreateEntityParameterName(propertyName: string, parents: seq<PropertyInfo>): (r: string)
    ensures |r| >= |propertyName|
    ensures r[|r| - |propertyName|..] == propertyName
    ensures |parents| > 0 ==> |r| >= |parents[0].name| && r[..|parents[0].name|] == parents[0].name
    ensures |parents| == 0 ==> r == propertyName
  {
    if |parents| == 0 then propertyName
    else
      var rest := CreateEntityParameterName(propertyName, parents[1..]);
      var r := parents[0].name + ParameterNameSeparator + rest;
      assert r[|r| - |propertyName|..] == rest[|rest| - |propertyName|..];
      r
  }

  /** Adding one more parent at the end of the chain inserts that parent's
      name and a separator right before the node's own name. */
  lemma {:induction false} EntityParameterNameSnoc(propertyName: string, parents: seq<PropertyInfo>, last: PropertyInfo)
    ensures CreateEntityParameterName(propertyName, parents + [last])
      == CreateEntityParameterName(last.name, parents) + ParameterNameSeparator + propertyName
  {
    if |parents| > 0 {
      var p0 := parents[0];
      assert (parents + [last])[0] == p0;
      assert (parents + [last])[1..] == parents[1..] + [last];
      EntityParameterNameSnoc(propertyName, parents[1..], last);
      var inner := CreateEntityParameterName(last.name, parents[1..]);
      calc {
        CreateEntityParameterName(propertyName, parents + [last]);
        p0.name + ParameterNameSeparator + CreateEntityParameterName(propertyName, parents[1..] + [last]);
        p0.name + ParameterNameSeparator + (inner + ParameterNameSeparator + propertyName);
        (p0.name + ParameterNameSeparator + inner) + ParameterNameSeparator + propertyName;
        CreateEntityParameterName(last.name, parents) + ParameterNameSeparator + propertyName;
      }
    } else {
      assert parents + [last] == [last];
    }
  }

  /** Each parent's name followed by the separator, in chain order; built
      from the end of the chain, the opposite way from the builder. */
  function ParentPrefix(parents: seq<PropertyInfo>): string {
    if |parents| == 0 then ""
    else ParentPrefix(parents[..|parents| - 1]) + parents[|parents| - 1].name + ParameterNameSeparator
  }

  /** The parameter name is every parent's name and separator, in order,
      then the node's own name. */
  lemma {:induction false} EntityParameterNameClosedForm(propertyName: string, parents: seq<PropertyInfo>)
    decreases |parents|
    ensures CreateEntityParameterName(propertyName, parents) == ParentPrefix(parents) + propertyName
  {
    if |parents| > 0 {
      var init := parents[..|parents| - 1];
      var last := parents[|parents| - 1];
      assert parents == init + [last];
      EntityParameterNameSnoc(propertyName, init, last);
      EntityParameterNameClosedForm(last.name, init);
      var prefix := ParentPrefix(init);
      assert ParentPrefix(parents) == prefix + last.name + ParameterNameSeparator;
      calc {
        CreateEntityParameterName(propertyName, parents);
        CreateEntityParameterName(last.name, init) + ParameterNameSeparator + propertyName;
        (prefix + last.name) + ParameterNameSeparator + propertyName;
        (prefix + last.name + ParameterNameSeparator) + propertyName;
      }
    }
  }

  /** `createForEachSyntax` of generator/utils/PoetUtils.kt. */
  function CreateForEachSyntax(collectionName: string): (r: string)
    ensures |r| == |collectionName| + 8
    ensures r[..|collectionName|] == collectionName
    ensures r[|collectionName|..] == ".forEach"
  {
    collectionName + InstanceAccessKey + ForEachMethod
  }

  /** The two-argument `createForEachSyntax(collection, isNullable)` that
      CompoundGenerator.kt calls: a `?` after the collection iff it is nullable. */
  function CreateGuardedForEachSyntax(collectionName: string, isNullable: bool): (r: string)
    ensures !isNullable ==> r == CreateForEachSyntax(collectionName)
    ensures isNullable ==> r == CreateForEachSyntax(collectionName + NullableSign)
  {
    collectionName + (if isNullable then NullableSign else "") + InstanceAccessKey + ForEachMethod
  }

  /** `createForEachSyntax` of utils/PoetUtils.kt: a lambda header naming the element. */
  function CreateNullableForEachSyntax(collectionName: string, elementName: string, isNullable: bool): (r: string)
    ensures |r| > |collectionName| && r[..|collectionName|] == collectionName
    ensures r[|collectionName|] == '?' <==> isNullable
    ensures var tail := NoWrapKeywordSeparator + elementName + NoWrapKeywordSeparator + LambdaArrow;
      var start := |collectionName| + |if isNullable then NullableSign else ""|;
      |r| >= start + |tail| + 1
      && r[start..|r| - |tail| - 1] == InstanceAccessKey + ForEachMethod + NoWrapKeywordSeparator
    ensures var tail := NoWrapKeywordSeparator + elementName + NoWrapKeywordSeparator + LambdaArrow;
      |r| >= |tail| + 1 && r[|r| - |tail|..] == tail
      && r[|r| - |tail| - 1] == '{'
  {
    var header := collectionName + (if isNullable then NullableSign else "");
    var r := header + InstanceAccessKey + ForEachMethod + NoWrapKeywordSeparator + CurlyBraceOpenParenthesis
      + NoWrapKeywordSeparator + elementName + NoWrapKeywordSeparator + LambdaArrow;
    var tail := NoWrapKeywordSeparator + elementName + NoWrapKeywordSeparator + LambdaArrow;
    assert r == header + (InstanceAccessKey + ForEachMethod + NoWrapKeywordSeparator) + CurlyBraceOpenParenthesis + tail;
    assert r == (header + InstanceAccessKey + ForEachMethod + NoWrapKeywordSeparator + CurlyBraceOpenParenthesis) + tail;
    r
  }

  /** The flag only decides whether a `?` follows the collection name:
      nothing else in the header depends on it. */
  lemma NullableForEachIsGuardedName(collectionName: string, elementName: string)
    ensures CreateNullableForEachSyntax(collectionName, elementName, true)
      == CreateNullableForEachSyntax(collectionName + NullableSign, elementName, false)
  {
  }

  /** `createAssignSyntax`: `name = <type placeholder>`. */
  function CreateAssignSyntax(variableName: string): (r: string)
    ensures |r| >= |variableName| && r[..|variableName|] == variableName
    ensures r[|variableName|..] == InitializationSign + TypeConcatIndicator
  {
    variableName + InitializationSign + TypeConcatIndicator
  }

  /** What a declaration writes before the variable: `val `. */
  const DeclarationPrefix := ImmutableKeyword + KeywordSeparator

  /** What a declaration writes after the variable: ` = <type placeholder>()`. */
  const DeclarationSuffix := InitializationSign + TypeConcatIndicator + ParameterOpenParenthesis + ParameterCloseParenthesis

  /** `createInitializationSyntax`: `val name = <type placeholder>()`; the
      declared name reads back from between the prefix and the suffix. */
  function CreateInitializationSyntax(variableName: string): (r: string)
    ensures |r| == |DeclarationPrefix| + |variableName| + |DeclarationSuffix|
    ensures r[..|DeclarationPrefix|] == DeclarationPrefix
    ensures r[|r| - |DeclarationSuffix|..] == DeclarationSuffix
    ensures DeclaredVariable(r) == variableName
  {
    var r := ImmutableKeyword + KeywordSeparator + CreateAssignSyntax(variableName)
      + ParameterOpenParenthesis + ParameterCloseParenthesis;
    assert r == DeclarationPrefix + variableName + DeclarationSuffix;
    r
  }

  /** The variable a declaration statement introduces: strips `val ` and
      ` = <type placeholder>()`. */
  function DeclaredVariable(statement: string): string
    requires |statement| >= |DeclarationPrefix| + |DeclarationSuffix|
  {
    statement[|DeclarationPrefix|..|statement| - |DeclarationSuffix|]
  }
}

=== FILE: samples.dfy ===
/**
  The sample compounds of the repository as concrete trees:
  `SecondCompound` reaches `ThirdEntity` and `SecondEntity` along several
  paths and through a collection compound, and `ForthCompound` has two
  embedded entities and no relation.
 */
module Samples {
  import opened Wrappers
  import opened Data
  import opened Discovery
  import opened Mapping
  import Text
  import Declarations
  import Visitor
  import Legacy

  const Package := "com.attafitamim.room.compound.sample.room.entities"

  const SecondThird := Some(EntityJunction(Package, "SecondThirdJunction", "name", "name", "secondId", "thirdId"))

  const SecondEntity := Entity(TypeInfo(Package, "SecondEntity", false), PropertyInfo("secondaryEntity", true), true, None)
  const ThirdEntity := Entity(TypeInfo(Package, "ThirdEntity", false), PropertyInfo("thirdEntity", false), true, None)
  const SecondEntities := Entity(TypeInfo(Package, "SecondEntity", true), PropertyInfo("secondEntity", true), false, None)
  const ForthEntities := Entity(TypeInfo(Package, "ForthEntity", true), PropertyInfo("forthEntity", true), false, None)
  const ThirdEntities := Entity(TypeInfo(Package, "ThirdEntity", true), PropertyInfo("thirdEntity", true), false, SecondThird)
  const ForthEntity := Entity(TypeInfo(Package, "ForthEntity", false), PropertyInfo("forthEntity", true), false, None)

  /** The three leaves every `ThirdCompound` node holds. */
  const ThirdChildren := [ThirdEntity, SecondEntities, ForthEntities]

  /** `ThirdCompound`, reached either through `List<ThirdCompound>?` or directly. */
  function ThirdCompoundNode(isCollection: bool, propertyName: string, junction: Option<EntityJunction>): EntityData {
    Compound(TypeInfo(Package, "ThirdCompound", isCollection), PropertyInfo(propertyName, true), false, junction, ThirdChildren)
  }

  /** `SecondCompound` as the visitor reads it. */
  const SecondCompound := CompoundData(Package, "SecondCompound", [
    SecondEntity,
    ThirdCompoundNode(true, "thirdCompounds", SecondThird),
    ThirdEntities,
    ThirdCompoundNode(false, "thirdCompound", None),
    ForthEntity])

  lemma LeavesCons(e: EntityData, rest: seq<EntityData>)
    ensures Leaves([e] + rest) == (if e.Entity? then [e] else Leaves(e.entities)) + Leaves(rest)
  {
    assert ([e] + rest)[0] == e;
    assert ([e] + rest)[1..] == rest;
  }

  /** The nine leaf positions of `SecondCompound`, depth first. */
  const SecondCompoundLeaves := [
    SecondEntity, ThirdEntity, SecondEntities, ForthEntities, ThirdEntities,
    ThirdEntity, SecondEntities, ForthEntities, ForthEntity]

  lemma ThirdChildrenAreLeaves()
    ensures Leaves(ThirdChildren) == ThirdChildren
  {
    LeavesCons(ForthEntities, []);
    LeavesCons(SecondEntities, [ForthEntities]);
    LeavesCons(ThirdEntity, [SecondEntities, ForthEntities]);
    assert [ThirdEntity] + [SecondEntities, ForthEntities] == ThirdChildren;
  }

  lemma SecondCompoundLeavesInOrder()
    ensures Leaves(SecondCompound.entities) == SecondCompoundLeaves
  {
    ThirdChildrenAreLeaves();
    var t4 := [ForthEntity];
    var t3 := [ThirdCompoundNode(false, "thirdCompound", None)] + t4;
    var t2 := [ThirdEntities] + t3;
    var t1 := [ThirdCompoundNode(true, "thirdCompounds", SecondThird)] + t2;
    LeavesCons(ForthEntity, []);
    assert [ForthEntity] + [] == t4;
    LeavesCons(ThirdCompoundNode(false, "thirdCompound", None), t4);
    LeavesCons(ThirdEntities, t3);
    LeavesCons(ThirdCompoundNode(true, "thirdCompounds", SecondThird), t2);
    LeavesCons(SecondEntity, t1);
    assert SecondCompound.entities == [SecondEntity] + t1;
  }

  lemma SampleNames()
    ensures !Text.IsBlank("SecondEntity") && Text.CamelName("SecondEntity") == "secondEntity"
    ensures !Text.IsBlank("ThirdEntity") && Text.CamelName("ThirdEntity") == "thirdEntity"
    ensures !Text.IsBlank("ForthEntity") && Text.CamelName("ForthEntity") == "forthEntity"
  {
    assert !Text.IsWhitespace("SecondEntity"[0]) && !Text.IsWhitespace("ThirdEntity"[0]) && !Text.IsWhitespace("ForthEntity"[0]);
    assert "secondEntity" == ['s'] + "SecondEntity"[1..];
    assert "thirdEntity" == ['t'] + "ThirdEntity"[1..];
    assert "forthEntity" == ['f'] + "ForthEntity"[1..];
  }

  lemma SampleLeavesNamed()
    ensures NamedLeaves(SecondCompoundLeaves)
  {
    var ls := SecondCompoundLeaves;
    assert forall i :: 0 <= i < |ls| ==> ls[i].Entity? && |ls[i].typeInfo.className| > 0 && ls[i].typeInfo.className[0] in "STF";
  }

  /** The accumulator name of every sample leaf. */
  lemma SampleLeafNames()
    ensures !Text.IsBlank(SecondEntity.typeInfo.className) && LeafName(SecondEntity) == "secondEntity"
    ensures !Text.IsBlank(SecondEntities.typeInfo.className) && LeafName(SecondEntities) == "secondEntity"
    ensures !Text.IsBlank(ThirdEntity.typeInfo.className) && LeafName(ThirdEntity) == "thirdEntity"
    ensures !Text.IsBlank(ThirdEntities.typeInfo.className) && LeafName(ThirdEntities) == "thirdEntity"
    ensures !Text.IsBlank(ForthEntity.typeInfo.className) && LeafName(ForthEntity) == "forthEntity"
    ensures !Text.IsBlank(ForthEntities.typeInfo.className) && LeafName(ForthEntities) == "forthEntity"
  {
    SampleNames();
  }

  lemma SecondCompoundWellNamed()
    ensures WellNamed(SecondCompound.entities)
  {
    SecondCompoundLeavesInOrder();
    SampleLeavesNamed();
  }

  /** One step of the reference deduplication at position `k`: a name
      already seen is skipped. */
  lemma DedupSkip(ls: seq<EntityData>, k: nat, seen: set<string>)
    requires NamedLeaves(ls) && k < |ls| && LeafName(ls[k]) in seen
    ensures NamedLeaves(ls[k..]) && NamedLeaves(ls[k + 1..])
    ensures Dedup(ls[k..], seen) == Dedup(ls[k + 1..], seen)
  {
    assert ls[k..][0] == ls[k];
    assert ls[k..][1..] == ls[k + 1..];
  }

  /** ... and a new name is kept and remembered. */
  lemma DedupKeep(ls: seq<EntityData>, k: nat, seen: set<string>)
    requires NamedLeaves(ls) && k < |ls| && LeafName(ls[k]) !in seen
    ensures NamedLeaves(ls[k..]) && NamedLeaves(ls[k + 1..])
    ensures Dedup(ls[k..], seen) == [ls[k]] + Dedup(ls[k + 1..], seen + {LeafName(ls[k])})
  {
    assert ls[k..][0] == ls[k];
    assert ls[k..][1..] == ls[k + 1..];
  }

  /** Leaves whose names were all seen before contribute nothing. */
  lemma {:induction false} DedupAllSeen(ls: seq<EntityData>, seen: set<string>)
    requires NamedLeaves(ls)
    requires forall k :: 0 <= k < |ls| ==> LeafName(ls[k]) in seen
    ensures Dedup(ls, seen) == []
  {
    if |ls| > 0 {
      assert forall k :: 0 <= k < |ls| - 1 ==> ls[1..][k] == ls[k + 1];
      DedupAllSeen(ls[1..], seen);
    }
  }

  /** The deduplication pattern of `SecondCompound`, over abstract names:
      positions 0, 1 and 3 introduce the three names, and every later
      position repeats one of them. */
  lemma DedupPattern(ls: seq<EntityData>, a: string, b: string, c: string)
    requires NamedLeaves(ls) && |ls| == 9
    requires a != b && a != c && b != c
    requires LeafName(ls[0]) == a && LeafName(ls[1]) == b && LeafName(ls[2]) == a && LeafName(ls[3]) == c
    requires LeafName(ls[4]) == b && LeafName(ls[5]) == b && LeafName(ls[6]) == a
    requires LeafName(ls[7]) == c && LeafName(ls[8]) == c
    ensures Dedup(ls, {}) == [ls[0], ls[1], ls[3]]
  {
    DedupPatternTail(ls, a, b, c);
    assert {a} + {b} == {a, b};
    DedupKeep(ls, 1, {a});
    assert {} + {a} == {a};
    DedupKeep(ls, 0, {});
    assert ls[0..] == ls;
  }

  lemma DedupPatternTail(ls: seq<EntityData>, a: string, b: string, c: string)
    requires NamedLeaves(ls) && |ls| == 9
    requires a != b && a != c && b != c
    requires LeafName(ls[0]) == a && LeafName(ls[1]) == b && LeafName(ls[2]) == a && LeafName(ls[3]) == c
    requires LeafName(ls[4]) == b && LeafName(ls[5]) == b && LeafName(ls[6]) == a
    requires LeafName(ls[7]) == c && LeafName(ls[8]) == c
    ensures NamedLeaves(ls[2..])
    ensures Dedup(ls[2..], {a, b}) == [ls[3]]
  {
    PatternRepeats(ls, a, b, c);
    assert {a, b} + {c} == {a, b, c};
    DedupKeep(ls, 3, {a, b});
    DedupSkip(ls, 2, {a, b});
  }

  /** From position 4 on, every name has been seen. */
  lemma PatternRepeats(ls: seq<EntityData>, a: string, b: string, c: string)
    requires NamedLeaves(ls) && |ls| == 9
    requires LeafName(ls[4]) == b && LeafName(ls[5]) == b && LeafName(ls[6]) == a
    requires LeafName(ls[7]) == c && LeafName(ls[8]) == c
    ensures NamedLeaves(ls[4..])
    ensures Dedup(ls[4..], {a, b, c}) == []
  {
    var t := ls[4..];
    assert forall k :: 0 <= k < |t| ==> t[k] == ls[k + 4];
    assert forall k :: 0 <= k < |t| ==> LeafName(t[k]) in {a, b, c};
    DedupAllSeen(t, {a, b, c});
  }

  /** Class names with different upper-case initials have different
      accumulator names. */
  lemma InitialsDiffer(e: EntityData, f: EntityData)
    requires !Text.IsBlank(e.typeInfo.className) && !Text.IsBlank(f.typeInfo.className)
    requires Text.IsUpper(e.typeInfo.className[0]) && Text.IsUpper(f.typeInfo.className[0])
    requires e.typeInfo.className[0] != f.typeInfo.className[0]
    ensures LeafName(e) != LeafName(f)
  {
    assert LeafName(e)[0] != LeafName(f)[0];
  }

  /** The names first met at positions 0, 1 and 3 differ. */
  lemma SampleDistinct()
    ensures var ls := SecondCompoundLeaves;
      && !Text.IsBlank(ls[0].typeInfo.className) && !Text.IsBlank(ls[1].typeInfo.className)
      && !Text.IsBlank(ls[3].typeInfo.className)
      && LeafName(ls[0]) != LeafName(ls[1]) && LeafName(ls[0]) != LeafName(ls[3]) && LeafName(ls[1]) != LeafName(ls[3])
  {
    var ls := SecondCompoundLeaves;
    assert ls[0].typeInfo.className[0] == 'S' && ls[1].typeInfo.className[0] == 'T' && ls[3].typeInfo.className[0] == 'F';
    InitialsDiffer(ls[0], ls[1]);
    InitialsDiffer(ls[0], ls[3]);
    InitialsDiffer(ls[1], ls[3]);
  }

  /** Every other position repeats the class, hence the name, of one of them. */
  lemma SampleRepeats()
    ensures NamedLeaves(SecondCompoundLeaves)
    ensures var ls := SecondCompoundLeaves;
      && LeafName(ls[2]) == LeafName(ls[0]) && LeafName(ls[6]) == LeafName(ls[0])
      && LeafName(ls[4]) == LeafName(ls[1]) && LeafName(ls[5]) == LeafName(ls[1])
      && LeafName(ls[7]) == LeafName(ls[3]) && LeafName(ls[8]) == LeafName(ls[3])
  {
    SampleLeavesNamed();
    var ls := SecondCompoundLeaves;
    assert ls[2].typeInfo.className == ls[0].typeInfo.className;
    assert ls[6].typeInfo.className == ls[0].typeInfo.className;
    assert ls[4].typeInfo.className == ls[1].typeInfo.className;
    assert ls[5].typeInfo.className == ls[1].typeInfo.className;
    assert ls[7].typeInfo.className == ls[3].typeInfo.className;
    assert ls[8].typeInfo.className == ls[3].typeInfo.className;
  }

  lemma SampleDedup()
    ensures NamedLeaves(SecondCompoundLeaves)
    ensures Dedup(SecondCompoundLeaves, {}) == [SecondEntity, ThirdEntity, ForthEntities]
  {
    SampleDistinct();
    SampleRepeats();
    var ls := SecondCompoundLeaves;
    DedupPattern(ls, LeafName(ls[0]), LeafName(ls[1]), LeafName(ls[3]));
  }

  /** Nine leaf positions collapse to three accumulators, each at its first
      depth-first position. */
  lemma SecondCompoundDistinctLeaves()
    ensures WellNamed(SecondCompound.entities)
    ensures DistinctLeaves(SecondCompound.entities) == [SecondEntity, ThirdEntity, ForthEntities]
  {
    SecondCompoundWellNamed();
    SecondCompoundLeavesInOrder();
    SampleDedup();
  }

  /** ... named `secondEntity`, `thirdEntity` and `forthEntity`. */
  lemma SecondCompoundAccumulatorNames()
    ensures WellNamed(SecondCompound.entities)
    ensures var names := Names(DistinctLeaves(SecondCompound.entities));
      |names| == 3 && names[0] == "secondEntity" && names[1] == "thirdEntity" && names[2] == "forthEntity"
  {
    SecondCompoundDistinctLeaves();
    SampleLeafNames();
  }

  /** One scope for the compound list and one for the `thirdCompounds`
      collection compound; one addition per leaf position. */
  lemma SecondCompoundMappingShape()
    ensures WellNamed(SecondCompound.entities)
    ensures Code.Begins(CreateListMappingBlock(SecondCompound)) == 2
  {
    SecondCompoundWellNamed();
    var es := SecondCompound.entities;
    assert CollectionCompounds(ThirdChildren[2..]) == 0 by { assert ThirdChildren[2..][1..] == []; }
    assert CollectionCompounds(ThirdChildren[1..]) == 0 by { assert ThirdChildren[1..][1..] == ThirdChildren[2..]; }
    assert CollectionCompounds(ThirdChildren) == 0;
    assert CollectionCompounds(es[4..]) == 0 by { assert es[4..][1..] == []; }
    assert CollectionCompounds(es[3..]) == 0 by { assert es[3..][1..] == es[4..]; }
    assert CollectionCompounds(es[2..]) == 0 by { assert es[2..][1..] == es[3..]; }
    assert CollectionCompounds(es[1..]) == 1 by { assert es[1..][1..] == es[2..]; }
    assert CollectionCompounds(es) == 1;
  }

  const ForthEntityClass := Declarations.ClassDecl(Package, "ForthEntity", true, [Declarations.Annotation("Entity", [])], [], [])
  const ThirdEntityClass := Declarations.ClassDecl(Package, "ThirdEntity", true, [Declarations.Annotation("Entity", [])], [], [])

  function EmbeddedForth(name: string): Declarations.PropertyDecl {
    Declarations.PropertyDecl(name, [Declarations.Annotation("Embedded", [])], Declarations.TypeRef(ForthEntityClass, false, []))
  }

  /** `ForthCompound`: two embedded entities and no relation. */
  const ForthCompoundClass := Declarations.ClassDecl(
    Package, "ForthCompound", true, [Declarations.Annotation("Compound", [])], [],
    [EmbeddedForth("forthEntity"), EmbeddedForth("second")])

  /** The visitor takes both embedded properties as children. */
  lemma ForthCompoundAcceptedByVisitor()
    ensures Visitor.GetCompoundData(ForthCompoundClass) == Wrappers.Success(CompoundData(Package, "ForthCompound", [
      Entity(TypeInfo(Package, "ForthEntity", false), PropertyInfo("forthEntity", false), true, None),
      Entity(TypeInfo(Package, "ForthEntity", false), PropertyInfo("second", false), true, None)]))
  {
    var ps := ForthCompoundClass.properties;
    assert Visitor.IsEntityClass(ForthEntityClass) by {
      assert ForthEntityClass.annotations[0].shortName == "Entity";
    }
    assert !Visitor.IsCollectionType(ForthEntityClass);
    assert Declarations.HasAnnotation(ps[0].annotations, "Embedded") by { assert ps[0].annotations[0].shortName == "Embedded"; }
    assert Declarations.HasAnnotation(ps[1].annotations, "Embedded") by { assert ps[1].annotations[0].shortName == "Embedded"; }
    assert ps[1..][1..] == [];
    var e0 := Entity(TypeInfo(Package, "ForthEntity", false), PropertyInfo("forthEntity", false), true, None);
    var e1 := Entity(TypeInfo(Package, "ForthEntity", false), PropertyInfo("second", false), true, None);
    assert Visitor.ToChildEntity(ps[0]) == Wrappers.Success(Some(e0));
    assert Visitor.ToChildEntity(ps[1]) == Wrappers.Success(Some(e1));
    assert Visitor.ToChildEntities(ps[1..][1..]) == Wrappers.Success([]);
    assert ps[1..][0] == ps[1] && [e1] + [] == [e1] && [e0] + [e1] == [e0, e1];
    assert Visitor.ToChildEntities(ps[1..]) == Wrappers.Success([e1]);
    assert Visitor.ToChildEntities(ps) == Wrappers.Success([e0, e1]);
  }

  /** The older validator reports the second embedded parent, carries on,
      and then rejects the class for having no relation child. */
  lemma ForthCompoundRejectedByLegacy()
    ensures Legacy.GetCompoundData(ForthCompoundClass) == Legacy.Outcome(None, [
      Legacy.MultipleEmbeddedParents("second"), Legacy.NoRelationChild("ForthCompound")])
  {
    var ps := ForthCompoundClass.properties;
    assert Visitor.IsEntityClass(ForthEntityClass) by {
      assert ForthEntityClass.annotations[0].shortName == "Entity";
    }
    assert Declarations.HasAnnotation(ps[0].annotations, "Embedded") by { assert ps[0].annotations[0].shortName == "Embedded"; }
    assert Declarations.HasAnnotation(ps[1].annotations, "Embedded") by { assert ps[1].annotations[0].shortName == "Embedded"; }
    assert ps[1..][1..] == [];
  }

  /** With a relation added, the older validator accepts the class despite
      the reported second parent, and keeps the later parent. */
  lemma LegacyKeepsLastEmbeddedParent()
    ensures var c := ForthCompoundClass.(properties := ForthCompoundClass.properties + [
        Declarations.PropertyDecl("third", [Declarations.Annotation("Relation", [])], Declarations.TypeRef(ThirdEntityClass, true, []))]);
      Legacy.GetCompoundData(c) == Legacy.Outcome(
        Some(Legacy.LegacyCompound(Package, "ForthCompound",
          Legacy.LegacyLeaf(Package, "ForthEntity", "second", false),
          [Legacy.LegacyLeaf(Package, "ThirdEntity", "third", true)])),
        [Legacy.MultipleEmbeddedParents("second")])
  {
    var c := ForthCompoundClass.(properties := ForthCompoundClass.properties + [
        Declarations.PropertyDecl("third", [Declarations.Annotation("Relation", [])], Declarations.TypeRef(ThirdEntityClass, true, []))]);
    var ps := c.properties;
    assert Visitor.IsEntityClass(ForthEntityClass) by {
      assert ForthEntityClass.annotations[0].shortName == "Entity";
    }
    assert Visitor.IsEntityClass(ThirdEntityClass) by {
      assert ThirdEntityClass.annotations[0].shortName == "Entity";
    }
    assert Declarations.HasAnnotation(ps[0].annotations, "Embedded") by { assert ps[0].annotations[0].shortName == "Embedded"; }
    assert Declarations.HasAnnotation(ps[1].annotations, "Embedded") by { assert ps[1].annotations[0].shortName == "Embedded"; }
    assert Declarations.HasAnnotation(ps[2].annotations, "Relation") by { assert ps[2].annotations[0].shortName == "Relation"; }
    assert !Declarations.HasAnnotation(ps[2].annotations, "Embedded");
    assert ps[1..][1..] == [ps[2]] && ps[1..][1..][1..] == [];
    var l0 := Legacy.LegacyLeaf(Package, "ForthEntity", "forthEntity", false);
    var l1 := Legacy.LegacyLeaf(Package, "ForthEntity", "second", false);
    var l2 := Legacy.LegacyLeaf(Package, "ThirdEntity", "third", true);
    var warned := [Legacy.MultipleEmbeddedParents("second")];
    assert Legacy.Build(ps[0]) == Legacy.Outcome(Some(l0), []);
    assert Legacy.Build(ps[1]) == Legacy.Outcome(Some(l1), []);
    assert Legacy.Build(ps[2]) == Legacy.Outcome(Some(l2), []);
    assert Legacy.ScanProperties(ps[1..][1..][1..], Some(l1), [l2], warned) == Legacy.Scanned(Some(l1), [l2], warned);
    assert Legacy.ScanProperties(ps[1..][1..], Some(l1), [], warned) == Legacy.Scanned(Some(l1), [l2], warned);
    assert ps[1..][0] == ps[1] && ps[1].name == "second";
    assert [] + [Legacy.MultipleEmbeddedParents("second")] + [] == warned;
    assert Legacy.ScanProperties(ps[1..], Some(l0), [], []) == Legacy.Scanned(Some(l1), [l2], warned);
    assert Legacy.ScanProperties(ps, None, [], []) == Legacy.Scanned(Some(l1), [l2], warned);
  }
}

=== FILE: syntax.dfy ===
/**
  The string constants the generator assembles code from (KotlinSyntax.kt,
  RoomSyntax.kt and OutputSyntax.kt). Constants that the generator uses but
  whose definitions are not part of this model are declared without a value:
  every proof holds whatever string they stand for.
 */
module Syntax {

  // Separators
  const KeywordSeparator := " "
  const ParameterSeparator := ", "

  // Access
  const InstanceAccessKey := "."
  const ClassAccessKey := "::"

  // Control flow
  const ParameterOpenParenthesis := "("
  const ParameterCloseParenthesis := ")"
  const CurlyBraceOpenParenthesis := "{"
  const InitializationSign := " = "
  const NullableSign := "?"
  const LambdaArrow := "->"

  // Keywords
  const ImmutableKeyword := "val"

  // Methods
  const ForEachMethod := "forEach"
  const ListOfMethod := "listOf"
  const ListSingleAddMethod := "add"
  const ListMultiAddMethod := "addAll"
  const LetMethod := "let"

  // Output names
  const DaoPostfix := "Dao"
  const DaoPrefix := "I"
  const InsertMethodName := "insertOrReplace"
  const InsertEntitiesMethodName := "insertOrReplaceEntities"

  // Room annotation and argument names
  const EmbeddedAnnotation := "Embedded"
  const RelationAnnotation := "Relation"
  const EntityAnnotation := "Entity"
  const DaoAnnotation := "Dao"
  const RoomPackage := "androidx.room"
  const RelationJunctionParameter := "associateBy"
  const RelationParentParameter := "parentColumn"
  const RelationEntityParameter := "entityColumn"
  const JunctionClassParameter := "value"
  const JunctionParentParameter := "parentColumn"
  const JunctionEntityParameter := "entityColumn"

  // Kotlin names the visitor compares against
  const CollectionSimpleName := "Collection"
  const ObjectSimpleName := "Object"

  // Generator option keys and the one value that switches an option on
  const SuspendDaoOption := "suspendDao"
  const UseDaoPrefixOption := "useDaoPrefix"
  const UseDaoPostfixOption := "useDaoPostfix"
  const OptionEnabled := "true"

  // Used by the generator, defined outside this model
  const ItKeyword: string
  const CompoundListParameterName: string
  const CompoundParameterName: string
  const ParameterNameSeparator: string
  const TypeConcatIndicator: string
  const NoWrapKeywordSeparator: string
}

=== FILE: text.dfy ===
/**
  `titleToCamelCase` (generator/utils/TextUtils.kt and its identical copy
  utils/TextUtils.kt): lower-case the first character of a non-blank string.
  Case mapping is modelled on ASCII letters only.
 */
module Text {
  import opened Wrappers

  datatype TextError = BlankInput

  /** Whitespace as Kotlin's `Char.isWhitespace` sees it, restricted to ASCII. */
  predicate IsWhitespace(c: char) {
    c == ' ' || c == '\t' || c == '\n' || c == '\r' || c == '\U{B}' || c == '\U{C}'
    || ('\U{1C}' <= c <= '\U{1F}')
  }

  predicate IsUpper(c: char) {
    'A' <= c <= 'Z'
  }

  /** Kotlin's `isBlank`: empty, or nothing but whitespace. */
  predicate IsBlank(s: string) {
    forall i :: 0 <= i < |s| ==> IsWhitespace(s[i])
  }

  function ToLower(c: char): (r: char)
    ensures IsUpper(c) ==> r as int == c as int + 32
    ensures !IsUpper(c) ==> r == c
    ensures !IsUpper(r)
  {
    if IsUpper(c) then (c as int + 32) as char else c
  }

  /** The `require(string.isNotBlank())` failure becomes `BlankInput`. */
  function TitleToCamelCase(s: string): (r: Result<string, TextError>)
    ensures r.Failure? <==> IsBlank(s)
    ensures r.Success? ==> |r.value| == |s|
    ensures r.Success? ==> r.value[0] == ToLower(s[0])
    ensures r.Success? ==> r.value[1..] == s[1..]
  {
    if IsBlank(s) then Failure(BlankInput)
    else Success([ToLower(s[0])] + s[1..])
  }

  /** The camel-cased name of a class name the generator knows to be non-blank. */
  function CamelName(s: string): (r: string)
    requires !IsBlank(s)
    ensures TitleToCamelCase(s) == Success(r)
    ensures !IsBlank(r)
  {
    assert !IsWhitespace(s[0]) || exists i :: 1 <= i < |s| && !IsWhitespace(s[i]);
    TitleToCamelCase(s).value
  }

  /** Applying the conversion to its own output changes nothing. */
  lemma TitleToCamelCaseIdempotent(s: string)
    requires !IsBlank(s)
    ensures TitleToCamelCase(CamelName(s)) == TitleToCamelCase(s)
  {
    var r := CamelName(s);
    assert r[0] == ToLower(s[0]);
    assert ToLower(r[0]) == r[0];
    assert r == [ToLower(r[0])] + r[1..];
  }

  /** A name that already starts in lower case is its own camel-cased form. */
  lemma LowerInitialIsFixedPoint(s: string)
    requires |s| > 0 && !IsUpper(s[0]) && !IsWhitespace(s[0])
    ensures TitleToCamelCase(s) == Success(s)
  {
    assert s == [s[0]] + s[1..];
  }
}

=== FILE: visitor.dfy ===
/**
  The tree builder of ksp/CompoundVisitor.kt: classifies the annotated
  properties of a compound class into leaf entities and nested compounds,
  detects collections, reads junction metadata and rejects malformed
  compounds. A logged-and-thrown error is a `Failure`.
 */
module Visitor {
  import opened Wrappers
  import opened Syntax
  import opened Data
  import opened Declarations

  datatype VisitError =
    | NotAClass(className: string)
    | NoProperties(className: string)
    | NoRelationChildren(className: string)
    /** The first type argument of a collection property is missing or a star. */
    | MissingElementType(propertyName: string)
    /** `getValue` on an annotation argument that is not there. */
    | MissingArgument(argumentName: string)

  predicate IsEmbedded(p: PropertyDecl) {
    HasAnnotation(p.annotations, EmbeddedAnnotation)
  }

  predicate IsRelation(p: PropertyDecl) {
    HasAnnotation(p.annotations, RelationAnnotation)
  }

  /** Only properties with `@Embedded` or `@Relation` become children. */
  predicate IsChildProperty(p: PropertyDecl) {
    IsEmbedded(p) || IsRelation(p)
  }

  /** The child properties, in declaration order. */
  function ChildProperties(ps: seq<PropertyDecl>): (r: seq<PropertyDecl>)
    ensures forall k :: 0 <= k < |r| ==> IsChildProperty(r[k])
  {
    if |ps| == 0 then []
    else (if IsChildProperty(ps[0]) then [ps[0]] else []) + ChildProperties(ps[1..])
  }

  /** A property list without child properties holds only properties the
      visitor skips. */
  lemma {:induction false} NoChildPropertiesAllSkipped(ps: seq<PropertyDecl>)
    requires |ChildProperties(ps)| == 0
    ensures forall i :: 0 <= i < |ps| ==> !IsChildProperty(ps[i])
  {
    if |ps| > 0 {
      NoChildPropertiesAllSkipped(ps[1..]);
      assert forall i :: 1 <= i < |ps| ==> ps[i] == ps[1..][i - 1];
    }
  }

  /** The type is `Collection` itself or names it among its direct supertypes. */
  predicate IsCollectionType(c: ClassDecl) {
    c.simpleName == CollectionSimpleName
    || exists i :: 0 <= i < |c.superTypeNames| && c.superTypeNames[i] == CollectionSimpleName
  }

  predicate IsEntityClass(c: ClassDecl) {
    HasAnnotation(c.annotations, EntityAnnotation)
  }

  predicate IsCollectionProperty(p: PropertyDecl) {
    IsCollectionType(p.propertyType.declaration)
  }

  /** The class a child property describes: the first type argument of a
      collection, otherwise the property's own type. */
  function DescribedClass(p: PropertyDecl): Option<ClassDecl> {
    if !IsCollectionProperty(p) then Some(p.propertyType.declaration)
    else if |p.propertyType.arguments| == 0 || p.propertyType.arguments[0].Star? then None
    else Some(p.propertyType.arguments[0].argumentType.declaration)
  }

  /** What a child node records about the property it was built from. */
  predicate Describes(node: EntityData, p: PropertyDecl) {
    && DescribedClass(p).Some?
    && var c := DescribedClass(p).value;
    && node.typeInfo == TypeInfo(c.packageName, c.simpleName, IsCollectionProperty(p))
    && node.propertyInfo == PropertyInfo(p.name, p.propertyType.isMarkedNullable)
    && node.isEmbedded == IsEmbedded(p)
    && (node.Entity? <==> IsEntityClass(c))
    && (node.junction.Some? ==> IsCollectionProperty(p) && IsRelation(p))
  }

  /** A required argument read with `getValue(...).stringValue`. */
  function RequiredText(arguments: seq<ValueArgument>, name: string): (r: Result<string, VisitError>)
    ensures r.Failure? <==> ArgumentNamed(arguments, name).None?
    ensures r.Success? ==> r.value == StringValue(ArgumentNamed(arguments, name).value)
  {
    match ArgumentNamed(arguments, name)
    case None => Failure(MissingArgument(name))
    case Some(v) => Success(StringValue(v))
  }

  /** The `associateBy` junction annotation of the first `@Relation`, if any. */
  function JunctionAnnotationOf(p: PropertyDecl): Option<Annotation> {
    match FirstAnnotation(p.annotations, RelationAnnotation)
    case None => None
    case Some(relation) =>
      match ArgumentNamed(relation.arguments, RelationJunctionParameter)
      case Some(AnnotationValue(a)) => Some(a)
      case _ => None
  }

  /** The class given as the junction's `value`, if it is a class literal. */
  function JunctionClassOf(p: PropertyDecl): Option<ClassDecl> {
    match JunctionAnnotationOf(p)
    case None => None
    case Some(junction) =>
      match ArgumentNamed(junction.arguments, JunctionClassParameter)
      case Some(TypeValue(t)) => Some(t.declaration)
      case _ => None
  }

  /** The junction built from its class and the two annotations: each of the
      four column arguments is read with `getValue`, which fails when the
      argument is missing. */
  function JunctionFrom(c: ClassDecl, relation: Annotation, junction: Annotation): (r: Result<EntityJunction, VisitError>)
    ensures r.Failure? <==>
      || RequiredText(relation.arguments, RelationParentParameter).Failure?
      || RequiredText(relation.arguments, RelationEntityParameter).Failure?
      || RequiredText(junction.arguments, JunctionParentParameter).Failure?
      || RequiredText(junction.arguments, JunctionEntityParameter).Failure?
    ensures r.Failure? ==> r.error.MissingArgument?
    ensures r.Success? ==>
      && r.value.packageName == c.packageName
      && r.value.className == c.simpleName
      && RequiredText(relation.arguments, RelationParentParameter) == Success(r.value.parentColumn)
      && RequiredText(relation.arguments, RelationEntityParameter) == Success(r.value.entityColumn)
      && RequiredText(junction.arguments, JunctionParentParameter) == Success(r.value.junctionParentColumn)
      && RequiredText(junction.arguments, JunctionEntityParameter) == Success(r.value.junctionEntityColumn)
  {
    var parentColumn :- RequiredText(relation.arguments, RelationParentParameter);
    var entityColumn :- RequiredText(relation.arguments, RelationEntityParameter);
    var junctionParentColumn :- RequiredText(junction.arguments, JunctionParentParameter);
    var junctionEntityColumn :- RequiredText(junction.arguments, JunctionEntityParameter);
    Success(EntityJunction(c.packageName, c.simpleName, parentColumn, entityColumn, junctionParentColumn, junctionEntityColumn))
  }

  /** `getEntityJunction`. No junction when the relation, its `associateBy`
      or the junction's class is missing, or the class is the `Object`
      default; otherwise the four column arguments are required. */
  function GetEntityJunction(p: PropertyDecl): (r: Result<Option<EntityJunction>, VisitError>)
    ensures JunctionClassOf(p).None? ==> r == Success(None)
    ensures JunctionClassOf(p).Some? && JunctionClassOf(p).value.simpleName == ObjectSimpleName ==> r == Success(None)
    ensures r.Success? && r.value.Some? ==>
      && JunctionClassOf(p).Some?
      && JunctionClassOf(p).value.simpleName != ObjectSimpleName
      && Success(r.value.value) == JunctionFrom(
        JunctionClassOf(p).value,
        FirstAnnotation(p.annotations, RelationAnnotation).value,
        JunctionAnnotationOf(p).value)
    ensures r.Failure? <==>
      && JunctionClassOf(p).Some?
      && JunctionClassOf(p).value.simpleName != ObjectSimpleName
      && JunctionFrom(
        JunctionClassOf(p).value,
        FirstAnnotation(p.annotations, RelationAnnotation).value,
        JunctionAnnotationOf(p).value).Failure?
    ensures (&& JunctionClassOf(p).Some?
             && JunctionClassOf(p).value.simpleName != ObjectSimpleName
             && JunctionFrom(
               JunctionClassOf(p).value,
               FirstAnnotation(p.annotations, RelationAnnotation).value,
               JunctionAnnotationOf(p).value).Success?) ==>
      r == Success(Some(JunctionFrom(
        JunctionClassOf(p).value,
        FirstAnnotation(p.annotations, RelationAnnotation).value,
        JunctionAnnotationOf(p).value).value))
    ensures r.Failure? ==> r.error.MissingArgument?
  {
    match JunctionClassOf(p)
    case None => Success(None)
    case Some(junctionClass) =>
      if junctionClass.simpleName == ObjectSimpleName then Success(None)
      else
        var relation := FirstAnnotation(p.annotations, RelationAnnotation).value;
        var junction := JunctionAnnotationOf(p).value;
        var entityJunction :- JunctionFrom(junctionClass, relation, junction);
        Success(Some(entityJunction))
  }

  /** The junction lookup of a relation collection fails. */
  predicate JunctionFails(p: PropertyDecl) {
    IsCollectionProperty(p) && IsRelation(p) && GetEntityJunction(p).Failure?
  }

  /** The junction handed to the child node: the one read for a relation
      collection, none otherwise. */
  function PassedJunction(p: PropertyDecl): Option<EntityJunction>
    requires !JunctionFails(p)
  {
    if IsCollectionProperty(p) && IsRelation(p) then GetEntityJunction(p).value else None
  }

  /** `getEntity`: a leaf for the given class, reached through `p`. */
  function GetEntity(c: ClassDecl, p: PropertyDecl, isEmbedded: bool, isCollection: bool, junction: Option<EntityJunction>): (r: EntityData)
    ensures r.Entity? && r.junction == junction && r.isEmbedded == isEmbedded
    ensures r.typeInfo == TypeInfo(c.packageName, c.simpleName, isCollection)
    ensures r.propertyInfo == PropertyInfo(p.name, p.propertyType.isMarkedNullable)
  {
    Entity(
      TypeInfo(c.packageName, c.simpleName, isCollection),
      PropertyInfo(p.name, p.propertyType.isMarkedNullable),
      isEmbedded,
      junction)
  }

  /** The optional `propertyDeclaration` of `getCompound`: absent for the
      root, otherwise the child property the compound is reached through. */
  datatype Holder = NoProperty | Through(property: PropertyDecl)

  /** What a compound records about how it is reached: the property's name
      and nullability, or an empty name and non-null without a property. */
  function HolderInfo(p: Holder): PropertyInfo {
    if p.Through? then PropertyInfo(p.property.name, p.property.propertyType.isMarkedNullable) else PropertyInfo("", false)
  }

  /** `getCompound`: a nested compound for the given class, rejected unless
      it is a class with at least one child property. */
  function GetCompound(c: ClassDecl, p: Holder, isEmbedded: bool, isCollection: bool, junction: Option<EntityJunction>): (r: Result<EntityData, VisitError>)
    decreases c
    ensures !c.isClass ==> r == Failure(NotAClass(c.simpleName))
    ensures c.isClass && |c.properties| == 0 ==> r == Failure(NoProperties(c.simpleName))
    ensures c.isClass && |c.properties| > 0 && |ChildProperties(c.properties)| == 0 ==> r == Failure(NoRelationChildren(c.simpleName))
    ensures c.isClass && ToChildEntities(c.properties).Failure? ==> r == Failure(ToChildEntities(c.properties).error)
    ensures r.Success? <==> c.isClass && |ChildProperties(c.properties)| > 0 && ToChildEntities(c.properties).Success?
    ensures r.Success? ==>
      && r.value.Compound?
      && r.value.typeInfo == TypeInfo(c.packageName, c.simpleName, isCollection)
      && r.value.propertyInfo == HolderInfo(p)
      && r.value.isEmbedded == isEmbedded && r.value.junction == junction
      && ToChildEntities(c.properties) == Success(r.value.entities)
      && |r.value.entities| > 0
      && WellFormed([r.value])
  {
    if !c.isClass then Failure(NotAClass(c.simpleName))
    else if |c.properties| == 0 then Failure(NoProperties(c.simpleName))
    else
      assert |ChildProperties(c.properties)| == 0 ==> ToChildEntities(c.properties).Success? by {
        if |ChildProperties(c.properties)| == 0 { NoChildPropertiesAllSkipped(c.properties); }
      }
      var children :- ToChildEntities(c.properties);
      if |children| == 0 then Failure(NoRelationChildren(c.simpleName))
      else
        var node := Compound(
          TypeInfo(c.packageName, c.simpleName, isCollection),
          HolderInfo(p),
          isEmbedded,
          junction,
          children);
        assert WellFormed([node]) by {
          assert [node][0] == node;
        }
        Success(node)
  }

  /** One property's contribution to `toChildEntities`: nothing for an
      unannotated property, otherwise exactly one node describing it. */
  function ToChildEntity(p: PropertyDecl): (r: Result<Option<EntityData>, VisitError>)
    decreases p
    ensures !IsChildProperty(p) ==> r == Success(None)
    ensures IsChildProperty(p) && DescribedClass(p).None? ==> r.Failure?
    ensures IsChildProperty(p) && r.Success? ==> r.value.Some? && Describes(r.value.value, p)
    ensures r.Success? && r.value.Some? ==> WellFormed([r.value.value])
    ensures IsChildProperty(p) && IsCollectionProperty(p) && IsRelation(p) && r.Success? ==>
      GetEntityJunction(p) == Success(r.value.value.junction)
  {
    if !IsChildProperty(p) then Success(None)
    else
      var isEmbedded := IsEmbedded(p);
      var isRelation := IsRelation(p);
      if IsCollectionProperty(p) then
        var junction :- if isRelation then GetEntityJunction(p) else Success(None);
        var arguments := p.propertyType.arguments;
        if |arguments| == 0 || arguments[0].Star? then Failure(MissingElementType(p.name))
        else
          var elementType := arguments[0].argumentType.declaration;
          if !IsEntityClass(elementType) then
            var node :- GetCompound(elementType, Through(p), isEmbedded, true, junction);
            Success(Some(node))
          else
            var node := GetEntity(elementType, p, isEmbedded, true, junction);
            assert WellFormed([node]) by { assert [node][0] == node; }
            Success(Some(node))
      else
        var propertyType := p.propertyType.declaration;
        if !IsEntityClass(propertyType) then
          var node :- GetCompound(propertyType, Through(p), isEmbedded, false, None);
          Success(Some(node))
        else
          var node := GetEntity(propertyType, p, isEmbedded, false, None);
          assert WellFormed([node]) by { assert [node][0] == node; }
          Success(Some(node))
  }

  /** The outcome of one child property: it fails with the junction's error
      when the junction lookup fails, with `MissingElementType` when a
      collection has no usable element type, with the nested compound's own
      error when the described class is rejected, and succeeds otherwise --
      a nested compound then holding exactly what its class's properties
      build. */
  lemma ToChildEntityOutcome(p: PropertyDecl)
    requires IsChildProperty(p)
    ensures var r := ToChildEntity(p);
      && (JunctionFails(p) ==> r == Failure(GetEntityJunction(p).error))
      && (!JunctionFails(p) && DescribedClass(p).None? ==> r == Failure(MissingElementType(p.name)))
      && (r.Success? <==>
          && !JunctionFails(p)
          && DescribedClass(p).Some?
          && var c := DescribedClass(p).value;
          && (IsEntityClass(c) || (c.isClass && |ChildProperties(c.properties)| > 0 && ToChildEntities(c.properties).Success?)))
    ensures var r := ToChildEntity(p);
      (&& !JunctionFails(p) && DescribedClass(p).Some?
       && !IsEntityClass(DescribedClass(p).value) && r.Failure?) ==>
      GetCompound(DescribedClass(p).value, Through(p), IsEmbedded(p), IsCollectionProperty(p), PassedJunction(p)) == Failure(r.error)
    ensures var r := ToChildEntity(p);
      r.Success? && r.value.Some? && r.value.value.Compound? ==>
      && DescribedClass(p).Some?
      && ToChildEntities(DescribedClass(p).value.properties) == Success(r.value.value.entities)
  {
    if !JunctionFails(p) && DescribedClass(p).Some? {
      if IsEntityClass(DescribedClass(p).value) {
        BuildsLeaf(p);
      } else {
        BuildsNestedCompound(p);
      }
    }
  }

  /** A child property whose described class is an entity becomes a leaf. */
  lemma BuildsLeaf(p: PropertyDecl)
    requires IsChildProperty(p) && !JunctionFails(p) && DescribedClass(p).Some?
    requires IsEntityClass(DescribedClass(p).value)
    ensures ToChildEntity(p) == Success(Some(GetEntity(DescribedClass(p).value, p, IsEmbedded(p), IsCollectionProperty(p), PassedJunction(p))))
  {
  }

  /** A child property whose described class is not an entity becomes the
      nested compound `getCompound` builds for that class, or fails with its
      error. */
  lemma BuildsNestedCompound(p: PropertyDecl)
    requires IsChildProperty(p) && !JunctionFails(p) && DescribedClass(p).Some?
    requires !IsEntityClass(DescribedClass(p).value)
    ensures var node := GetCompound(DescribedClass(p).value, Through(p), IsEmbedded(p), IsCollectionProperty(p), PassedJunction(p));
      ToChildEntity(p) == if node.Success? then Success(Some(node.value)) else Failure(node.error)
  {
  }

  /** `toChildEntities`: one node per child property, in declaration order;
      the first property that fails fails the whole list. */
  function ToChildEntities(ps: seq<PropertyDecl>): (r: Result<seq<EntityData>, VisitError>)
    decreases ps
    ensures r.Success? <==> forall i :: 0 <= i < |ps| ==> ToChildEntity(ps[i]).Success?
    ensures r.Failure? ==> exists i :: (0 <= i < |ps| && ToChildEntity(ps[i]) == Failure(r.error)
                                        && forall j :: 0 <= j < i ==> ToChildEntity(ps[j]).Success?)
    ensures r.Success? ==>
      && |r.value| == |ChildProperties(ps)|
      && (forall k :: 0 <= k < |r.value| ==> Describes(r.value[k], ChildProperties(ps)[k]))
      && WellFormed(r.value)
  {
    if |ps| == 0 then Success([])
    else
      var head :- ToChildEntity(ps[0]);
      var rest :- ToChildEntities(ps[1..]);
      var own := if head.Some? then [head.value] else [];
      assert forall i :: 0 <= i < |ps| - 1 ==> ps[1..][i] == ps[i + 1];
      ConsDescribed(ps, own, rest);
      Success(own + rest)
  }

  /** Nodes describing two property lists, concatenated, describe the
      concatenated list. */
  lemma DescribesAppend(a: seq<EntityData>, pa: seq<PropertyDecl>, b: seq<EntityData>, pb: seq<PropertyDecl>)
    requires |a| == |pa| && forall k :: 0 <= k < |a| ==> Describes(a[k], pa[k])
    requires |b| == |pb| && forall k :: 0 <= k < |b| ==> Describes(b[k], pb[k])
    ensures forall k :: 0 <= k < |a + b| ==> Describes((a + b)[k], (pa + pb)[k])
  {
    forall k | 0 <= k < |a + b| ensures Describes((a + b)[k], (pa + pb)[k]) {
      if k < |a| {
        assert (a + b)[k] == a[k] && (pa + pb)[k] == pa[k];
      } else {
        assert (a + b)[k] == b[k - |a|] && (pa + pb)[k] == pb[k - |a|];
      }
    }
  }

  /** The node of the first property, if it is a child, followed by the nodes
      of the remaining child properties, describes all the child properties. */
  lemma ConsDescribed(ps: seq<PropertyDecl>, own: seq<EntityData>, rest: seq<EntityData>)
    requires |ps| > 0
    requires IsChildProperty(ps[0]) ==> |own| == 1 && Describes(own[0], ps[0])
    requires !IsChildProperty(ps[0]) ==> own == []
    requires WellFormed(own) && WellFormed(rest)
    requires |rest| == |ChildProperties(ps[1..])|
    requires forall k :: 0 <= k < |rest| ==> Describes(rest[k], ChildProperties(ps[1..])[k])
    ensures |own + rest| == |ChildProperties(ps)|
    ensures forall k :: 0 <= k < |own + rest| ==> Describes((own + rest)[k], ChildProperties(ps)[k])
    ensures WellFormed(own + rest)
  {
    var head := if IsChildProperty(ps[0]) then [ps[0]] else [];
    assert ChildProperties(ps) == head + ChildProperties(ps[1..]);
    DescribesAppend(own, head, rest, ChildProperties(ps[1..]));
    WellFormedAppend(own, rest);
  }

  /** Node `k` is the node property `k` builds on its own. */
  predicate BuiltBy(nodes: seq<EntityData>, props: seq<PropertyDecl>) {
    |nodes| == |props| && forall k :: 0 <= k < |nodes| ==> ToChildEntity(props[k]) == Success(Some(nodes[k]))
  }

  lemma BuiltByAppend(a: seq<EntityData>, pa: seq<PropertyDecl>, b: seq<EntityData>, pb: seq<PropertyDecl>)
    requires BuiltBy(a, pa) && BuiltBy(b, pb)
    ensures BuiltBy(a + b, pa + pb)
  {
    forall k | 0 <= k < |a + b| ensures ToChildEntity((pa + pb)[k]) == Success(Some((a + b)[k])) {
      if k < |a| {
        assert (a + b)[k] == a[k] && (pa + pb)[k] == pa[k];
      } else {
        assert (a + b)[k] == b[k - |a|] && (pa + pb)[k] == pb[k - |a|];
      }
    }
  }

  /** Node `k` of a successful `toChildEntities` is the node the `k`-th child
      property builds on its own. */
  lemma {:induction false} ChildNodesBuiltOneByOne(ps: seq<PropertyDecl>)
    requires ToChildEntities(ps).Success?
    ensures BuiltBy(ToChildEntities(ps).value, ChildProperties(ps))
  {
    if |ps| > 0 {
      assert forall i :: 0 <= i < |ps| - 1 ==> ps[1..][i] == ps[i + 1];
      ChildNodesBuiltOneByOne(ps[1..]);
      var head := ToChildEntity(ps[0]).value;
      var own := if head.Some? then [head.value] else [];
      var hp := if IsChildProperty(ps[0]) then [ps[0]] else [];
      assert BuiltBy(own, hp);
      assert ToChildEntities(ps).value == own + ToChildEntities(ps[1..]).value;
      assert ChildProperties(ps) == hp + ChildProperties(ps[1..]);
      BuiltByAppend(own, hp, ToChildEntities(ps[1..]).value, ChildProperties(ps[1..]));
    }
  }

  /** Every nested compound among the children holds exactly the nodes that
      the properties of the class it describes build. */
  lemma NestedCompoundsBuiltFromTheirClass(ps: seq<PropertyDecl>)
    requires ToChildEntities(ps).Success?
    ensures var r := ToChildEntities(ps).value;
      forall k :: 0 <= k < |r| && r[k].Compound? ==>
        && DescribedClass(ChildProperties(ps)[k]).Some?
        && ToChildEntities(DescribedClass(ChildProperties(ps)[k]).value.properties) == Success(r[k].entities)
  {
    var r := ToChildEntities(ps).value;
    ChildNodesBuiltOneByOne(ps);
    forall k | 0 <= k < |r| && r[k].Compound?
      ensures DescribedClass(ChildProperties(ps)[k]).Some?
      ensures ToChildEntities(DescribedClass(ChildProperties(ps)[k]).value.properties) == Success(r[k].entities)
    {
      ToChildEntityOutcome(ChildProperties(ps)[k]);
    }
  }

  /** A relation whose `associateBy` names a class other than `Object` yields
      a junction of that class exactly when its four column arguments are
      all present. */
  lemma JunctionIffColumnsPresent(p: PropertyDecl)
    requires JunctionClassOf(p).Some? && JunctionClassOf(p).value.simpleName != ObjectSimpleName
    ensures FirstAnnotation(p.annotations, RelationAnnotation).Some? && JunctionAnnotationOf(p).Some?
    ensures var relation := FirstAnnotation(p.annotations, RelationAnnotation).value.arguments;
      var junction := JunctionAnnotationOf(p).value.arguments;
      GetEntityJunction(p).Success? <==>
        && ArgumentNamed(relation, RelationParentParameter).Some?
        && ArgumentNamed(relation, RelationEntityParameter).Some?
        && ArgumentNamed(junction, JunctionParentParameter).Some?
        && ArgumentNamed(junction, JunctionEntityParameter).Some?
    ensures GetEntityJunction(p).Success? ==>
      && GetEntityJunction(p).value.Some?
      && GetEntityJunction(p).value.value.packageName == JunctionClassOf(p).value.packageName
      && GetEntityJunction(p).value.value.className == JunctionClassOf(p).value.simpleName
  {
  }

  /** The root is accepted exactly when the same class would be accepted as
      a nested compound, with the same children, and otherwise fails with
      the same error. */
  lemma RootBuiltLikeNestedCompound(c: ClassDecl, p: Holder, isEmbedded: bool, isCollection: bool, junction: Option<EntityJunction>)
    ensures var root := GetCompoundData(c); var nested := GetCompound(c, p, isEmbedded, isCollection, junction);
      && (root.Success? <==> nested.Success?)
      && (root.Success? ==> root.value.entities == nested.value.entities)
      && (root.Failure? ==> root.error == nested.error)
  {
  }

  /** `getCompoundData`: the root. The same three rejections as for a nested
      compound; on success the children describe the child properties. */
  function GetCompoundData(c: ClassDecl): (r: Result<CompoundData, VisitError>)
    ensures !c.isClass ==> r == Failure(NotAClass(c.simpleName))
    ensures c.isClass && |c.properties| == 0 ==> r == Failure(NoProperties(c.simpleName))
    ensures c.isClass && |c.properties| > 0 && |ChildProperties(c.properties)| == 0 ==> r == Failure(NoRelationChildren(c.simpleName))
    ensures c.isClass && ToChildEntities(c.properties).Failure? ==> r == Failure(ToChildEntities(c.properties).error)
    ensures r.Success? <==> c.isClass && |ChildProperties(c.properties)| > 0 && ToChildEntities(c.properties).Success?
    ensures r.Success? ==>
      && r.value.packageName == c.packageName && r.value.className == c.simpleName
      && ToChildEntities(c.properties) == Success(r.value.entities)
      && |r.value.entities| == |ChildProperties(c.properties)| > 0
      && (forall k :: 0 <= k < |r.value.entities| ==> Describes(r.value.entities[k], ChildProperties(c.properties)[k]))
      && WellFormed(r.value.entities)
  {
    if !c.isClass then Failure(NotAClass(c.simpleName))
    else if |c.properties| == 0 then Failure(NoProperties(c.simpleName))
    else
      assert |ChildProperties(c.properties)| == 0 ==> ToChildEntities(c.properties).Success? by {
        if |ChildProperties(c.properties)| == 0 { NoChildPropertiesAllSkipped(c.properties); }
      }
      var children :- ToChildEntities(c.properties);
      if |children| == 0 then Failure(NoRelationChildren(c.simpleName))
      else Success(CompoundData(c.packageName, c.simpleName, children))
  }
}

=== FILE: wrappers.dfy ===
/** Failure-carrying results used where the processor logs an error and throws. */
module Wrappers {

  datatype Option<+T> = None | Some(value: T)

  datatype Result<+R, +E> = Success(value: R) | Failure(error: E) {

    predicate IsFailure() {
      Failure?
    }

    function PropagateFailure<U>(): Result<U, E>
      requires Failure?
    {
      Failure(error)
    }

    function Extract(): R
      requires Success?
    {
      value
    }
  }
}
